=== FILE: README.md ===
# VulkanLearning core, modelled in Dafny

This project models the core of VulkanLearning. VulkanLearning is a step-by-step C++ Vulkan
renderer, written as a sequence of stages: Triangle, Triangle_2 push constants, and so on up
to the 3D_9 specular-lighting stage and the projection showcase. The model covers:

- **Buffers.** The host-side buffer wrapper: alignment of instances to the device's minimum
  offset alignment, computed in 64-bit words. Also mapping, whole-buffer and per-index writes,
  flush and invalidate ranges, and descriptor infos.
- **Descriptors.** The set-layout, pool and writer builders.
- **Device.** Device selection: queue families, extension and layer checks, memory-type and
  format search, and device scoring with the C++ `int` wrap-around.
- **Swapchain.** Surface format, present mode, extent, image count and sharing-mode choices.
  Also the depth format, creation and recreation, and the per-frame fences: the
  acquire/submit protocol with `imagesInFlight`.
- **Renderer.** The renderer's frame protocol: `beginFrame`, `endFrame`, swapchain
  recreation on stale or resized surfaces, and the render-pass bracket.
- **Frame loops.** The main loops of the stages, as traces of commands checked against a small
  automaton of the renderer's required order.
- **Model loading.** OBJ vertex assembly and deduplication, and the indexed or non-indexed
  draw.
- **Mesh generators.** The Sierpinski subdivision and the view-frustum mesh.
- **Entity-component system.** Component type IDs, entities with their lookup array and
  bitset, point-light components, and function components.
- **Entity manager.** Light packing into the global UBO, rendering of model entities, and
  `refresh`.
- **Scenes.** The 3D_9 scene set-up.
- **Stage-specific parts.** The push-constant stages' own swapchain handling, and the
  showcase's two-camera view state.

The driver, the GPU and the window are not modelled as code. Every answer they give is a
parameter of the operation that receives it: a `VkResult`, the handles the driver hands out,
the images of a new swapchain, and the window extent polled while minimised. Floating-point
values stay opaque: a matrix is named by where it comes from, and vertices are a type
parameter. A C++ `assert` becomes a `requires`. A thrown `std::runtime_error` becomes a
`Failure` of the `Outcome` type.

## Model

| member | source | states |
|---|---|---|
| Bits.Not64 | Showcase_1_projection_showcase/phm_buffer.cpp:25 | `~` on a 64-bit word: the complement stays a word and adds up with its input to the all-ones word |
| Bits.ClearLowBits | Showcase_1_projection_showcase/phm_buffer.cpp:25 | ANDing a word with the complement of the low-k mask clears exactly the low k bits, the same as shifting right and back |
| Buffer.GetAlignment | Showcase_1_projection_showcase/phm_buffer.cpp:21-28 | the aligned size is a 64-bit word; with no alignment requirement it is the instance size itself |
| Buffer.AlignmentIsClearLow | Showcase_1_projection_showcase/phm_buffer.cpp:25 | for a power-of-two alignment that cannot wrap, the mask expression rounds `size + align - 1` down to a multiple of the alignment |
| Buffer.AlignmentIsLeastMultiple | Showcase_1_projection_showcase/phm_buffer.cpp:21-28 | the aligned size is the least multiple of the alignment that is at least the instance size: a multiple, not below the size, less than one alignment above it, and unchanged if already aligned |
| Buffer.DefaultAlignmentIsInstanceSize | 3D_6_uniform/phm_buffer.h:18 | with the default alignment of 1, instances are packed at their own size |
| Buffer.AlignmentIdempotent | Showcase_1_projection_showcase/phm_buffer.cpp:21-28 | aligning an already aligned size changes nothing |
| Buffer.NewBuffer | Showcase_1_projection_showcase/phm_buffer.cpp:30-45 | the arithmetic of the constructor: a new buffer is unmapped, its alignment size is the aligned instance size, and its total size is alignment size times instance count |
| Buffer.CreateBuffer | 3D_6_uniform/phm_device.cpp:703-739 | creation fails when the driver cannot create the buffer, then when no memory type fits the buffer and the requested properties, then when allocation fails; it succeeds exactly when none of these happens, with the buffer NewBuffer describes |
| Buffer.Map | Showcase_1_projection_showcase/phm_buffer.cpp:59-63 | a successful map records the mapped offset; a failed one leaves the buffer as it was; the driver's result is returned; only the mapping changes |
| Buffer.Unmap | Showcase_1_projection_showcase/phm_buffer.cpp:68-75 | afterwards the buffer is unmapped; an unmapped buffer is left alone; nothing but the mapping changes |
| Buffer.UnmapIdempotent | Showcase_1_projection_showcase/phm_buffer.cpp:68-75 | unmapping twice is unmapping once, and the memory contents survive |
| Buffer.WriteToBuffer | Showcase_1_projection_showcase/phm_buffer.cpp:83-97 | the copied range receives the data's bytes (the whole buffer for WHOLE_SIZE, else `size` bytes at `offset`) and every other byte keeps its value |
| Buffer.Flush | Showcase_1_projection_showcase/phm_buffer.cpp:104-112 | the range handed to the driver is the caller's offset and size, neither rounded nor clamped, and the driver's result is passed back (what the range covers: Buffer.FlushCoversWrite) |
| Buffer.Invalidate | Showcase_1_projection_showcase/phm_buffer.cpp:119-127 | the range handed to the driver is the caller's offset and size, neither rounded nor clamped, and the driver's result is passed back (what the range covers: Buffer.FlushCoversWrite) |
| Buffer.DescriptorInfo | Showcase_1_projection_showcase/phm_buffer.cpp:135-142 | the descriptor names this buffer with the caller's offset and range (what it covers: Buffer.WholeDescriptorCoversEverySlot) |
| Buffer.WriteToIndex | Showcase_1_projection_showcase/phm_buffer.cpp:149-152 | instance `index` lands at `index * alignmentSize`: that slot's first instance-size bytes take the data, every other byte is unchanged |
| Buffer.FlushIndex | Showcase_1_projection_showcase/phm_buffer.cpp:158 | the flushed range is exactly slot `index`: one alignment size starting at its aligned offset; the driver's result is passed back |
| Buffer.InvalidateIndex | Showcase_1_projection_showcase/phm_buffer.cpp:174-177 | the invalidated range is exactly slot `index`; the driver's result is passed back |
| Buffer.DescriptorInfoForIndex | Showcase_1_projection_showcase/phm_buffer.cpp:165-168 | the descriptor covers exactly slot `index` of this buffer |
| Buffer.FlushCoversWrite | 3D_6_uniform/phm_buffer.h:27-30 | in a buffer mapped at its start, the default flush and invalidate (whole size, offset 0) name every byte any write changed, and a write of n bytes at an offset is covered by the flush and invalidate with the same size and offset |
| Buffer.FlushIndexCoversWriteToIndex | Showcase_1_projection_showcase/phm_buffer.cpp:149-158 | when the stride holds an instance, the flush and the invalidate of slot `index` name every byte that writing that slot changed |
| Buffer.WholeDescriptorCoversEverySlot | Showcase_1_projection_showcase/phm_buffer.cpp:135-168 | when the slots tile the buffer, the default descriptor names the same buffer as every slot's descriptor and every byte that slot's descriptor names |
| Buffer.IndexSlotsAreAlignedAndDisjoint | Showcase_1_projection_showcase/phm_buffer.cpp:149-177 | for a power-of-two alignment, every index slot starts on an alignment boundary, holds a whole instance, lies inside the buffer, and two different slots never overlap |
| Descriptor.NewLayoutBuilder | 3D_6_uniform/phm_descriptor.h:30 | a new layout builder has no binding |
| Descriptor.AddBinding | 3D_8_billboards/phm_descriptor.cpp:10-24 | the new binding number is added with its type, stages and count; every earlier binding is kept; each entry stays keyed by its own number |
| Descriptor.AddBindingCommutes | 3D_8_billboards/phm_descriptor.cpp:10-24 | adding two different bindings in either order gives the same builder |
| Descriptor.LayoutEntries | 3D_8_billboards/phm_descriptor.cpp:36-40 | the create-info array lists every binding of the map exactly once and nothing else |
| Descriptor.BuildLayout | 3D_8_billboards/phm_descriptor.cpp:33-55 | creation fails (throws) exactly when the driver refuses; a created layout keeps the builder's bindings and passes exactly one create-info entry per binding number: each entry is the builder's binding under its own number, every number has an entry, and no number appears twice |
| Descriptor.NewPoolBuilder | 3D_6_uniform/phm_descriptor.h:65-67 | a new pool builder has no pool sizes, at most 1000 sets and no flags |
| Descriptor.AddPoolSize | 3D_8_billboards/phm_descriptor.cpp:64-69 | the size is appended after the earlier ones; sets and flags are untouched |
| Descriptor.SetPoolFlags | 3D_8_billboards/phm_descriptor.cpp:71-76 | only the flags change |
| Descriptor.SetMaxSets | 3D_8_billboards/phm_descriptor.cpp:77-81 | only the set limit changes |
| Descriptor.SettersOverwrite | 3D_8_billboards/phm_descriptor.cpp:71-81 | a second call of a setter overrides the first, and the two setters commute |
| Descriptor.BuildPool | 3D_8_billboards/phm_descriptor.cpp:83-109 | creation fails exactly when the driver refuses; a created pool carries the builder's sizes, flags and set limit |
| Descriptor.AllocateDescriptorSet | 3D_8_billboards/phm_descriptor.cpp:116-132 | a set is granted, with the driver's handle, exactly when allocation succeeds |
| Descriptor.NewWriter | 3D_8_billboards/phm_descriptor.cpp:150-151 | a new writer holds no write and refers to the given layout and pool |
| Descriptor.Enqueue | 3D_8_billboards/phm_descriptor.cpp:153-173 | a write for an existing single-descriptor binding is appended, typed as the layout says, with no target set yet; earlier writes are kept |
| Descriptor.WriteBuffer | 3D_8_billboards/phm_descriptor.cpp:153-173 | the appended write carries the buffer info, takes its type from the layout, and keeps every queued write consistent with the layout |
| Descriptor.WriteImage | 3D_8_billboards/phm_descriptor.cpp:175-195 | the appended write carries the image info, takes its type from the layout, and keeps every queued write consistent with the layout |
| Descriptor.Overwrite | 3D_8_billboards/phm_descriptor.cpp:208-215 | every queued write is retargeted at the given set and nothing else about it changes; the update sent is the retargeted list |
| Descriptor.OverwriteLastWins | 3D_8_billboards/phm_descriptor.cpp:208-215 | overwriting for one set and then another is the same as overwriting for the second only |
| Descriptor.OverwriteKeepsLayoutMatch | 3D_8_billboards/phm_descriptor.cpp:208-215 | retargeting keeps every write consistent with the layout |
| Descriptor.Build | 3D_8_billboards/phm_descriptor.cpp:197-206 | it succeeds exactly when allocation does; then every write is sent for the new set with its binding and info, otherwise nothing is sent |
| Device.FindQueueFamilies | 3D_6_uniform/phm_device.cpp:569-606 | the indices are complete exactly when some family does graphics and some family presents; each index names a family with that ability; the scan stops at the first point where both are found |
| Device.UniqueQueueFamilies | 3D_6_uniform/phm_device.cpp:266-278 | the set holds the graphics and present families and nothing else; it has one element exactly when they coincide |
| Device.IsComplete | Triangle/phm_device.h:30 | complete exactly when both the graphics and the present family are set |
| Device.IsDeviceSuitable | 3D_6_uniform/phm_device.cpp:356-384 | suitable exactly when some family does graphics and some family presents, every required device extension is offered, the surface has at least one format and one present mode, and sampler anisotropy is supported |
| Device.CheckDeviceExtensionSupport | 3D_6_uniform/phm_device.cpp:541-562 | true exactly when every required device extension is available |
| Device.CheckValidationLayerSupport | 3D_6_uniform/phm_device.cpp:428-468 | true exactly when every requested layer is available; on false, names the first missing layer |
| Device.GetRequiredExtensions | 3D_6_uniform/phm_device.cpp:474-492 | the window's extensions in order, plus the debug-utils extension exactly when validation is on |
| Device.HasRequiredInstanceExtensions | 3D_6_uniform/phm_device.cpp:497-534 | walks the required instance extensions in order and fails with the missing-extension error at the first one not available; it succeeds exactly when every required one is available |
| Device.FindSupportedFormat | 3D_6_uniform/phm_device.cpp:645-665 | returns the first candidate, in the caller's order, whose features for the tiling include the requested ones; fails exactly when none does |
| Device.FindMemoryType | 3D_6_uniform/phm_device.cpp:673-694 | returns the lowest memory type allowed by the filter that has all requested properties; fails exactly when there is none |
| Device.ToInt32 | 3D_6_uniform/phm_device.cpp:902-928 | conversion to a 32-bit `int`: the result is in range, agrees with the input modulo 2^32, and equals it when the input already fits |
| Device.RateDeviceSuitability | 3D_6_uniform/phm_device.cpp:902-928 | an unsuitable device scores 0; a suitable one scores its largest 2D image dimension plus 1000 if discrete, when that fits in an `int` |
| Device.BestCandidate | 3D_6_uniform/phm_device.cpp:230-250 | the chosen score is the maximum, and among equal maxima the last one, as the multimap's last element is |
| Device.PickPhysicalDevice | 3D_6_uniform/phm_device.cpp:212-255 | no device means failure; otherwise the pick is a suitable device with the best positive score, and failure happens exactly when no score is positive |
| EarlyApps.ObjectCommands | Triangle_2_pushconstants/phm_app.cpp:316-338 | three commands per game object |
| EarlyApps.ObjectCommandsAt | Triangle_2_pushconstants/phm_app.cpp:316-338 | object k's commands are its push constants, its model binding and its draw, at positions 3k to 3k+2 |
| EarlyApps.OneDrawPerObject | Triangle_2_pushconstants/phm_app.cpp:316-338 | rendering the game objects issues exactly one draw per object |
| EarlyApps.FourPushDraws | Triangle_w_pushconstants/phm_app.cpp:297-310 | four push-constant blocks, each followed by a draw of the whole model |
| EarlyApps.RecordCommandBuffer | Triangle_2_pushconstants/phm_app.cpp:264-314 | the render pass is begun on the acquired image's framebuffer, viewport, scissor and pipeline follow, the stage's draws come next, and the pass ends; Triangle_2 draws once per object, Triangle_w four times |
| EarlyApps.BuildSwapchain | Triangle_2_pushconstants/phm_app.cpp:211-240 | a rebuilt swapchain is valid, has the driver's images, starts at frame 0 and names the previous handle as its old swapchain |
| EarlyApps.NewApp | Triangle_2_pushconstants/phm_app.cpp:113-124 | start-up succeeds exactly when the swapchain is built and the per-image command buffers are allocated |
| EarlyApps.Recreate | Triangle_2_pushconstants/phm_app.cpp:211-240 | the new swapchain replaces the old one; command buffers are reallocated only when the image count changed, and kept otherwise |
| EarlyApps.RecreateAcceptsFormatChange | Triangle_2_pushconstants/phm_app.cpp:211-240 | unlike the later renderer, these stages accept a recreated swapchain whose image or depth format changed |
| EarlyApps.AfterPresent | Triangle_2_pushconstants/phm_app.cpp:359-369 | a suboptimal or out-of-date present, or a resize, recreates the swapchain and clears the resize flag; any other non-success throws; success keeps the app |
| EarlyApps.DrawFrame | Triangle_2_pushconstants/phm_app.cpp:340-370 | out-of-date at acquire recreates and draws nothing; another acquire error throws; otherwise the acquired image's buffer is re-recorded and submitted, and the image is paired with the current frame's fence |
| EarlyApps.TrianglePass | Triangle/phm_app.cpp:64-115 | the first stage's pre-recorded pass draws exactly once |
| EarlyApps.NewStrictApp | Triangle/phm_app.cpp:64-115 | start-up succeeds exactly when allocation and every recording succeed; buffer i records the pass for image i |
| EarlyApps.StrictDrawFrame | Triangle/phm_app.cpp:117-133 | the frame succeeds exactly when acquire, submit and present all succeed; it submits the pre-recorded buffer of the acquired image |
| Ecs.NextTypeId | 3D_9_specular_lighting/phm_component.h:26-30 | drawing a fresh ID leaves the IDs already handed out untouched |
| Ecs.TypeId | 3D_9_specular_lighting/phm_component.h:32-37 | a component class gets an ID on first request and keeps it; earlier classes keep theirs; the registry stays injective |
| Ecs.TypeIdIsStable | 3D_9_specular_lighting/phm_component.h:32-37 | asking again for a class's ID returns the same ID and changes nothing |
| Ecs.DistinctTypesGetDistinctIds | 3D_9_specular_lighting/phm_component.h:26-37 | two different component classes never share an ID |
| Ecs.FirstRequestDrawsCounter | 3D_9_specular_lighting/phm_component.h:26-37 | a first request takes the counter's value and advances it, so every ID handed out is below the next one |
| Ecs.ColorIntensityPacksBoth | 3D_9_specular_lighting/phm_pointLightComponent.h:27-29 | the packed vector is the colour followed by the intensity |
| Ecs.DefaultLightIsWhite | 3D_9_specular_lighting/phm_pointLightComponent.h:33-34 | a default light is white with intensity 1 and radius 0.1 |
| Ecs.LightWithColor | 3D_9_specular_lighting/phm_pointLightComponent.h:19 | a light built from a colour has that colour, intensity 1 and the default radius |
| Ecs.LightWith | 3D_9_specular_lighting/phm_pointLightComponent.h:20 | a light built from colour, intensity and radius reads back exactly those |
| Ecs.SetColor | 3D_9_specular_lighting/phm_pointLightComponent.h:22 | the colour changes; intensity and radius are kept |
| Ecs.SetColorIntensity | 3D_9_specular_lighting/phm_pointLightComponent.h:23 | colour and intensity take the packed vector; the radius is kept |
| Ecs.SetIntensity | 3D_9_specular_lighting/phm_pointLightComponent.h:24 | the intensity changes; colour and radius are kept |
| Ecs.SetRadius | 3D_9_specular_lighting/phm_pointLightComponent.h:25 | the radius changes; colour and intensity are kept |
| Ecs.GetColor | 3D_9_specular_lighting/phm_pointLightComponent.h:27 | the colour is the first three components of the packed vector, whose fourth stays the intensity |
| Ecs.GetColorIntensity | 3D_9_specular_lighting/phm_pointLightComponent.h:28 | the packed vector is the whole light apart from its radius |
| Ecs.GetIntensity | 3D_9_specular_lighting/phm_pointLightComponent.h:29 | the intensity is the packed vector's fourth component |
| Ecs.GetRadius | 3D_9_specular_lighting/phm_pointLightComponent.h:30 | the radius is the light apart from its packed vector |
| Ecs.GettersRebuildLight | 3D_9_specular_lighting/phm_pointLightComponent.h:20-30 | the getters read back what the constructor and the setters take: building a light from its colour, intensity and radius, or setting another light's packed vector and radius to them, gives the light back |
| Ecs.ColorAndIntensitySettersCommute | 3D_9_specular_lighting/phm_pointLightComponent.h:22-24 | setting colour and intensity in either order gives the same light |
| Ecs.NewEntity | 3D_9_specular_lighting/phm_entity.h:58-64 | a new entity is alive, has no component, and is well formed under any type IDs |
| Ecs.Destroy | 3D_9_specular_lighting/phm_entity.h:26 | destroying only clears the alive flag |
| Ecs.DestroyIsIdempotent | 3D_9_specular_lighting/phm_entity.h:26 | destroying twice is destroying once |
| Ecs.HasComponentIffOwned | 3D_9_specular_lighting/phm_entity.h:28-32 | for a well-formed entity the bitset says "has a T" exactly when the entity owns a component of type T |
| Ecs.HasComponent | 3D_9_specular_lighting/phm_entity.h:28-32 | for a well-formed entity, the bit of type T is set exactly when the entity has a component of type T |
| Ecs.NewEntityHasNoComponent | 3D_9_specular_lighting/phm_entity.h:63-64 | a new entity has no component of any type |
| Ecs.AddComponent | 3D_9_specular_lighting/phm_entity.h:34-46 | the component is appended with its owner set; its type's slot points at it and its bit is set; other slots are kept; well-formedness is preserved |
| Ecs.AddKeepsWellFormed | 3D_9_specular_lighting/phm_entity.h:34-46 | appending, pointing the slot and setting the bit keep the entity's representation invariant |
| Ecs.AddComponentSetsOnlyItsBit | 3D_9_specular_lighting/phm_entity.h:42-43 | after adding a T the entity has a T, and its answer for every other type is unchanged |
| Ecs.GetComponent | 3D_9_specular_lighting/phm_entity.h:48-53 | the lookup returns an owned component of the requested type, the last one of that type that was added |
| Ecs.GetReturnsAdded | 3D_9_specular_lighting/phm_entity.h:34-53 | looking up a type right after adding it returns the component just added |
| Ecs.SecondAddReplacesLookup | 3D_9_specular_lighting/phm_entity.h:40-42 | adding a second component of a type keeps both in the list, but the lookup then finds the second |
| Ecs.UpdatedThrough | 3D_9_specular_lighting/phm_entity.cpp:11-14 | updating the components in order can change only the entity's transform |
| Ecs.PassiveComponentsChangeNothing | 3D_9_specular_lighting/phm_component.h:47 | components other than function components do nothing on update |
| Ecs.UpdateEntity | 3D_9_specular_lighting/phm_entity.cpp:9-15 | every component is updated once, in order, on its owning entity; only the transform can change; an entity without function components is unchanged |
| Ecs.Select | 3D_9_specular_lighting/phm_manager.cpp:82-86 | the filtered list holds only kept elements of the input, and every kept element of the input |
| Ecs.SelectIsOrderedSelection | 3D_9_specular_lighting/phm_manager.cpp:82-86 | the filtered list is the kept elements of the input, each once and in input order: there are increasing positions in the input, exactly the kept ones, holding the list's elements |
| FrameLoop.WellOrderedAppend | 3D_9_specular_lighting/phm_app.cpp:58-85 | well-ordered frames compose: running one frame after another keeps the renderer's order |
| FrameLoop.WellOrderedFrames | 3D_7_point_light/phm_renderer.cpp:77-137 | every non-empty well-ordered trace starts with a frame begin and ends with a frame end |
| FrameLoop.FrameTraceIsWellOrdered | Triangle_4_homogeneous/phm_app.cpp:133-140 | begin frame, optional uniform write, begin pass on the frame's buffer, draw, end pass, end frame: the order the renderer's asserts demand |
| FrameLoop.StartFrame | Triangle_4_homogeneous/phm_app.cpp:133-134 | a stale swapchain hands out no command buffer and the loop skips the frame; otherwise the frame is started on the current slot's buffer |
| FrameLoop.EndFrameStep | 3D_7_point_light/phm_renderer.cpp:112-137 | ending a frame leaves the renderer valid and between frames, advances the frame slot and keeps the command buffers |
| FrameLoop.FinishFrame | Triangle_4_homogeneous/phm_app.cpp:136-139 | the pass is bracketed on the frame's own buffer and the frame is ended; the trace is the well-ordered frame trace |
| FrameLoop.PlainIteration | Triangle_4_homogeneous/phm_app.cpp:127-140 | an iteration either skips (out-of-date, nothing issued, same slot) or records one well-ordered frame on the current slot's buffer and advances the slot |
| FrameLoop.WriteKeepsSlotsMapped | 3D_6_uniform/phm_app.cpp:106-107 | writing a frame's UBO keeps every slot's buffer mapped |
| FrameLoop.UniformIteration | 3D_6_uniform/phm_app.cpp:92-113 | a recorded frame writes the UBO into the current slot's buffer, flushes it before the pass, and binds that slot's set; other slots are untouched; a skipped frame writes nothing |
| FrameLoop.UpdateAndRender | 3D_9_specular_lighting/phm_app.cpp:76-81 | the manager moves the viewer by the controller's result, updates its entities, writes and flushes the UBO, and then draws exactly the model entities with the slot's set |
| FrameLoop.ManagerFrame | 3D_9_specular_lighting/phm_app.cpp:69-83 | a started frame runs update (the viewer moved first, then every entity) and render inside the well-ordered frame trace and advances the slot |
| FrameLoop.ManagerIteration | 3D_9_specular_lighting/phm_app.cpp:66-84 | a skipped frame leaves the manager untouched; a recorded one moves the viewer by the controller's result, updates every entity, draws exactly the model entities and keeps the frame order |
| FrameLoop.RefreshKeepsReady | 3D_9_specular_lighting/phm_manager.cpp:92-100 | a refresh that keeps the viewer alive leaves the manager ready for the next update, with the viewer on the same entity |
| FrameLoop.RunPlainLoop | Triangle_4_homogeneous/phm_app.cpp:127-141 | any number of iterations issue a well-ordered trace; the loop ends valid and between frames, or stops at the first throwing frame |
| Manager.LightOfReadsTheComponent | 3D_9_specular_lighting/phm_manager.cpp:64-66 | a light entry is the entity's translation with the light's radius, and the light's colour and intensity, read through getComponent |
| Manager.LightCountIgnoresTransforms | 3D_9_specular_lighting/phm_manager.cpp:50-70 | entity updates change transforms only, so they cannot change how many lights are packed |
| Manager.PackLights | 3D_9_specular_lighting/phm_manager.cpp:55-70 | the k-th light entity, in entity order, fills entry k; the count is the number of light entities; unused entries keep their default |
| Manager.RunningLightCheckIsExact | 3D_9_specular_lighting/phm_manager.cpp:62-67 | checking each slot before it is written lets an update pass exactly when its lights fit in MAX_LIGHTS |
| Manager.AsWrittenLightCheckMisjudges | 3D_9_specular_lighting/phm_manager.cpp:62 | the check against the previous update's count lets 21 lights through after an update with none, and rejects 20 lights, which fit, after an update with 20 |
| Manager.NewManager | 3D_9_specular_lighting/phm_manager.cpp:12-40 | construction fails exactly when layout creation does; a new manager is empty and valid, with no camera or viewer, the uniform layout at binding 0 for both stages, and one buffer and one set per slot |
| Manager.AddEntity | 3D_9_specular_lighting/phm_manager.cpp:102-108 | a new entity with the next identity is appended and its position returned; nothing else changes; validity is kept |
| Manager.SetEntity | 3D_9_specular_lighting/phm_app.cpp:94-97 | a change made through the reference addEntity returned touches only that entity; validity is kept for a well-formed replacement |
| Manager.SetCamera | 3D_9_specular_lighting/phm_manager.h:36-40 | a non-null camera becomes the active camera and nothing else changes |
| Manager.SetViewerEntity | 3D_9_specular_lighting/phm_manager.h:41-45 | a non-null entity becomes the viewer and nothing else changes |
| Manager.UpdateAll | 3D_9_specular_lighting/phm_manager.cpp:50-51 | every entity is updated, in order, and only its transform can change |
| Manager.Update | 3D_9_specular_lighting/phm_manager.cpp:42-77 | the keyboard controller first moves the viewer to the given translation and rotation (its scale kept); then every entity is updated, the viewer from its moved state; then the lights of the UPDATED entities are packed, the camera matrices are set, and the UBO is written and flushed to the frame's own slot; other slots are untouched; the stored light count is the packed count |
| Manager.TransformsKeepValid | 3D_9_specular_lighting/phm_manager.cpp:50-51 | changing only transforms keeps the manager valid |
| Manager.FrameUbo | 3D_9_specular_lighting/phm_manager.cpp:55-74 | the UBO holds the light entities' lights in order, their count, the camera's three matrices and the default ambient colour |
| Manager.Render | 3D_9_specular_lighting/phm_manager.cpp:79-90 | the entities with a model component are drawn, each once and in scene order, with the frame's set and the stored light count |
| Manager.KeptViewer | 3D_9_specular_lighting/phm_manager.h:48-52 | the viewer pointer survives the erase: after cutting the list down, a kept viewer's new position names the same entity, and a viewer the cut drops is no longer named |
| Manager.RefreshAsWritten | 3D_9_specular_lighting/phm_manager.cpp:92-100 | the code as written keeps only the dead entities, and a live viewer is erased with the other live entities |
| Manager.RefreshAsWrittenErasesLiveEntities | 3D_9_specular_lighting/phm_manager.cpp:92-100 | as written, refresh keeps no live entity, and on a scene with only live entities it empties the manager |
| Manager.Refresh | 3D_9_specular_lighting/phm_manager.cpp:92-100 | the intended refresh keeps exactly the live entities, in order, and keeps the manager valid; a live viewer still names the same entity at its new position, as the `Entity*` does; nothing else changes |
| Manager.RefreshIsIdempotent | 3D_9_specular_lighting/phm_manager.cpp:92-100 | refreshing twice is refreshing once |
| Manager.RefreshKeepsLiveScene | 3D_9_specular_lighting/phm_manager.cpp:92-100 | refreshing a scene without dead entities changes nothing |
| MeshGen.Corner | Triangle_4_homogeneous/phm_app.cpp:19-102 | sub-triangle k starts at corner k, followed by the midpoints from corner k towards the other two corners in index order |
| MeshGen.Sierpinski | Triangle_4_homogeneous/phm_app.cpp:14-110 | subdivision to depth d yields 3^(d+1) vertices, starting at the first corner |
| MeshGen.SierpinskiStructure | Triangle_4_homogeneous/phm_app.cpp:104-109 | depth 0 is the triangle itself; deeper, the result is the three corner sub-triangles' results concatenated in order |
| MeshGen.SierpinskiKeeps | Triangle_4_homogeneous/phm_app.cpp:14-110 | any property of the corners that midpoints preserve holds of every generated vertex |
| MeshGen.HomogeneousMid | Triangle_4_homogeneous/phm_app.cpp:22-27 | the homogeneous midpoint averages x and y and puts z at 1 |
| MeshGen.HomogeneousDepthIsOne | Triangle_4_homogeneous/phm_app.cpp:14-110 | starting from corners at z = 1, every generated vertex has z = 1 |
| MeshGen.SceneVertexCount | Triangle_4_homogeneous/phm_app.cpp:149-154 | the scene's depth-6 triangle has 2187 vertices |
| MeshGen.FrustumIndicesInRange | Showcase_1_projection_showcase/phm_app.cpp:49-156 | the frustum has 8 corners and 36 indices (12 triangles), every index naming a corner |
| MeshGen.FrustumFacesAreCovered | Showcase_1_projection_showcase/phm_app.cpp:49-156 | each of the six faces is drawn by two triangles whose corners are exactly that face's four corners |
| MeshGen.FrustumModelDrawsEveryIndex | Showcase_1_projection_showcase/phm_app.cpp:49-156 | the frustum model is drawn indexed with all 36 indices |
| Model.DeduplicationRoundTrip | 3D_9_specular_lighting/phm_model.cpp:230-240 | looking every index up in the vertex list gives back the input sequence |
| Model.Deduplicate | 3D_9_specular_lighting/phm_model.cpp:188-243 | one index per input vertex, distinct vertices in first-seen order, and each index names a vertex equal to its input |
| Model.IndicesIdentifyVertices | 3D_9_specular_lighting/phm_model.cpp:56-59 | two positions get the same index exactly when their vertices compare equal |
| Model.Flatten | 3D_9_specular_lighting/phm_model.cpp:192-194 | the shapes' indices are visited shape by shape, in order |
| Model.Assemble | 3D_9_specular_lighting/phm_model.cpp:196-228 | position and colour come from the vertex index, the normal and the uv from their own indices; a negative index leaves that attribute at its zero default |
| Model.AssembleAll | 3D_9_specular_lighting/phm_model.cpp:192-228 | one assembled vertex per visited index, in order |
| Model.LoadModel | 3D_9_specular_lighting/phm_model.cpp:176-243 | a parse failure throws; otherwise the builder is the deduplication of the assembled vertices, with one index per visited OBJ index |
| Model.CreateModel | 3D_9_specular_lighting/phm_model.cpp:105-146 | the model records the vertex and index counts, and has an index buffer exactly when there are indices |
| Model.BindsIndexBuffer | 3D_9_specular_lighting/phm_model.cpp:85-95 | the index buffer is bound exactly when the model has one |
| Model.DrawModel | 3D_9_specular_lighting/phm_model.cpp:97-103 | an indexed draw of every index when there is an index buffer, else a draw of every vertex |
| Model.LoadedModelDrawsEveryIndex | 3D_9_specular_lighting/phm_model.cpp:97-103 | a loaded model draws one index per input vertex, and uploads one vertex per distinct input vertex |
| Renderer.WaitForNonZeroExtent | 3D_7_point_light/phm_renderer.cpp:27-34 | the wait ends at the first polled extent with no zero dimension |
| Renderer.BuildSwapchain | 3D_7_point_light/phm_renderer.cpp:25-53 | the swapchain is rebuilt at a non-zero extent with the old one as predecessor; a rebuilt swapchain whose formats differ from the old one throws |
| Renderer.GetCurrentCommandBuffer | 3D_6_uniform/phm_renderer.h:27-31 | during a frame, the command buffer of the current frame slot |
| Renderer.GetFrameIndex | 3D_6_uniform/phm_renderer.h:33-37 | during a frame, the current frame slot, always below MAX_FRAMES_IN_FLIGHT |
| Renderer.NewRenderer | 3D_7_point_light/phm_renderer.cpp:13-18 | a new renderer is valid and between frames, at slot 0, with MAX_FRAMES_IN_FLIGHT command buffers and no work pending; a failed allocation throws |
| Renderer.RecreateSwapchain | 3D_7_point_light/phm_renderer.cpp:25-53 | recreation replaces only the swapchain, after the device is idle; the new one has the driver's images, names the old one, and keeps its formats |
| Renderer.BeginFrame | 3D_7_point_light/phm_renderer.cpp:77-110 | out-of-date recreates and returns no buffer; other errors throw; otherwise the frame starts on the current slot's buffer at the acquired image, and that slot's earlier work has finished |
| Renderer.SkipFrame | 3D_7_point_light/phm_renderer.cpp:84-88 | a skipped frame leaves the renderer valid and between frames, with a new swapchain and the same slot |
| Renderer.EndFrame | 3D_7_point_light/phm_renderer.cpp:112-137 | recording and submit failures throw; a present that is stale or follows a resize recreates the swapchain; other present errors throw; the frame then ends and the slot advances |
| Renderer.PresentFrame | 3D_7_point_light/phm_renderer.cpp:125-133 | a suboptimal or out-of-date result, or a resize, recreates the swapchain and clears the resize flag; another error throws; success keeps the renderer |
| Renderer.AdvanceFrame | 3D_7_point_light/phm_renderer.cpp:135-136 | the slot advances, the frame ends, and the submitted slot's buffer waits on the fence just used |
| Renderer.FenceForAdvances | 3D_7_point_light/phm_renderer.cpp:135-136 | the renderer's slot and the swapchain's frame advance together, so each command buffer keeps being paired with the same fence |
| Renderer.FramebufferResized | 3D_7_point_light/phm_renderer.cpp:125-127 | a resize only raises the flag that the next end of frame consumes |
| Renderer.GpuCompletes | Showcase_1_projection_showcase/phm_swapchain.cpp:84-91 | when the GPU signals a fence, the work waiting on it is no longer pending, and nothing becomes pending |
| Renderer.BeginSwapChainRenderPass | 3D_7_point_light/phm_renderer.cpp:139-174 | the pass targets the acquired image's framebuffer; render area, viewport and scissor are the swapchain extent; two clear values |
| Renderer.EndSwapChainRenderPass | 3D_7_point_light/phm_renderer.cpp:176-180 | the pass is ended on the frame's own command buffer |
| Scene.SceneRegistry | 3D_9_specular_lighting/phm_app.cpp:94-131 | the component classes get IDs 0, 1 and 2 in the order the scene first uses them: model, point light, function |
| Scene.AddAll | 3D_9_specular_lighting/phm_entity.h:34-46 | adding components one after another appends them in order, sets their bits, keeps identity, liveness and transform, and keeps the entity well formed |
| Scene.Realize | 3D_9_specular_lighting/phm_app.cpp:94-97 | a blueprint's entity carries its identity, its transform and its components in order, with its types' bits set, and is well formed |
| Scene.SceneShape | 3D_9_specular_lighting/phm_app.cpp:91-155 | the scene is three model entities followed by four lights whose function components carry offsets 0 to 3 |
| Scene.ScenePlaceable | 3D_9_specular_lighting/phm_app.cpp:91-155 | every component class the scene uses has an ID that fits the bitset |
| Scene.ModelEntityIsDrawnOnly | 3D_9_specular_lighting/phm_app.cpp:94-110 | a model entity is drawn and is not a light |
| Scene.LightEntityIsLitOnly | 3D_9_specular_lighting/phm_app.cpp:127-131 | a light entity is packed as a light, is not drawn, and carries its offset |
| Scene.LoadOne | 3D_9_specular_lighting/phm_app.cpp:94-97 | one blueprint becomes one appended entity with the next identity |
| Scene.LoadObjects | 3D_9_specular_lighting/phm_app.cpp:91-155 | the blueprints are appended in order with consecutive identities; earlier entities are kept, nothing else in the manager changes, and the manager stays valid |
| Scene.SetUpScene | 3D_9_specular_lighting/phm_app.cpp:33-52 | after set-up, exactly the first three entities are drawn and the next four are packed as lights (within MAX_LIGHTS) with offsets 0 to 3; the viewer is the componentless last entity, placed at translation (0, -0.5, -2.3) |
| Scene.ClassifyScene | 3D_9_specular_lighting/phm_app.cpp:91-155 | in the loaded scene, model entities are exactly the first three and light entities exactly the next four |
| Showcase.HandleInput | Showcase_1_projection_showcase/phm_app.cpp:252-276 | each key flips its own flag; a camera press points both pointers at the newly active pair; turning both projections on restarts the interpolation clock, otherwise the clock advances |
| Showcase.InputKeepsPointersOnActive | Showcase_1_projection_showcase/phm_app.cpp:255-269 | across any number of iterations, the camera and object pointers always name the pair the flag selects |
| Showcase.InitialViewPointsAtActive | Showcase_1_projection_showcase/phm_app.cpp:222-232 | before the loop, the main camera is active and both pointers name it |
| Showcase.CameraToggleIsInvolution | Showcase_1_projection_showcase/phm_app.cpp:255-269 | two camera presses restore the active camera and both pointers |
| Showcase.FrameUbo | Showcase_1_projection_showcase/phm_app.cpp:304-311 | the first pair is the active camera's; the second pair interpolates towards the main camera exactly when both projections are shown from the projection viewer, and is the identity otherwise |
| Showcase.RenderCalls | Showcase_1_projection_showcase/phm_app.cpp:318-328 | objects and point lights are always drawn, in that order; the frustum is drawn last, exactly when the projection viewer is active |
| Showcase.Iteration | Showcase_1_projection_showcase/phm_app.cpp:246-332 | input is handled every iteration; a started frame writes the UBO built from the new view into its slot, flushes it before the pass, and runs the render calls inside it |
| Swapchain.NextSlot | Showcase_1_projection_showcase/phm_swapchain.cpp:178 | the frame counter advances cyclically below MAX_FRAMES_IN_FLIGHT |
| Swapchain.ScanPreferredFormat | Showcase_1_projection_showcase/phm_swapchain.cpp:461-468 | the scan finds B8G8R8A8_SRGB with sRGB non-linear exactly when it is available |
| Swapchain.ChooseSwapSurfaceFormat | Showcase_1_projection_showcase/phm_swapchain.cpp:458-471 | the preferred format when available, else the first one; the choice is always available |
| Swapchain.ChooseSwapPresentMode | Showcase_1_projection_showcase/phm_swapchain.cpp:473-487 | mailbox exactly when available, FIFO otherwise |
| Swapchain.ChooseSwapExtent | Showcase_1_projection_showcase/phm_swapchain.cpp:489-507 | the surface's extent unless it is the sentinel; then each window dimension is clamped as max(min, min(max, window)): kept inside the range, the minimum below it, the maximum above it, and the minimum whenever the maximum is below the minimum |
| Swapchain.ChooseImageCount | Showcase_1_projection_showcase/phm_swapchain.cpp:197-202 | one more than the minimum, capped by a non-zero maximum |
| Swapchain.ChooseSharingMode | Showcase_1_projection_showcase/phm_swapchain.cpp:225-236 | concurrent, shared by both families, exactly when the graphics and present families differ |
| Swapchain.SharingMatchesQueueCount | Showcase_1_projection_showcase/phm_swapchain.cpp:223-236 | the sharing is concurrent exactly when the device creates two queue families |
| Swapchain.FindDepthFormat | Showcase_1_projection_showcase/phm_swapchain.cpp:509-515 | the first of D32, D32S8, D24S8, in that order, with optimal depth-attachment support: any later pick means every earlier candidate lacks it; fails exactly when none has it |
| Swapchain.GetFrameBuffer | 3D_6_uniform/phm_swapchain.h:32 | framebuffer i joins colour view i and depth view i at the swapchain extent |
| Swapchain.ImageCount | 3D_6_uniform/phm_swapchain.h:35 | the number of swapchain images, which every per-image container of a valid swapchain matches |
| Swapchain.CreateSwapchain | Showcase_1_projection_showcase/phm_swapchain.cpp:184-261 | a created swapchain is valid, has the driver's images, the chosen surface format, extent, present mode, sharing mode and requested image count, and the depth format; it names its predecessor and starts at frame 0 with every fence signalled and no image in flight |
| Swapchain.Assemble | Showcase_1_projection_showcase/phm_swapchain.cpp:29-37 | image views, depth views and framebuffers are built per image; format, colour space, present mode, sharing and requested count are the ones chosen; fences are per frame, all signalled; no image is in flight |
| Swapchain.CompareSwapChainFormats | 3D_6_uniform/phm_swapchain.h:50-53 | true exactly when the two swapchains have the same image format and the same depth format |
| Swapchain.CompareFormatsIsEquivalence | 3D_6_uniform/phm_swapchain.h:50-53 | the format comparison is reflexive, symmetric and transitive |
| Swapchain.RecreateKeepsFormats | Showcase_1_projection_showcase/phm_swapchain.cpp:184-261 | on the same device, two creations agree on formats, so the comparison after a recreate passes |
| Swapchain.AcquireNextImage | Showcase_1_projection_showcase/phm_swapchain.cpp:81-104 | acquire returns only after the current frame's fence is signalled, and changes nothing else |
| Swapchain.SubmitCommandBuffers | Showcase_1_projection_showcase/phm_swapchain.cpp:112-182 | it waits for the fence of a previous frame using the image, pairs the image with the current fence, resets and submits with it, and advances the frame; a failed submit throws; the present result is returned |
| Swapchain.GpuSignals | Showcase_1_projection_showcase/phm_swapchain.cpp:152-156 | the GPU signals exactly the fence it was given |
| Swapchain.AcquireThenSubmitWaitsBeforeReset | Showcase_1_projection_showcase/phm_swapchain.cpp:81-156 | a fence is only reset after a wait that saw it signalled, and the next frame uses the other fence |
| Uniform.AlignedInstanceFits | 3D_6_uniform/phm_app.cpp:48-53 | a 32-bit UBO size aligned to a device offset alignment of at most 256 cannot wrap, and is the least aligned size holding it |
| Uniform.CreateSlots | 3D_6_uniform/phm_app.cpp:45-68 | one mapped uniform buffer per slot, each holding MAX_FRAMES_IN_FLIGHT aligned instances, and one set per slot that binds that slot's buffer at binding 0 |
| Uniform.UboCopyLengthAsWritten | Showcase_1_projection_showcase/phm_buffer.cpp:87-90 | as written, a WHOLE_SIZE write copies the buffer's full size from the source pointer |
| Uniform.AsWrittenUboCopyOverreads | 3D_6_uniform/phm_app.cpp:106 | writing one UBO with WHOLE_SIZE copies at least twice the UBO's size, so it reads past the source struct |
| Uniform.WriteUbo | 3D_6_uniform/phm_app.cpp:106 | the intended write copies exactly the UBO's bytes to the start of the buffer and leaves the rest unchanged |
| Uniform.WriteFrameUbo | 3D_6_uniform/phm_app.cpp:106-107 | the frame's own slot receives the UBO and is flushed whole; every other slot is untouched; the driver's answer to the flush is discarded, as the application discards it |
| UniformApps.GlobalStages | 3D_6_uniform/phm_app.cpp:57-59 | the vertex stage always sees binding 0; the fragment stage sees it in every stage after 3D_6 |
| UniformApps.GlobalPoolBuilder | 3D_6_uniform/phm_app.cpp:31-34 | the pool allows one set per frame slot and one uniform-buffer descriptor per frame slot |
| UniformApps.GlobalLayoutBuilder | 3D_6_uniform/phm_app.cpp:57-59 | the layout has one uniform buffer at binding 0 with the default count of one |
| UniformApps.SetUpGlobals | 3D_6_uniform/phm_app.cpp:29-68 | pool and layout creation failures throw; otherwise one buffer per slot and, where allocation succeeds, one set per slot describing that buffer |

## Left out

- Floating point is not modelled. Matrices, camera projections, the interpolation `lerp`, the light rotation and vertex positions stay opaque.
  Vertices are a type parameter, and a matrix is named by where it comes from.
- The byte encoding of a UBO is not modelled. It is a parameter `encode` with a fixed length for each stage.
- GLFW, the window, time and keyboard input become parameters (polled extents, key presses, elapsed ticks). The keyboard controller's `moveInPlaneXZ` is floating point, so its result, the viewer's new translation and rotation, is a parameter of Manager.Update.
- The Vulkan driver is not modelled. Every driver answer is an input.
- Pipelines, shaders and render systems are not modelled. They only draw what they are handed; the model records which entities or objects each render call is given.
- The OBJ parser (tinyobjloader) and the vertex hash are not modelled. A parse becomes an input, and vertex equality is Dafny equality.
- The FunctionComponent's stored lambda is a `behaviour` parameter that can change only the transform.
- The Triangle stage's swapchain file is not part of this model. The Triangle stage is modelled with the showcase swapchain's acquire and submit.
- The showcase UBO's ambient colour, light position and light colour are not modelled, because they are floating point.
- The 3D_1 to 3D_5 stages, CheckSupport and the render systems' own pipelines are not modelled. Their renderer, buffer and device code is the code modelled here.
- The validation-layer on/off switch (`NDEBUG`) is a boolean parameter.
- Destruction, freeing of command buffers and `vkDeviceWaitIdle` at shutdown are not modelled. Beyond "the device is idle" they are invisible to the properties stated.
- Device.RateDeviceSuitability states the exact score only when it fits in an `int`. The wrapped value is given by `ToInt32` but not restated in the ensures.
- Buffer.NewBuffer is the constructor's arithmetic only. The driver failures of buffer creation are modelled by Buffer.CreateBuffer.
- Uniform.CreateSlots builds each slot's buffer with Buffer.NewBuffer, so it assumes the driver creates and backs every uniform buffer. A failed creation, which throws in the source (Buffer.CreateBuffer), is not threaded through the slot setup.
- Manager.Refresh: when the viewer entity itself is destroyed, the C++ keeps a dangling `viewerEntity_` that the next update would read. The model clears the viewer instead, so no frame may follow that refresh.
- Showcase.FrameUbo does not model the clamp of the interpolation factor to 1, because that is floating point.

## Findings

| source | as written | input that shows it | evidently intended | confidence | as-written member | corrected member |
|---|---|---|---|---|---|---|
| 3D_9_specular_lighting/phm_manager.cpp:92-100 | `refresh` erases the entities for which `isAlive()` is true | a scene whose entities are all alive is emptied | erase the dead entities and keep the live ones | high; not executed | Manager.RefreshAsWritten (shown by Manager.RefreshAsWrittenErasesLiveEntities) | Manager.Refresh (with Manager.RefreshIsIdempotent, Manager.RefreshKeepsLiveScene) |
| 3D_9_specular_lighting/phm_manager.cpp:62 | the MAX_LIGHTS assert compares `activeLights_`, the count stored by the previous update, instead of the slot about to be written | 21 lights after an update with 0 lights pass every check while the 21st write goes to slot 20 of a 20-entry array; exactly 20 lights fail on the next update | check the running `ubo.activeLights` against MAX_LIGHTS before each write | high; not executed | Manager.AsWrittenLightCheckMisjudges | Manager.RunningLightCheckIsExact (used by Manager.PackLights) |
| Showcase_1_projection_showcase/phm_buffer.cpp:87-90 | `writeToBuffer(&ubo)` with the default WHOLE_SIZE copies `bufferSize_` bytes from a single UBO; the buffer holds MAX_FRAMES_IN_FLIGHT aligned instances | any stage writing its GlobalUbo this way (3D_6_uniform/phm_app.cpp:106): at least 2 × sizeof(GlobalUbo) bytes are read from a struct of sizeof(GlobalUbo) | copy `sizeof(GlobalUbo)` bytes | high; not executed | Uniform.UboCopyLengthAsWritten (shown by Uniform.AsWrittenUboCopyOverreads) | Uniform.WriteUbo, Uniform.WriteFrameUbo |

Places where the code may surprise a reader; the model follows the code:

- `submitCommandBuffers` waits whenever the image already has a fence, even if that fence is the current frame's.
- The renderer keeps exactly MAX_FRAMES_IN_FLIGHT command buffers.
- The push-constant stages have no format check on recreation.
- The push-constant stages reallocate command buffers only when the image count changes.

=== FILE: bits.dfy ===
/** Unsigned 64-bit words as natural numbers below 2^64, with the bitwise
    operations the buffer alignment computation uses. */
module Bits {

  /** 2^64: every VkDeviceSize is below it and arithmetic on it wraps modulo it. */
  const WORD: nat := 0x1_0000_0000_0000_0000

  function Pow2(k: nat): (p: nat)
    ensures p >= 1
  {
    if k == 0 then 1 else 2 * Pow2(k - 1)
  }

  /** Bitwise AND, bit by bit from the least significant end. */
  function And(x: nat, y: nat): nat {
    if x == 0 || y == 0 then 0
    else 2 * And(x / 2, y / 2) + (if x % 2 == 1 && y % 2 == 1 then 1 else 0)
  }

  /** Bitwise complement within a 64-bit word. */
  function Not64(x: nat): (r: nat)
    requires x < WORD
    ensures r < WORD && x + r == WORD - 1
  {
    WORD - 1 - x
  }

  lemma {:induction false} Pow2Add(a: nat, b: nat)
    ensures Pow2(a + b) == Pow2(a) * Pow2(b)
    decreases a
  {
    if a > 0 {
      Pow2Add(a - 1, b);
      calc {
        Pow2(a + b);
        2 * Pow2(a - 1 + b);
        2 * (Pow2(a - 1) * Pow2(b));
        (2 * Pow2(a - 1)) * Pow2(b);
      }
    }
  }

  lemma WordIsPow2()
    ensures Pow2(64) == WORD
  {
    HalfWordIsPow2();
    Pow2Add(32, 32);
  }

  lemma HalfWordIsPow2()
    ensures Pow2(32) == 0x1_0000_0000
  {
    ShortIsPow2();
    Pow2Add(16, 16);
  }

  lemma ShortIsPow2()
    ensures Pow2(16) == 0x1_0000
  {
    ByteIsPow2();
    Pow2Add(8, 8);
  }

  lemma ByteIsPow2()
    ensures Pow2(8) == 256
  {
    assert Pow2(4) == 16;
    Pow2Add(4, 4);
  }

  /** `x` with its low `k` bits cleared, computed by shifting right and back. */
  function ClearLow(x: nat, k: nat): nat {
    if k == 0 then x else 2 * ClearLow(x / 2, k - 1)
  }

  /** `x` shifted right by `k` bits. */
  function ShiftRight(x: nat, k: nat): nat {
    if k == 0 then x else ShiftRight(x / 2, k - 1)
  }

  lemma {:induction false} ClearLowIsMultiple(x: nat, k: nat)
    ensures ClearLow(x, k) == Pow2(k) * ShiftRight(x, k)
    decreases k
  {
    if k > 0 {
      ClearLowIsMultiple(x / 2, k - 1);
      assert 2 * (Pow2(k - 1) * ShiftRight(x / 2, k - 1)) == (2 * Pow2(k - 1)) * ShiftRight(x / 2, k - 1);
    }
  }

  /** Clearing the low `k` bits rounds down by less than 2^k. */
  lemma {:induction false} ClearLowBounds(x: nat, k: nat)
    ensures ClearLow(x, k) <= x < ClearLow(x, k) + Pow2(k)
    decreases k
  {
    if k > 0 {
      ClearLowBounds(x / 2, k - 1);
    }
  }

  lemma {:induction false} ShiftRightBound(x: nat, k: nat, j: nat)
    requires x < Pow2(k) * Pow2(j)
    ensures ShiftRight(x, k) < Pow2(j)
    decreases k
  {
    if k > 0 {
      assert Pow2(k) * Pow2(j) == 2 * (Pow2(k - 1) * Pow2(j));
      ShiftRightBound(x / 2, k - 1, j);
    }
  }

  /** Masking with `n` ones keeps a value below 2^n unchanged. */
  lemma {:induction false} AndAllOnes(x: nat, n: nat)
    requires x < Pow2(n)
    ensures And(x, Pow2(n) - 1) == x
    decreases n
  {
    if x != 0 {
      assert n > 0;
      var ones := Pow2(n - 1) - 1;
      assert Pow2(n) - 1 == 2 * ones + 1;
      assert (Pow2(n) - 1) / 2 == ones && (Pow2(n) - 1) % 2 == 1;
      AndAllOnes(x / 2, n - 1);
      assert And(x, Pow2(n) - 1) == 2 * (x / 2) + x % 2;
    }
  }

  /** An even mask contributes no low bit. */
  lemma AndEven(x: nat, m: nat)
    ensures And(x, 2 * m) == 2 * And(x / 2, m)
  {
    if x != 0 && m != 0 {
      assert (2 * m) / 2 == m && (2 * m) % 2 == 0;
    }
  }

  /** A mask whose low `k` bits are zero: the AND is the AND of the shifted
      value, shifted back. */
  lemma {:induction false} AndShifted(x: nat, y: nat, k: nat)
    ensures And(x, Pow2(k) * y) == Pow2(k) * And(ShiftRight(x, k), y)
    decreases k
  {
    if k > 0 {
      var p := Pow2(k - 1);
      var m := p * y;
      assert Pow2(k) == 2 * p;
      MulAssoc(2, p, y);
      AndEven(x, m);
      AndShifted(x / 2, y, k - 1);
      var v := And(ShiftRight(x / 2, k - 1), y);
      assert And(x / 2, m) == p * v;
      assert ShiftRight(x, k) == ShiftRight(x / 2, k - 1);
      MulAssoc(2, p, v);
    }
  }

  lemma MulAssoc(a: int, b: int, c: int)
    ensures a * (b * c) == (a * b) * c
  {
  }

  // ---------------------------------------------------------------- arithmetic helpers

  lemma {:induction false} MulLeMono(a: nat, x: nat, y: nat)
    requires x <= y
    ensures a * x <= a * y
    decreases y - x
  {
    if x < y {
      MulLeMono(a, x, y - 1);
      assert a * y == a * (y - 1) + a;
    }
  }

  /** Consecutive multiples of `a` are `a` apart. */
  lemma MulStep(a: nat, x: nat, y: nat)
    requires x < y
    ensures a * x + a <= a * y
  {
    MulLeMono(a, x + 1, y);
    assert a * (x + 1) == a * x + a;
  }

  lemma MulLtCancel(a: nat, x: nat, y: nat)
    requires a * x < a * y
    ensures x < y
  {
    if y <= x {
      MulLeMono(a, y, x);
    }
  }

  lemma MultipleModZero(a: nat, q: nat)
    requires a > 0
    ensures (q * a) % a == 0
  {
    var x := q * a;
    var q0, r0 := x / a, x % a;
    assert q0 * a + r0 == q * a;
    if q0 < q {
      MulStep(a, q0, q);
    } else if q < q0 {
      MulStep(a, q, q0);
    }
  }

  lemma {:induction false} Pow2Monotone(i: nat, j: nat)
    requires i <= j
    ensures Pow2(i) <= Pow2(j)
    decreases j - i
  {
    if i < j {
      Pow2Monotone(i, j - 1);
    }
  }

  lemma Pow2AtLeastWord(k: nat)
    ensures 64 <= k ==> WORD <= Pow2(k)
  {
    if 64 <= k {
      WordIsPow2();
      Pow2Monotone(64, k);
    }
  }

  lemma Pow2BelowWord(k: nat)
    requires Pow2(k) < WORD
    ensures k < 64
  {
    Pow2AtLeastWord(k);
  }

  /** 2^k divides 2^64 for k <= 64. */
  lemma Pow2DividesWord(k: nat)
    requires k <= 64
    ensures WORD == Pow2(k) * Pow2(64 - k)
  {
    WordIsPow2();
    Pow2Add(k, 64 - k);
  }

  /** A multiple of 2^k below 2^64 leaves room for 2^k more. */
  lemma WordMultipleGap(k: nat, m: nat)
    requires k <= 64 && Pow2(k) * m < WORD
    ensures Pow2(k) * m + Pow2(k) <= WORD
  {
    Pow2DividesWord(k);
    MulLtCancel(Pow2(k), m, Pow2(64 - k));
    MulStep(Pow2(k), m, Pow2(64 - k));
  }

  /** The complement of the low `k`-bit mask, ANDed with a word, clears the
      word's low `k` bits. */
  lemma ClearLowBits(x: nat, k: nat)
    requires x < WORD && k <= 64
    ensures Pow2(k) - 1 < WORD
    ensures And(x, Not64(Pow2(k) - 1)) == ClearLow(x, k)
  {
    Pow2DividesWord(k);
    var high := Pow2(64 - k) - 1;
    HighMask(k);
    AndShifted(x, high, k);
    ShiftRightBound(x, k, 64 - k);
    AndAllOnes(ShiftRight(x, k), 64 - k);
    ClearLowIsMultiple(x, k);
  }

  /** The complement of the low `k`-bit mask is the high `64 - k` bits set. */
  lemma HighMask(k: nat)
    requires k <= 64
    ensures Pow2(k) - 1 < WORD
    ensures Not64(Pow2(k) - 1) == Pow2(k) * (Pow2(64 - k) - 1)
  {
    Pow2DividesWord(k);
    var p, q := Pow2(k), Pow2(64 - k);
    MulLeMono(p, 1, q);
    assert p * q == p * (q - 1) + p by {
      MulSplit(p, q - 1);
    }
  }

  lemma MulSplit(a: nat, b: nat)
    ensures a * (b + 1) == a * b + a
  {
  }
}

=== FILE: buffer.dfy ===
/** A Vulkan buffer holding `instanceCount` instances, each padded to the
    device's minimum offset alignment, with host-mapped memory that the CPU
    writes and flushes. Sizes are 64-bit device sizes. */
module Buffer {
  import opened Wrappers
  import opened Vulkan
  import opened Bits
  import Device

  type Byte = b: int | 0 <= b < 256

  /** A byte count, or VK_WHOLE_SIZE ("to the end of the buffer"). */
  datatype Size = WholeSize | Bytes(n: nat)

  /** A range handed to the driver for a flush or an invalidate. */
  datatype MappedRange = MappedRange(offset: nat, size: Size)

  /** What a descriptor set records about a buffer binding. */
  datatype DescriptorBufferInfo = DescriptorBufferInfo(buffer: nat, offset: nat, range: Size)

  /** The instance size rounded up to the minimum offset alignment, computed
      as the source does: add alignment - 1 (wrapping at 2^64) and clear the
      low bits with the complement of alignment - 1. An alignment of 0 means
      "no requirement". */
  function GetAlignment(instanceSize: nat, minOffsetAlignment: nat): (r: nat)
    requires instanceSize < WORD && minOffsetAlignment < WORD
    ensures r < WORD
    ensures minOffsetAlignment == 0 ==> r == instanceSize
  {
    if minOffsetAlignment > 0 then
      var sum := (instanceSize + minOffsetAlignment - 1) % WORD;
      AndBelowWord(sum, Not64(minOffsetAlignment - 1));
      And(sum, Not64(minOffsetAlignment - 1))
    else instanceSize
  }

  lemma {:induction false} AndBelowLeft(x: nat, y: nat)
    ensures And(x, y) <= x
    decreases x
  {
    if x != 0 && y != 0 {
      AndBelowLeft(x / 2, y / 2);
    }
  }

  lemma AndBelowWord(x: nat, y: nat)
    requires x < WORD
    ensures And(x, y) < WORD
  {
    AndBelowLeft(x, y);
  }

  /** With a power-of-two alignment 2^k and no wrap-around, the alignment
      clears the low k bits of instance size + 2^k - 1. */
  lemma AlignmentIsClearLow(instanceSize: nat, k: nat)
    requires Pow2(k) < WORD && instanceSize + Pow2(k) - 1 < WORD
    ensures k < 64
    ensures GetAlignment(instanceSize, Pow2(k)) == ClearLow(instanceSize + Pow2(k) - 1, k)
  {
    Pow2BelowWord(k);
    var t := instanceSize + Pow2(k) - 1;
    assert t % WORD == t;
    ClearLowBits(t, k);
  }

  /** For a power-of-two alignment 2^k and no wrap-around, the alignment is
      the least multiple of 2^k that is not below the instance size. */
  lemma AlignmentIsLeastMultiple(instanceSize: nat, k: nat)
    requires Pow2(k) < WORD && instanceSize + Pow2(k) - 1 < WORD
    ensures var r := GetAlignment(instanceSize, Pow2(k));
            r % Pow2(k) == 0 &&
            instanceSize <= r < instanceSize + Pow2(k) &&
            (instanceSize % Pow2(k) == 0 ==> r == instanceSize)
  {
    var t := instanceSize + Pow2(k) - 1;
    AlignmentIsClearLow(instanceSize, k);
    ClearLowBounds(t, k);
    ClearLowIsMultiple(t, k);
    RoundUpFacts(instanceSize, Pow2(k), ShiftRight(t, k));
  }

  /** A multiple of `a` within `a - 1` below `s + a - 1` is the round-up of `s`. */
  lemma RoundUpFacts(s: nat, a: nat, q: nat)
    requires a > 0 && a * q <= s + a - 1 < a * q + a
    ensures (a * q) % a == 0
    ensures s <= a * q < s + a
    ensures s % a == 0 ==> a * q == s
  {
    MultipleModZero(a, q);
    if s % a == 0 {
      var m := s / a;
      assert s == a * m;
      if m < q {
        MulStep(a, m, q);
      } else if q < m {
        MulStep(a, q, m);
      }
    }
  }

  /** The default minimum offset alignment of 1 leaves the instance size as it is. */
  const DEFAULT_MIN_OFFSET_ALIGNMENT: nat := 1

  lemma DefaultAlignmentIsInstanceSize(instanceSize: nat)
    requires instanceSize < WORD
    ensures GetAlignment(instanceSize, DEFAULT_MIN_OFFSET_ALIGNMENT) == instanceSize
  {
    assert Pow2(0) == DEFAULT_MIN_OFFSET_ALIGNMENT;
    AlignmentIsLeastMultiple(instanceSize, 0);
  }

  /** Aligning an already aligned size changes nothing. */
  lemma AlignmentIdempotent(instanceSize: nat, k: nat)
    requires Pow2(k) < WORD && instanceSize + Pow2(k) - 1 < WORD
    ensures GetAlignment(instanceSize, Pow2(k)) + Pow2(k) - 1 < WORD
    ensures GetAlignment(GetAlignment(instanceSize, Pow2(k)), Pow2(k)) == GetAlignment(instanceSize, Pow2(k))
  {
    AlignmentIsClearLow(instanceSize, k);
    AlignmentIsLeastMultiple(instanceSize, k);
    var t := instanceSize + Pow2(k) - 1;
    ClearLowIsMultiple(t, k);
    ClearLowBounds(t, k);
    WordMultipleGap(k, ShiftRight(t, k));
    AlignmentIsLeastMultiple(GetAlignment(instanceSize, Pow2(k)), k);
  }

  datatype Buffer = Buffer(
    handle: nat,
    instanceSize: nat,
    instanceCount: nat,
    alignmentSize: nat,
    bufferSize: nat,
    usage: Flags,
    memoryProperties: Flags,
    mappedAt: Option<nat>,   // offset of the host mapping, None when unmapped
    memory: seq<Byte>)
  {
    predicate Valid() {
      |memory| == bufferSize
    }
  }

  /** Creates the buffer: the alignment size is the aligned instance size and
      the buffer size is alignment size times instance count, a 64-bit product.
      The memory starts unmapped (its initial contents are modelled as zeros). */
  function NewBuffer(handle: nat, instanceSize: nat, instanceCount: nat, usage: Flags, memoryProperties: Flags,
                     minOffsetAlignment: nat): (b: Buffer)
    requires instanceSize < WORD && minOffsetAlignment < WORD && IsUint32(instanceCount)
    ensures b.Valid() && b.mappedAt.None?
    ensures b.alignmentSize == GetAlignment(instanceSize, minOffsetAlignment)
    ensures b.instanceSize == instanceSize && b.instanceCount == instanceCount
    ensures b.alignmentSize * instanceCount < WORD ==> b.bufferSize == b.alignmentSize * instanceCount
  {
    var alignmentSize := GetAlignment(instanceSize, minOffsetAlignment);
    var bufferSize := (alignmentSize * instanceCount) % WORD;
    Buffer(handle, instanceSize, instanceCount, alignmentSize, bufferSize, usage, memoryProperties,
           None, seq(bufferSize, _ => 0))
  }

  /** The driver's answers while a buffer is created: the handle and result
      of vkCreateBuffer, the memory-type bits of the new buffer's memory
      requirements, and the result of vkAllocateMemory. */
  datatype CreateDriver = CreateDriver(handle: nat, createResult: VkResult, memoryTypeBits: Flags, allocResult: VkResult)

  /** Some memory type of the device is allowed by the filter and has the
      requested properties. */
  predicate HasMemoryType(memoryTypes: seq<Flags>, typeFilter: Flags, properties: Flags) {
    exists j :: 0 <= j < |memoryTypes| && Device.MemoryTypeMatches(memoryTypes, typeFilter, properties, j)
  }

  /** The constructor together with the device's createBuffer: the sizes are
      those of NewBuffer; creation throws when the driver cannot create the
      buffer, when no memory type fits, or when the allocation fails, checked
      in that order. */
  method CreateBuffer(memoryTypes: seq<Flags>, instanceSize: nat, instanceCount: nat, usage: Flags,
                      memoryProperties: Flags, minOffsetAlignment: nat, driver: CreateDriver)
    returns (r: Outcome<Buffer>)
    requires instanceSize < WORD && minOffsetAlignment < WORD && IsUint32(instanceCount)
    ensures driver.createResult != VkSuccess ==> r == Failure(CreationFailed)
    ensures driver.createResult == VkSuccess && !HasMemoryType(memoryTypes, driver.memoryTypeBits, memoryProperties) ==>
              r == Failure(NoSuitableMemoryType)
    ensures driver.createResult == VkSuccess && driver.allocResult != VkSuccess &&
            HasMemoryType(memoryTypes, driver.memoryTypeBits, memoryProperties) ==>
              r == Failure(CreationFailed)
    ensures r.Success? <==> driver.createResult == VkSuccess && driver.allocResult == VkSuccess &&
                            HasMemoryType(memoryTypes, driver.memoryTypeBits, memoryProperties)
    ensures r.Success? ==> r.value == NewBuffer(driver.handle, instanceSize, instanceCount, usage, memoryProperties,
                                                minOffsetAlignment)
  {
    if driver.createResult != VkSuccess {
      return Failure(CreationFailed);
    }
    var memoryType := Device.FindMemoryType(memoryTypes, driver.memoryTypeBits, memoryProperties);
    if memoryType.Failure? {
      return Failure(memoryType.error);
    }
    if driver.allocResult != VkSuccess {
      return Failure(CreationFailed);
    }
    return Success(NewBuffer(driver.handle, instanceSize, instanceCount, usage, memoryProperties, minOffsetAlignment));
  }

  /** Maps a range of the memory; the mapping exists once the driver reports
      success, and the driver's result is passed back. */
  function Map(b: Buffer, size: Size, offset: nat, driverResult: VkResult): (r: (Buffer, VkResult))
    requires b.Valid()
    ensures r.0.Valid() && r.1 == driverResult
    ensures driverResult == VkSuccess ==> r.0.mappedAt == Some(offset)
    ensures driverResult != VkSuccess ==> r.0 == b
    ensures r.0 == b.(mappedAt := r.0.mappedAt)
  {
    if driverResult == VkSuccess then (b.(mappedAt := Some(offset)), driverResult) else (b, driverResult)
  }

  /** Releases the mapping if there is one. */
  function Unmap(b: Buffer): (r: Buffer)
    ensures r.mappedAt.None?
    ensures b.mappedAt.None? ==> r == b
    ensures r == b.(mappedAt := r.mappedAt)
  {
    if b.mappedAt.Some? then b.(mappedAt := None) else b
  }

  lemma UnmapIdempotent(b: Buffer)
    ensures Unmap(Unmap(b)) == Unmap(b)
    ensures Unmap(b).memory == b.memory
  {
  }

  /** The bytes a write covers: the whole buffer from the mapping's start for
      VK_WHOLE_SIZE (the offset is then ignored), `size` bytes at the mapping's
      start plus the offset otherwise. */
  function WriteRange(b: Buffer, size: Size, offset: nat): (range: (nat, nat))
    requires b.mappedAt.Some?
  {
    match size
    case WholeSize => (b.mappedAt.value, b.bufferSize)
    case Bytes(n) => (b.mappedAt.value + offset, n)
  }

  /** The source's memcpy reads `count` bytes from `data` and writes them
      inside the buffer's memory. */
  predicate WriteIsInBounds(b: Buffer, data: seq<Byte>, size: Size, offset: nat)
    requires b.mappedAt.Some?
  {
    var (start, count) := WriteRange(b, size, offset);
    count <= |data| && start + count <= b.bufferSize
  }

  /** Copies host data into the mapped memory. Only the covered bytes
      change, and they now hold the data's first bytes. */
  function WriteToBuffer(b: Buffer, data: seq<Byte>, size: Size, offset: nat): (r: Buffer)
    requires b.Valid() && b.mappedAt.Some?
    requires WriteIsInBounds(b, data, size, offset)
    ensures r.Valid()
    ensures r == b.(memory := r.memory)
    ensures var (start, count) := WriteRange(b, size, offset);
            r.memory[start..start + count] == data[..count] &&
            (forall j :: 0 <= j < b.bufferSize && !(start <= j < start + count) ==> r.memory[j] == b.memory[j])
  {
    var (start, count) := WriteRange(b, size, offset);
    b.(memory := b.memory[..start] + data[..count] + b.memory[start + count..])
  }

  /** Hands the range to vkFlushMappedMemoryRanges and passes back the
      driver's result. */
  function Flush(b: Buffer, size: Size, offset: nat, driverResult: VkResult): (r: (MappedRange, VkResult))
    ensures r.0.offset == offset && r.0.size == size && r.1 == driverResult
  {
    (MappedRange(offset, size), driverResult)
  }

  /** Hands the range to vkInvalidateMappedMemoryRanges and passes back the
      driver's result. */
  function Invalidate(b: Buffer, size: Size, offset: nat, driverResult: VkResult): (r: (MappedRange, VkResult))
    ensures r.0.offset == offset && r.0.size == size && r.1 == driverResult
  {
    (MappedRange(offset, size), driverResult)
  }

  function DescriptorInfo(b: Buffer, size: Size, offset: nat): (info: DescriptorBufferInfo)
    ensures info.buffer == b.handle && info.offset == offset && info.range == size
  {
    DescriptorBufferInfo(b.handle, offset, size)
  }

  /** Start of instance `index`. */
  function IndexOffset(b: Buffer, index: nat): nat {
    index * b.alignmentSize
  }

  /** Writes one instance at its aligned slot: only that slot's first
      instance-size bytes change. */
  function WriteToIndex(b: Buffer, data: seq<Byte>, index: nat): (r: Buffer)
    requires b.Valid() && b.mappedAt == Some(0)
    requires b.instanceSize <= |data|
    requires IndexOffset(b, index) + b.instanceSize <= b.bufferSize
    ensures r.Valid() && r == b.(memory := r.memory)
    ensures r.memory[IndexOffset(b, index)..IndexOffset(b, index) + b.instanceSize] == data[..b.instanceSize]
    ensures forall j :: 0 <= j < b.bufferSize && !(IndexOffset(b, index) <= j < IndexOffset(b, index) + b.instanceSize) ==>
              r.memory[j] == b.memory[j]
  {
    WriteToBuffer(b, data, Bytes(b.instanceSize), IndexOffset(b, index))
  }

  function FlushIndex(b: Buffer, index: nat, driverResult: VkResult): (r: (MappedRange, VkResult))
    ensures r == (MappedRange(IndexOffset(b, index), Bytes(b.alignmentSize)), driverResult)
  {
    Flush(b, Bytes(b.alignmentSize), IndexOffset(b, index), driverResult)
  }

  function InvalidateIndex(b: Buffer, index: nat, driverResult: VkResult): (r: (MappedRange, VkResult))
    ensures r == (MappedRange(IndexOffset(b, index), Bytes(b.alignmentSize)), driverResult)
  {
    Invalidate(b, Bytes(b.alignmentSize), IndexOffset(b, index), driverResult)
  }

  function DescriptorInfoForIndex(b: Buffer, index: nat): (info: DescriptorBufferInfo)
    ensures info == DescriptorBufferInfo(b.handle, IndexOffset(b, index), Bytes(b.alignmentSize))
  {
    DescriptorInfo(b, Bytes(b.alignmentSize), IndexOffset(b, index))
  }

  /** The bytes a range with this offset and size names in a buffer of
      `bufferSize` bytes; VK_WHOLE_SIZE runs to the end of the buffer. */
  predicate Covers(offset: nat, size: Size, bufferSize: nat, j: nat) {
    match size
    case WholeSize => offset <= j < bufferSize
    case Bytes(n) => offset <= j < offset + n
  }

  /** For a buffer mapped at its start, the flush and the invalidate with the
      default arguments (whole size, offset 0) name every byte a write
      changed, and so do the flush and the invalidate with the write's own
      byte count and offset. */
  lemma FlushCoversWrite(b: Buffer, data: seq<Byte>, size: Size, offset: nat, j: nat, driverResult: VkResult)
    requires b.Valid() && b.mappedAt == Some(0) && WriteIsInBounds(b, data, size, offset)
    requires j < b.bufferSize && WriteToBuffer(b, data, size, offset).memory[j] != b.memory[j]
    ensures var f := Flush(b, WholeSize, 0, driverResult).0; Covers(f.offset, f.size, b.bufferSize, j)
    ensures var v := Invalidate(b, WholeSize, 0, driverResult).0; Covers(v.offset, v.size, b.bufferSize, j)
    ensures size.Bytes? ==> var f := Flush(b, size, offset, driverResult).0; Covers(f.offset, f.size, b.bufferSize, j)
    ensures size.Bytes? ==> var v := Invalidate(b, size, offset, driverResult).0; Covers(v.offset, v.size, b.bufferSize, j)
  {
  }

  /** For a buffer mapped at its start whose stride holds an instance, the
      flush and the invalidate of slot `index` name every byte that writing
      that slot changed. */
  lemma FlushIndexCoversWriteToIndex(b: Buffer, data: seq<Byte>, index: nat, j: nat, driverResult: VkResult)
    requires b.Valid() && b.mappedAt == Some(0) && b.instanceSize <= |data| && b.instanceSize <= b.alignmentSize
    requires IndexOffset(b, index) + b.instanceSize <= b.bufferSize
    requires j < b.bufferSize && WriteToIndex(b, data, index).memory[j] != b.memory[j]
    ensures var f := FlushIndex(b, index, driverResult).0; Covers(f.offset, f.size, b.bufferSize, j)
    ensures var v := InvalidateIndex(b, index, driverResult).0; Covers(v.offset, v.size, b.bufferSize, j)
  {
  }

  /** When the slots tile the buffer, the default descriptor (whole size,
      offset 0) names the same buffer as the descriptor of any slot and
      every byte that slot's descriptor names. */
  lemma WholeDescriptorCoversEverySlot(b: Buffer, index: nat, j: nat)
    requires b.bufferSize == b.alignmentSize * b.instanceCount && index < b.instanceCount
    ensures var slot := DescriptorInfoForIndex(b, index);
            var whole := DescriptorInfo(b, WholeSize, 0);
            slot.buffer == whole.buffer &&
            (Covers(slot.offset, slot.range, b.bufferSize, j) ==> Covers(whole.offset, whole.range, b.bufferSize, j))
  {
    SlotBelow(b.alignmentSize, index, b.instanceCount);
  }

  /** The per-instance slots of a buffer built with a power-of-two alignment:
      every slot starts at a multiple of the alignment, holds a whole
      instance, lies inside the buffer, and two different slots never
      overlap. */
  lemma IndexSlotsAreAlignedAndDisjoint(handle: nat, instanceSize: nat, instanceCount: nat, usage: Flags,
                                        memoryProperties: Flags, k: nat, i: nat, j: nat)
    requires Pow2(k) < WORD && instanceSize + Pow2(k) - 1 < WORD && IsUint32(instanceCount)
    requires i < instanceCount && j < instanceCount && i != j
    requires GetAlignment(instanceSize, Pow2(k)) * instanceCount < WORD
    ensures var b := NewBuffer(handle, instanceSize, instanceCount, usage, memoryProperties, Pow2(k));
            IndexOffset(b, i) % Pow2(k) == 0
    ensures var b := NewBuffer(handle, instanceSize, instanceCount, usage, memoryProperties, Pow2(k));
            b.instanceSize <= b.alignmentSize
    ensures var b := NewBuffer(handle, instanceSize, instanceCount, usage, memoryProperties, Pow2(k));
            IndexOffset(b, i) + b.alignmentSize <= b.bufferSize
    ensures var b := NewBuffer(handle, instanceSize, instanceCount, usage, memoryProperties, Pow2(k));
            IndexOffset(b, i) + b.alignmentSize <= IndexOffset(b, j) || IndexOffset(b, j) + b.alignmentSize <= IndexOffset(b, i)
  {
    var b := NewBuffer(handle, instanceSize, instanceCount, usage, memoryProperties, Pow2(k));
    AlignmentIsLeastMultiple(instanceSize, k);
    StrideSlots(b, Pow2(k), i, j);
  }

  /** Slot facts for any buffer whose stride is a multiple of `p`, holds an
      instance, and tiles the buffer exactly. */
  lemma StrideSlots(b: Buffer, p: nat, i: nat, j: nat)
    requires p > 0 && b.alignmentSize % p == 0 && b.instanceSize <= b.alignmentSize
    requires b.bufferSize == b.alignmentSize * b.instanceCount
    requires i < b.instanceCount && j < b.instanceCount && i != j
    ensures IndexOffset(b, i) % p == 0
    ensures IndexOffset(b, i) + b.alignmentSize <= b.bufferSize
    ensures IndexOffset(b, i) + b.alignmentSize <= IndexOffset(b, j) || IndexOffset(b, j) + b.alignmentSize <= IndexOffset(b, i)
  {
    SlotsAreMultiples(b.alignmentSize, p, i);
    SlotBelow(b.alignmentSize, i, b.instanceCount);
    SlotsDisjoint(b.alignmentSize, i, j);
  }

  lemma SlotsDisjoint(a: nat, i: nat, j: nat)
    requires i != j
    ensures i * a + a <= j * a || j * a + a <= i * a
  {
    if i < j {
      SlotBelow(a, i, j);
    } else {
      SlotBelow(a, j, i);
    }
  }

  /** Every slot offset of an aligned stride is itself aligned. */
  lemma SlotsAreMultiples(a: nat, p: nat, i: nat)
    requires p > 0 && a % p == 0
    ensures (i * a) % p == 0
  {
    var q := a / p;
    assert a == q * p;
    MulAssoc(i, q, p);
    MultipleModZero(p, i * q);
  }

  lemma SlotBelow(a: nat, i: nat, n: nat)
    requires i < n
    ensures i * a + a <= n * a
  {
    MulStep(a, i, n);
  }
}

=== FILE: descriptor.dfy ===
/** Descriptor set layouts, descriptor pools and the descriptor writer: a
    layout is a map from binding number to binding description, a pool is
    described by its sizes, set limit and flags, and a writer queues one
    write per binding and retargets the queued writes to one set. */
module Descriptor {
  import opened Wrappers
  import opened Vulkan
  import Buffer

  datatype DescriptorType = UniformBuffer | CombinedImageSampler | OtherDescriptorType(code: nat)

  /** Shader stage bits as used by the applications. */
  const VERTEX_STAGE: nat := 0
  const FRAGMENT_STAGE: nat := 4

  /** The count `addBinding` uses when the caller gives none. */
  const DEFAULT_DESCRIPTOR_COUNT: nat := 1

  datatype LayoutBinding = LayoutBinding(binding: nat, descriptorType: DescriptorType, descriptorCount: nat,
                                         stageFlags: Flags)

  // ---------------------------------------------------------------- layout builder

  datatype LayoutBuilder = LayoutBuilder(bindings: map<nat, LayoutBinding>)

  function NewLayoutBuilder(): (b: LayoutBuilder)
    ensures forall n :: n !in b.bindings
  {
    LayoutBuilder(map[])
  }

  /** Every stored description carries the number it is stored under. */
  predicate WellKeyed(bindings: map<nat, LayoutBinding>) {
    forall n :: n in bindings ==> bindings[n].binding == n
  }

  /** Records a binding; the number must not be in use yet. */
  function AddBinding(b: LayoutBuilder, binding: nat, descriptorType: DescriptorType, stageFlags: Flags,
                      count: nat): (r: LayoutBuilder)
    requires binding !in b.bindings
    ensures r.bindings.Keys == b.bindings.Keys + {binding}
    ensures binding in r.bindings &&
            r.bindings[binding].descriptorType == descriptorType &&
            r.bindings[binding].stageFlags == stageFlags &&
            r.bindings[binding].descriptorCount == count
    ensures forall n :: n in b.bindings ==> r.bindings[n] == b.bindings[n]
    ensures WellKeyed(b.bindings) ==> WellKeyed(r.bindings)
  {
    LayoutBuilder(b.bindings[binding := LayoutBinding(binding, descriptorType, count, stageFlags)])
  }

  /** Adding two different bindings gives the same builder in either order. */
  lemma AddBindingCommutes(b: LayoutBuilder, n1: nat, t1: DescriptorType, s1: Flags, c1: nat,
                           n2: nat, t2: DescriptorType, s2: Flags, c2: nat)
    requires n1 != n2 && n1 !in b.bindings && n2 !in b.bindings
    ensures AddBinding(AddBinding(b, n1, t1, s1, c1), n2, t2, s2, c2) ==
            AddBinding(AddBinding(b, n2, t2, s2, c2), n1, t1, s1, c1)
  {
    var left := AddBinding(AddBinding(b, n1, t1, s1, c1), n2, t2, s2, c2);
    var right := AddBinding(AddBinding(b, n2, t2, s2, c2), n1, t1, s1, c1);
    assert left.bindings.Keys == right.bindings.Keys;
    assert forall n :: n in left.bindings ==> left.bindings[n] == right.bindings[n];
  }

  // ---------------------------------------------------------------- layout

  datatype SetLayout = SetLayout(handle: nat, bindings: map<nat, LayoutBinding>, createInfo: seq<LayoutBinding>)

  /** The create-info array: one entry per stored binding, each exactly once,
      in the map's iteration order (which the model leaves unspecified). */
  method LayoutEntries(bindings: map<nat, LayoutBinding>) returns (entries: seq<LayoutBinding>)
    requires WellKeyed(bindings)
    ensures |entries| == |bindings.Keys|
    ensures forall i :: 0 <= i < |entries| ==> entries[i].binding in bindings && bindings[entries[i].binding] == entries[i]
    ensures forall n :: n in bindings ==> exists i :: 0 <= i < |entries| && entries[i].binding == n
    ensures forall i, j :: 0 <= i < j < |entries| ==> entries[i].binding != entries[j].binding
  {
    entries := [];
    var remaining := bindings.Keys;
    while remaining != {}
      invariant remaining <= bindings.Keys
      invariant |entries| + |remaining| == |bindings.Keys|
      invariant forall i :: 0 <= i < |entries| ==> entries[i].binding in bindings && bindings[entries[i].binding] == entries[i]
      invariant forall i :: 0 <= i < |entries| ==> entries[i].binding !in remaining
      invariant forall n :: n in bindings && n !in remaining ==> exists i :: 0 <= i < |entries| && entries[i].binding == n
      invariant forall i, j :: 0 <= i < j < |entries| ==> entries[i].binding != entries[j].binding
      decreases |remaining|
    {
      var n :| n in remaining;
      var before := entries;
      entries := entries + [bindings[n]];
      assert entries[|before|].binding == n;
      assert forall i :: 0 <= i < |before| ==> entries[i] == before[i];
      remaining := remaining - {n};
    }
  }

  /** Creates the layout from exactly the builder's bindings; a driver
      failure is an error. */
  method BuildLayout(b: LayoutBuilder, handle: nat, createResult: VkResult) returns (r: Outcome<SetLayout>)
    requires WellKeyed(b.bindings)
    ensures createResult != VkSuccess <==> r.Failure?
    ensures r.Failure? ==> r.error == CreationFailed
    ensures r.Success? ==> r.value.handle == handle && r.value.bindings == b.bindings
    ensures r.Success? ==> |r.value.createInfo| == |b.bindings.Keys|
    ensures r.Success? ==> forall i :: 0 <= i < |r.value.createInfo| ==>
              r.value.createInfo[i].binding in b.bindings && b.bindings[r.value.createInfo[i].binding] == r.value.createInfo[i]
    ensures r.Success? ==> forall n :: n in b.bindings ==>
              exists i :: 0 <= i < |r.value.createInfo| && r.value.createInfo[i].binding == n
    ensures r.Success? ==> forall i, j :: 0 <= i < j < |r.value.createInfo| ==>
              r.value.createInfo[i].binding != r.value.createInfo[j].binding
  {
    var entries := LayoutEntries(b.bindings);
    if createResult != VkSuccess {
      return Failure(CreationFailed);
    }
    r := Success(SetLayout(handle, b.bindings, entries));
  }

  // ---------------------------------------------------------------- pool builder

  datatype PoolSize = PoolSize(descriptorType: DescriptorType, count: nat)

  datatype PoolBuilder = PoolBuilder(poolSizes: seq<PoolSize>, maxSets: nat, poolFlags: Flags)

  const DEFAULT_MAX_SETS: nat := 1000

  function NewPoolBuilder(): (b: PoolBuilder)
    ensures |b.poolSizes| == 0 && b.maxSets == DEFAULT_MAX_SETS && b.poolFlags == {}
  {
    PoolBuilder([], DEFAULT_MAX_SETS, {})
  }

  /** Appends a pool size; the earlier ones keep their order. */
  function AddPoolSize(b: PoolBuilder, descriptorType: DescriptorType, count: nat): (r: PoolBuilder)
    ensures |r.poolSizes| == |b.poolSizes| + 1 && r.poolSizes[..|b.poolSizes|] == b.poolSizes
    ensures r.poolSizes[|b.poolSizes|] == PoolSize(descriptorType, count)
    ensures r.maxSets == b.maxSets && r.poolFlags == b.poolFlags
  {
    b.(poolSizes := b.poolSizes + [PoolSize(descriptorType, count)])
  }

  function SetPoolFlags(b: PoolBuilder, flags: Flags): (r: PoolBuilder)
    ensures r.poolFlags == flags && r.poolSizes == b.poolSizes && r.maxSets == b.maxSets
  {
    b.(poolFlags := flags)
  }

  function SetMaxSets(b: PoolBuilder, count: nat): (r: PoolBuilder)
    ensures r.maxSets == count && r.poolSizes == b.poolSizes && r.poolFlags == b.poolFlags
  {
    b.(maxSets := count)
  }

  /** The setters overwrite: only the last call counts. */
  lemma SettersOverwrite(b: PoolBuilder, f1: Flags, f2: Flags, m1: nat, m2: nat)
    ensures SetPoolFlags(SetPoolFlags(b, f1), f2) == SetPoolFlags(b, f2)
    ensures SetMaxSets(SetMaxSets(b, m1), m2) == SetMaxSets(b, m2)
    ensures SetMaxSets(SetPoolFlags(b, f1), m1) == SetPoolFlags(SetMaxSets(b, m1), f1)
  {
  }

  datatype Pool = Pool(handle: nat, maxSets: nat, poolFlags: Flags, poolSizes: seq<PoolSize>)

  function BuildPool(b: PoolBuilder, handle: nat, createResult: VkResult): (r: Outcome<Pool>)
    ensures createResult != VkSuccess <==> r.Failure?
    ensures r.Failure? ==> r.error == CreationFailed
    ensures r.Success? ==> r.value.maxSets == b.maxSets && r.value.poolFlags == b.poolFlags &&
                           r.value.poolSizes == b.poolSizes && r.value.handle == handle
  {
    if createResult != VkSuccess then Failure(CreationFailed)
    else Success(Pool(handle, b.maxSets, b.poolFlags, b.poolSizes))
  }

  /** Allocation reports failure by an absent set, never by an error. */
  function AllocateDescriptorSet(pool: Pool, layout: SetLayout, allocResult: VkResult, handle: nat): (granted: Option<nat>)
    ensures granted.Some? <==> allocResult == VkSuccess
    ensures granted.Some? ==> granted.value == handle
  {
    if allocResult == VkSuccess then Some(handle) else None
  }

  // ---------------------------------------------------------------- writer

  datatype WriteInfo = BufferInfo(info: Buffer.DescriptorBufferInfo) | ImageInfo(image: nat)

  /** A queued descriptor write; `dstSet` is None until the write is
      retargeted to a set. */
  datatype Write = Write(dstSet: Option<nat>, dstBinding: nat, descriptorType: DescriptorType,
                         descriptorCount: nat, info: WriteInfo)

  datatype Writer = Writer(layout: SetLayout, pool: Pool, writes: seq<Write>)

  function NewWriter(layout: SetLayout, pool: Pool): (w: Writer)
    ensures |w.writes| == 0 && w.layout == layout && w.pool == pool
  {
    Writer(layout, pool, [])
  }

  /** A write agrees with the layout: its binding exists, holds a single
      descriptor, and the write carries that binding's type and count 1. */
  predicate WriteMatchesLayout(layout: SetLayout, wr: Write) {
    wr.dstBinding in layout.bindings &&
    layout.bindings[wr.dstBinding].descriptorCount == 1 &&
    wr.descriptorType == layout.bindings[wr.dstBinding].descriptorType &&
    wr.descriptorCount == 1
  }

  predicate WritesMatchLayout(w: Writer) {
    forall i :: 0 <= i < |w.writes| ==> WriteMatchesLayout(w.layout, w.writes[i])
  }

  /** Queues one write for `binding`; the binding must exist and hold a
      single descriptor. */
  function Enqueue(w: Writer, binding: nat, info: WriteInfo): (r: Writer)
    requires binding in w.layout.bindings && w.layout.bindings[binding].descriptorCount == 1
    ensures r.layout == w.layout && r.pool == w.pool
    ensures |r.writes| == |w.writes| + 1 && r.writes[..|w.writes|] == w.writes
    ensures var last := r.writes[|w.writes|];
            WriteMatchesLayout(w.layout, last) && last.dstBinding == binding && last.info == info &&
            last.dstSet.None?
    ensures WritesMatchLayout(w) ==> WritesMatchLayout(r)
  {
    var wr := Write(None, binding, w.layout.bindings[binding].descriptorType, 1, info);
    w.(writes := w.writes + [wr])
  }

  function WriteBuffer(w: Writer, binding: nat, info: Buffer.DescriptorBufferInfo): (r: Writer)
    requires binding in w.layout.bindings && w.layout.bindings[binding].descriptorCount == 1
    ensures |r.writes| == |w.writes| + 1 && r.writes[..|w.writes|] == w.writes
    ensures r.writes[|w.writes|].info == BufferInfo(info) && r.writes[|w.writes|].dstBinding == binding
    ensures WriteMatchesLayout(w.layout, r.writes[|w.writes|])
    ensures WritesMatchLayout(w) ==> WritesMatchLayout(r)
  {
    Enqueue(w, binding, BufferInfo(info))
  }

  function WriteImage(w: Writer, binding: nat, image: nat): (r: Writer)
    requires binding in w.layout.bindings && w.layout.bindings[binding].descriptorCount == 1
    ensures |r.writes| == |w.writes| + 1 && r.writes[..|w.writes|] == w.writes
    ensures r.writes[|w.writes|].info == ImageInfo(image) && r.writes[|w.writes|].dstBinding == binding
    ensures WriteMatchesLayout(w.layout, r.writes[|w.writes|])
    ensures WritesMatchLayout(w) ==> WritesMatchLayout(r)
  {
    Enqueue(w, binding, ImageInfo(image))
  }

  /** Points every queued write at `target`; the returned sequence is what the
      single update call receives. Nothing but the target changes. */
  function Overwrite(w: Writer, target: nat): (r: (Writer, seq<Write>))
    ensures r.0.layout == w.layout && r.0.pool == w.pool && r.1 == r.0.writes
    ensures |r.1| == |w.writes|
    ensures forall i :: 0 <= i < |r.1| ==> r.1[i] == w.writes[i].(dstSet := Some(target))
  {
    var writes := seq(|w.writes|, i requires 0 <= i < |w.writes| => w.writes[i].(dstSet := Some(target)));
    (w.(writes := writes), writes)
  }

  /** Retargeting twice is retargeting to the last set. */
  lemma OverwriteLastWins(w: Writer, s1: nat, s2: nat)
    ensures Overwrite(Overwrite(w, s1).0, s2) == Overwrite(w, s2)
  {
    var a := Overwrite(Overwrite(w, s1).0, s2);
    var b := Overwrite(w, s2);
    assert a.1 == b.1;
  }

  /** Retargeting keeps every write consistent with the layout. */
  lemma OverwriteKeepsLayoutMatch(w: Writer, target: nat)
    requires WritesMatchLayout(w)
    ensures WritesMatchLayout(Overwrite(w, target).0)
  {
  }

  datatype BuildResult = BuildResult(ok: bool, dstSet: Option<nat>, writer: Writer, update: Option<seq<Write>>)

  /** Allocates a set and, only if that succeeds, retargets the queued
      writes to it and issues the update: all or nothing. */
  function Build(w: Writer, allocResult: VkResult, handle: nat): (r: BuildResult)
    ensures r.ok <==> allocResult == VkSuccess
    ensures !r.ok ==> r.update.None? && r.writer == w && r.dstSet.None?
    ensures r.ok ==> r.dstSet == Some(handle) && r.update.Some? &&
                     |r.update.value| == |w.writes| &&
                     forall i :: 0 <= i < |w.writes| ==>
                       r.update.value[i].dstSet == Some(handle) &&
                       r.update.value[i].dstBinding == w.writes[i].dstBinding &&
                       r.update.value[i].info == w.writes[i].info
  {
    match AllocateDescriptorSet(w.pool, w.layout, allocResult, handle)
    case None => BuildResult(false, None, w, None)
    case Some(target) =>
      var (w', update) := Overwrite(w, target);
      BuildResult(true, Some(target), w', Some(update))
  }
}

=== FILE: device.dfy ===
/** Physical-device selection and the device's query helpers: queue-family
    discovery, extension and layer checks, format and memory-type lookup,
    suitability, scoring and the final pick. The driver's answers (the
    families, extensions, format properties, memory types of each device)
    are fields of `PhysicalDevice`. */
module Device {
  import opened Wrappers
  import opened Vulkan

  const VALIDATION_LAYERS: seq<string> := ["VK_LAYER_KHRONOS_validation"]
  const DEVICE_EXTENSIONS: seq<string> := ["VK_KHR_swapchain"]
  const DEBUG_UTILS_EXTENSION: string := "VK_EXT_debug_utils"

  /** Score bonus a discrete GPU receives. */
  const DISCRETE_BONUS: nat := 1000

  datatype QueueFamily = QueueFamily(graphics: bool, presentSupport: bool)

  datatype QueueFamilyIndices = QueueFamilyIndices(graphicsFamily: Option<nat>, presentFamily: Option<nat>) {
    /** Both queue roles have a family, so both queues can be created. */
    function IsComplete(): (r: bool)
      ensures r <==> graphicsFamily != None && presentFamily != None
    {
      graphicsFamily.Some? && presentFamily.Some?
    }
  }

  datatype FormatProperties = FormatProperties(linearTilingFeatures: Flags, optimalTilingFeatures: Flags)

  /** What the driver reports about one physical device (and its surface support). */
  datatype PhysicalDevice = PhysicalDevice(
    queueFamilies: seq<QueueFamily>,
    extensions: seq<string>,
    surfaceFormats: seq<SurfaceFormat>,
    presentModes: seq<PresentMode>,
    samplerAnisotropy: bool,
    discrete: bool,
    maxImageDimension2D: nat,
    formatProperties: map<Format, FormatProperties>,
    memoryTypes: seq<Flags>)

  // ---------------------------------------------------------------- queue families

  predicate GraphicsBefore(families: seq<QueueFamily>, n: nat)
    requires n <= |families|
  {
    exists j :: 0 <= j < n && families[j].graphics
  }

  predicate PresentBefore(families: seq<QueueFamily>, n: nat)
    requires n <= |families|
  {
    exists j :: 0 <= j < n && families[j].presentSupport
  }

  /** Scans the families in order, remembering the LATEST graphics-capable and
      the LATEST present-capable index seen, and stops at the first family at
      which both have been seen. So the result is complete exactly when both
      kinds exist, the scan stops at the first prefix holding both kinds, and
      within that prefix each index is the last one of its kind. */
  method FindQueueFamilies(families: seq<QueueFamily>) returns (r: QueueFamilyIndices)
    ensures r.IsComplete() <==> GraphicsBefore(families, |families|) && PresentBefore(families, |families|)
    ensures r.graphicsFamily.Some? ==> r.graphicsFamily.value < |families| && families[r.graphicsFamily.value].graphics
    ensures r.presentFamily.Some? ==> r.presentFamily.value < |families| && families[r.presentFamily.value].presentSupport
    ensures r.IsComplete() ==>
              var g, p := r.graphicsFamily.value, r.presentFamily.value;
              var stop := if g < p then p else g;
              (forall j :: g < j <= stop ==> !families[j].graphics) &&
              (forall j :: p < j <= stop ==> !families[j].presentSupport) &&
              !(GraphicsBefore(families, stop) && PresentBefore(families, stop))
  {
    r := QueueFamilyIndices(None, None);
    var i := 0;
    while i < |families|
      invariant 0 <= i <= |families|
      invariant !r.IsComplete()
      invariant r.graphicsFamily.Some? ==>
                  r.graphicsFamily.value < i && families[r.graphicsFamily.value].graphics &&
                  forall j :: r.graphicsFamily.value < j < i ==> !families[j].graphics
      invariant r.graphicsFamily.None? ==> !GraphicsBefore(families, i)
      invariant r.presentFamily.Some? ==>
                  r.presentFamily.value < i && families[r.presentFamily.value].presentSupport &&
                  forall j :: r.presentFamily.value < j < i ==> !families[j].presentSupport
      invariant r.presentFamily.None? ==> !PresentBefore(families, i)
      decreases |families| - i
    {
      var before := r;
      if families[i].graphics {
        r := r.(graphicsFamily := Some(i));
      }
      if families[i].presentSupport {
        r := r.(presentFamily := Some(i));
      }
      if r.IsComplete() {
        assert before.graphicsFamily.None? ==> !GraphicsBefore(families, i);
        assert GraphicsBefore(families, |families|) by {
          assert families[r.graphicsFamily.value].graphics;
        }
        assert PresentBefore(families, |families|) by {
          assert families[r.presentFamily.value].presentSupport;
        }
        return;
      }
      i := i + 1;
    }
  }

  /** The set of distinct queue families the logical device creates queues
      for: one queue-create entry per element. */
  function UniqueQueueFamilies(indices: QueueFamilyIndices): (s: set<nat>)
    requires indices.IsComplete()
    ensures indices.graphicsFamily.value in s && indices.presentFamily.value in s
    ensures forall f :: f in s ==> f == indices.graphicsFamily.value || f == indices.presentFamily.value
    ensures |s| == 1 <==> indices.graphicsFamily == indices.presentFamily
  {
    var g, p := indices.graphicsFamily.value, indices.presentFamily.value;
    if g == p then
      assert {g, p} == {g};
      {g, p}
    else
      assert |{g, p}| == |{g} + {p}| == 2;
      {g, p}
  }

  // ---------------------------------------------------------------- extensions and layers

  /** The device offers every required device extension. */
  function CheckDeviceExtensionSupport(available: seq<string>): (r: bool)
    ensures r <==> forall e :: e in DEVICE_EXTENSIONS ==> e in available
  {
    var missing := (set e | e in DEVICE_EXTENSIONS) - (set a | a in available);
    assert forall e :: e in DEVICE_EXTENSIONS && e !in available ==> e in missing;
    missing == {}
  }

  /** Every layer in `required` is among the layers the instance offers;
      the search fails at the first layer that is not found. */
  function CheckValidationLayerSupport(required: seq<string>, available: seq<string>): (r: bool)
    ensures r <==> forall l :: l in required ==> l in available
    ensures !r ==> exists k :: 0 <= k < |required| && required[k] !in available && forall j :: 0 <= j < k ==> required[j] in available
  {
    if |required| == 0 then true
    else if required[0] !in available then
      assert required[0] in required;
      false
    else
      var rest := CheckValidationLayerSupport(required[1..], available);
      assert forall l :: l in required ==> l == required[0] || l in required[1..];
      if !rest then
        var k :| 0 <= k < |required[1..]| && required[1..][k] !in available && forall j :: 0 <= j < k ==> required[1..][j] in available;
        assert required[k + 1] !in available;
        assert forall j :: 0 <= j < k + 1 ==> required[j] in available by {
          forall j | 0 <= j < k + 1 ensures required[j] in available {
            if j > 0 {
              assert required[j] == required[1..][j - 1];
            }
          }
        }
        rest
      else
        rest
  }

  /** The instance extensions the engine requests: whatever the window system
      needs, plus the debug-utils extension when validation is enabled. */
  function GetRequiredExtensions(windowExtensions: seq<string>, enableValidationLayers: bool): (r: seq<string>)
    ensures |r| == |windowExtensions| + (if enableValidationLayers then 1 else 0)
    ensures r[..|windowExtensions|] == windowExtensions
    ensures DEBUG_UTILS_EXTENSION in r <==> enableValidationLayers || DEBUG_UTILS_EXTENSION in windowExtensions
    ensures forall e :: e in r ==> e in windowExtensions || e == DEBUG_UTILS_EXTENSION
  {
    if enableValidationLayers then windowExtensions + [DEBUG_UTILS_EXTENSION] else windowExtensions
  }

  /** Walks the required instance extensions in order and fails with a
      runtime error at the first one the instance does not offer. */
  function HasRequiredInstanceExtensions(available: seq<string>, required: seq<string>): (r: Outcome<()>)
    ensures r.Success? <==> forall e :: e in required ==> e in available
    ensures r.Failure? ==> r.error == MissingInstanceExtension
  {
    if |required| == 0 then Success(())
    else if required[0] !in available then
      assert required[0] in required;
      Failure(MissingInstanceExtension)
    else
      assert forall e :: e in required ==> e == required[0] || e in required[1..];
      HasRequiredInstanceExtensions(available, required[1..])
  }

  // ---------------------------------------------------------------- formats and memory

  function PropertiesOf(device: PhysicalDevice, format: Format): FormatProperties {
    if format in device.formatProperties then device.formatProperties[format] else FormatProperties({}, {})
  }

  /** The format's features for the requested tiling include all requested features. */
  predicate SupportsFeatures(device: PhysicalDevice, format: Format, tiling: ImageTiling, features: Flags) {
    var props := PropertiesOf(device, format);
    match tiling
    case Linear => features <= props.linearTilingFeatures
    case Optimal => features <= props.optimalTilingFeatures
  }

  /** The first candidate, in the caller's order of preference, whose tiling
      features include the requested ones; a runtime error when none does. */
  function FindSupportedFormat(device: PhysicalDevice, candidates: seq<Format>, tiling: ImageTiling, features: Flags): (r: Outcome<Format>)
    ensures r.Failure? <==> forall c :: c in candidates ==> !SupportsFeatures(device, c, tiling, features)
    ensures r.Failure? ==> r.error == NoSupportedFormat
    ensures r.Success? ==>
              exists k :: 0 <= k < |candidates| && candidates[k] == r.value &&
                SupportsFeatures(device, r.value, tiling, features) &&
                forall j :: 0 <= j < k ==> !SupportsFeatures(device, candidates[j], tiling, features)
  {
    if |candidates| == 0 then Failure(NoSupportedFormat)
    else if SupportsFeatures(device, candidates[0], tiling, features) then
      assert candidates[0] == candidates[0];
      Success(candidates[0])
    else
      var rest := FindSupportedFormat(device, candidates[1..], tiling, features);
      assert forall c :: c in candidates ==> c == candidates[0] || c in candidates[1..];
      if rest.Success? then
        var k :| 0 <= k < |candidates[1..]| && candidates[1..][k] == rest.value &&
                 SupportsFeatures(device, rest.value, tiling, features) &&
                 forall j :: 0 <= j < k ==> !SupportsFeatures(device, candidates[1..][j], tiling, features);
        assert candidates[k + 1] == rest.value;
        assert forall j :: 0 <= j < k + 1 ==> !SupportsFeatures(device, candidates[j], tiling, features) by {
          forall j | 0 <= j < k + 1 ensures !SupportsFeatures(device, candidates[j], tiling, features) {
            if j > 0 {
              assert candidates[j] == candidates[1..][j - 1];
            }
          }
        }
        rest
      else
        rest
  }

  /** Memory type `i` is allowed by the filter's bit `i` and has every requested property. */
  predicate MemoryTypeMatches(memoryTypes: seq<Flags>, typeFilter: Flags, properties: Flags, i: nat)
    requires i < |memoryTypes|
  {
    i in typeFilter && properties <= memoryTypes[i]
  }

  /** The lowest memory-type index allowed by the filter whose property flags
      include the requested ones; a runtime error when there is none. */
  method FindMemoryType(memoryTypes: seq<Flags>, typeFilter: Flags, properties: Flags) returns (r: Outcome<nat>)
    ensures r.Success? ==> r.value < |memoryTypes| && MemoryTypeMatches(memoryTypes, typeFilter, properties, r.value)
    ensures r.Success? ==> forall j :: 0 <= j < r.value ==> !MemoryTypeMatches(memoryTypes, typeFilter, properties, j)
    ensures r.Failure? <==> forall j :: 0 <= j < |memoryTypes| ==> !MemoryTypeMatches(memoryTypes, typeFilter, properties, j)
    ensures r.Failure? ==> r.error == NoSuitableMemoryType
  {
    var i := 0;
    while i < |memoryTypes|
      invariant 0 <= i <= |memoryTypes|
      invariant forall j :: 0 <= j < i ==> !MemoryTypeMatches(memoryTypes, typeFilter, properties, j)
      decreases |memoryTypes| - i
    {
      if i in typeFilter && properties <= memoryTypes[i] {
        assert MemoryTypeMatches(memoryTypes, typeFilter, properties, i);
        return Success(i);
      }
      i := i + 1;
    }
    return Failure(NoSuitableMemoryType);
  }

  // ---------------------------------------------------------------- suitability and scoring

  /** Queue families complete, the swapchain extension offered, at least one
      surface format and present mode, and sampler anisotropy available. The
      surface query happens only when the extensions are supported, which
      does not change the verdict. */
  function IsDeviceSuitable(device: PhysicalDevice): (r: bool)
    ensures r <==>
              (exists i :: 0 <= i < |device.queueFamilies| && device.queueFamilies[i].graphics) &&
              (exists i :: 0 <= i < |device.queueFamilies| && device.queueFamilies[i].presentSupport) &&
              (forall e :: e in DEVICE_EXTENSIONS ==> e in device.extensions) &&
              device.surfaceFormats != [] && device.presentModes != [] && device.samplerAnisotropy
  {
    GraphicsBefore(device.queueFamilies, |device.queueFamilies|) &&
    PresentBefore(device.queueFamilies, |device.queueFamilies|) &&
    CheckDeviceExtensionSupport(device.extensions) &&
    |device.surfaceFormats| > 0 && |device.presentModes| > 0 &&
    device.samplerAnisotropy
  }

  /** C++ `int` is 32-bit: an unsigned sum converted back to `int` wraps. */
  function ToInt32(x: int): (r: int)
    ensures -0x8000_0000 <= r < 0x8000_0000
    ensures 0 <= x < 0x8000_0000 ==> r == x
    ensures (r - x) % 0x1_0000_0000 == 0
  {
    var m := x % 0x1_0000_0000;
    if m < 0x8000_0000 then m else m - 0x1_0000_0000
  }

  /** Zero for an unsuitable device; otherwise 1000 for a discrete GPU plus the
      maximum 2D image dimension, computed in 32-bit arithmetic. */
  function RateDeviceSuitability(device: PhysicalDevice): (score: int)
    requires IsUint32(device.maxImageDimension2D)
    ensures -0x8000_0000 <= score < 0x8000_0000
    ensures !IsDeviceSuitable(device) ==> score == 0
    ensures IsDeviceSuitable(device) && device.maxImageDimension2D + DISCRETE_BONUS < 0x8000_0000 ==>
              score == device.maxImageDimension2D + (if device.discrete then DISCRETE_BONUS else 0)
  {
    if !IsDeviceSuitable(device) then 0
    else
      var base := if device.discrete then DISCRETE_BONUS else 0;
      ToInt32((base + device.maxImageDimension2D) % 0x1_0000_0000)
  }

  /** The index the candidate multimap's last entry denotes: a device of
      maximal score, and among equal maxima the one enumerated last (equal
      keys keep insertion order). */
  method BestCandidate(scores: seq<int>) returns (best: nat)
    requires |scores| > 0
    ensures best < |scores|
    ensures forall j :: 0 <= j < |scores| ==> scores[j] <= scores[best]
    ensures forall j :: best < j < |scores| ==> scores[j] < scores[best]
  {
    best := 0;
    var i := 1;
    while i < |scores|
      invariant 1 <= i <= |scores|
      invariant best < i
      invariant forall j :: 0 <= j < i ==> scores[j] <= scores[best]
      invariant forall j :: best < j < i ==> scores[j] < scores[best]
      decreases |scores| - i
    {
      if scores[i] >= scores[best] {
        best := i;
      }
      i := i + 1;
    }
  }

  /** Chooses the physical device: an error when there is none, the best
      scoring one when its score is positive, an error otherwise. */
  method PickPhysicalDevice(devices: seq<PhysicalDevice>) returns (r: Outcome<nat>)
    requires forall d :: d in devices ==> IsUint32(d.maxImageDimension2D)
    ensures |devices| == 0 <==> r == Failure(NoVulkanGpu)
    ensures r.Success? ==>
              r.value < |devices| && IsDeviceSuitable(devices[r.value]) &&
              RateDeviceSuitability(devices[r.value]) > 0 &&
              (forall j :: 0 <= j < |devices| ==> RateDeviceSuitability(devices[j]) <= RateDeviceSuitability(devices[r.value])) &&
              (forall j :: r.value < j < |devices| ==> RateDeviceSuitability(devices[j]) < RateDeviceSuitability(devices[r.value]))
    ensures |devices| > 0 ==>
              (r.Failure? <==> forall j :: 0 <= j < |devices| ==> RateDeviceSuitability(devices[j]) <= 0)
    ensures r.Failure? ==> r.error in {NoVulkanGpu, NoSuitableGpu}
  {
    if |devices| == 0 {
      return Failure(NoVulkanGpu);
    }
    var scores := seq(|devices|, j requires 0 <= j < |devices| => RateDeviceSuitability(devices[j]));
    assert forall j :: 0 <= j < |devices| ==> scores[j] == RateDeviceSuitability(devices[j]);
    var best := BestCandidate(scores);
    if scores[best] > 0 {
      r := Success(best);
    } else {
      r := Failure(NoSuitableGpu);
    }
  }
}

=== FILE: early_apps.dfy ===
/** The applications written before the renderer class existed.

    The push-constant stages (Triangle_2 and Triangle_w) own the swapchain
    and one command buffer per swapchain IMAGE. Each frame re-records the
    buffer of the acquired image, submits it, and recreates the swapchain
    when it goes stale. They have no format check on recreation and
    reallocate their command buffers only when the image count changes.

    The first stage (Triangle) records every buffer once, at start-up, and
    has no recovery: anything but success is an error. */
module EarlyApps {
  import opened Wrappers
  import opened Vulkan
  import SC = Swapchain
  import R = Renderer

  /** The commands these stages record. Push-constant contents (offsets,
      colours, 2x2 transforms) are floating point and stay opaque: a push
      names which block it sends. */
  datatype Command =
    | BeginRenderPass(framebuffer: nat)
    | SetViewport
    | SetScissor
    | BindPipeline
    | BindModel(model: nat)
    | PushConstants(block: nat)
    | Draw(vertexCount: nat)
    | EndRenderPass

  /** A command buffer together with what was recorded into it. */
  datatype Recording = Recording(commandBuffer: nat, commands: seq<Command>)

  /** A scene object of the Triangle_2 stage: its push block and its model. */
  datatype GameObject = GameObject(block: nat, model: nat, vertexCount: nat)

  /** What a stage draws between viewport/scissor setup and the end of the
      pass: Triangle_2 pushes and draws each object; Triangle_w binds one
      model and draws it four times with four push blocks. */
  datatype Stage =
    | PushObjects(objects: seq<GameObject>)
    | FourDraws(model: nat, vertexCount: nat)

  // ---------------------------------------------------------------- recording

  /** The commands `renderGameObjects` records after binding the pipeline:
      per object, its push constants, its model binding and its draw. */
  function ObjectCommands(objects: seq<GameObject>): (cmds: seq<Command>)
    ensures |cmds| == 3 * |objects|
  {
    if objects == [] then []
    else
      var o := objects[0];
      [PushConstants(o.block), BindModel(o.model), Draw(o.vertexCount)] + ObjectCommands(objects[1..])
  }

  /** Object k's three commands sit at positions 3k .. 3k+2, in list order. */
  lemma {:induction false} ObjectCommandsAt(objects: seq<GameObject>, k: nat)
    requires k < |objects|
    ensures var cmds := ObjectCommands(objects);
            cmds[3 * k] == PushConstants(objects[k].block) &&
            cmds[3 * k + 1] == BindModel(objects[k].model) &&
            cmds[3 * k + 2] == Draw(objects[k].vertexCount)
    decreases k
  {
    if k > 0 {
      var rest := ObjectCommands(objects[1..]);
      ObjectCommandsAt(objects[1..], k - 1);
      assert objects[1..][k - 1] == objects[k];
      assert ObjectCommands(objects)[3..] == rest;
    }
  }

  /** The number of draws in a command list. */
  function DrawCount(cmds: seq<Command>): nat {
    if cmds == [] then 0 else (if cmds[0].Draw? then 1 else 0) + DrawCount(cmds[1..])
  }

  lemma {:induction false} DrawCountAppend(a: seq<Command>, b: seq<Command>)
    ensures DrawCount(a + b) == DrawCount(a) + DrawCount(b)
    decreases |a|
  {
    if a != [] {
      assert (a + b)[0] == a[0] && (a + b)[1..] == a[1..] + b;
      DrawCountAppend(a[1..], b);
      assert DrawCount(a + b) == (if a[0].Draw? then 1 else 0) + DrawCount(a[1..] + b);
    } else {
      assert a + b == b;
    }
  }

  /** A one-command list counts one exactly when it is a draw. */
  lemma DrawCountSingle(c: Command)
    ensures DrawCount([c]) == if c.Draw? then 1 else 0
  {
    assert [c][1..] == [];
  }

  /** Triangle_2 draws each scene object exactly once per frame. */
  lemma {:induction false} OneDrawPerObject(objects: seq<GameObject>)
    ensures DrawCount(ObjectCommands(objects)) == |objects|
    decreases |objects|
  {
    if objects != [] {
      var o := objects[0];
      var rest := ObjectCommands(objects[1..]);
      assert ObjectCommands(objects) == [PushConstants(o.block)] + [BindModel(o.model)] + [Draw(o.vertexCount)] + rest;
      DrawCountSingle(PushConstants(o.block));
      DrawCountSingle(BindModel(o.model));
      DrawCountSingle(Draw(o.vertexCount));
      DrawCountAppend([PushConstants(o.block)], [BindModel(o.model)]);
      DrawCountAppend([PushConstants(o.block)] + [BindModel(o.model)], [Draw(o.vertexCount)]);
      DrawCountAppend([PushConstants(o.block)] + [BindModel(o.model)] + [Draw(o.vertexCount)], rest);
      OneDrawPerObject(objects[1..]);
    }
  }

  /** The number of draws of the Triangle_w stage. */
  const FOUR: nat := 4

  /** Triangle_w's inner loop: push block i, then draw the bound model, for
      i = 0 .. 3. */
  method FourPushDraws(vertexCount: nat) returns (cmds: seq<Command>)
    ensures |cmds| == 2 * FOUR
    ensures forall i :: 0 <= i < FOUR ==> cmds[2 * i] == PushConstants(i) && cmds[2 * i + 1] == Draw(vertexCount)
  {
    cmds := [];
    for i := 0 to FOUR
      invariant |cmds| == 2 * i
      invariant forall j :: 0 <= j < i ==> cmds[2 * j] == PushConstants(j) && cmds[2 * j + 1] == Draw(vertexCount)
    {
      cmds := cmds + [PushConstants(i), Draw(vertexCount)];
    }
  }

  /** n push/draw pairs hold exactly n draws. */
  lemma {:induction false} PushDrawPairsCount(cmds: seq<Command>, n: nat)
    requires |cmds| == 2 * n
    requires forall i :: 0 <= i < n ==> cmds[2 * i].PushConstants? && cmds[2 * i + 1].Draw?
    ensures DrawCount(cmds) == n
    decreases n
  {
    if n > 0 {
      var front := cmds[..2 * (n - 1)];
      assert cmds == front + [cmds[2 * n - 2]] + [cmds[2 * n - 1]];
      assert forall i :: 0 <= i < n - 1 ==> front[2 * i] == cmds[2 * i] && front[2 * i + 1] == cmds[2 * i + 1];
      PushDrawPairsCount(front, n - 1);
      DrawCountSingle(cmds[2 * n - 2]);
      DrawCountSingle(cmds[2 * n - 1]);
      DrawCountAppend(front, [cmds[2 * n - 2]]);
      DrawCountAppend(front + [cmds[2 * n - 2]], [cmds[2 * n - 1]]);
    }
  }

  /** A list without draws counts none. */
  lemma {:induction false} NoDrawCount(cmds: seq<Command>)
    requires forall i :: 0 <= i < |cmds| ==> !cmds[i].Draw?
    ensures DrawCount(cmds) == 0
    decreases |cmds|
  {
    if cmds != [] {
      assert forall i :: 0 <= i < |cmds| - 1 ==> cmds[1..][i] == cmds[i + 1];
      NoDrawCount(cmds[1..]);
    }
  }

  /** What `recordCommandBuffer` records for image `imageIndex`: the render
      pass on that image's framebuffer, viewport and scissor, the stage's
      draws, the end of the pass. */
  method RecordCommandBuffer(stage: Stage, imageIndex: nat) returns (cmds: seq<Command>)
    ensures |cmds| >= 4 && cmds[0] == BeginRenderPass(imageIndex) && cmds[1] == SetViewport &&
            cmds[2] == SetScissor && cmds[3] == BindPipeline && cmds[|cmds| - 1] == EndRenderPass
    ensures stage.PushObjects? ==> cmds == cmds[..4] + ObjectCommands(stage.objects) + [EndRenderPass]
    ensures stage.PushObjects? ==> DrawCount(cmds) == |stage.objects|
    ensures stage.FourDraws? ==> |cmds| == 5 + 2 * FOUR + 1 && cmds[4] == BindModel(stage.model)
    ensures stage.FourDraws? ==> forall i :: 0 <= i < FOUR ==>
              cmds[5 + 2 * i] == PushConstants(i) && cmds[6 + 2 * i] == Draw(stage.vertexCount)
    ensures stage.FourDraws? ==> DrawCount(cmds) == FOUR
  {
    var setup := [BeginRenderPass(imageIndex), SetViewport, SetScissor, BindPipeline];
    NoDrawCount(setup);
    DrawCountSingle(EndRenderPass);
    match stage
    case PushObjects(objects) =>
      var draws := ObjectCommands(objects);
      cmds := setup + draws + [EndRenderPass];
      assert cmds[..4] == setup;
      OneDrawPerObject(objects);
      DrawCountAppend(setup, draws);
      DrawCountAppend(setup + draws, [EndRenderPass]);
    case FourDraws(model, vertexCount) =>
      var draws := FourPushDraws(vertexCount);
      PushDrawPairsCount(draws, FOUR);
      DrawCountSingle(BindModel(model));
      DrawCountAppend(setup, [BindModel(model)]);
      DrawCountAppend(setup + [BindModel(model)], draws);
      cmds := setup + [BindModel(model)] + draws + [EndRenderPass];
      DrawCountAppend(setup + [BindModel(model)] + draws, [EndRenderPass]);
  }

  // ---------------------------------------------------------------- application state

  /** The application's swapchain, its per-image command buffers and the
      window's resize flag. */
  datatype App = App(swapchain: SC.Swapchain, commandBuffers: seq<nat>, windowResized: bool)
  {
    /** One command buffer per swapchain image. */
    predicate Valid() {
      swapchain.Valid() && |commandBuffers| == swapchain.ImageCount()
    }
  }

  /** The driver's answer to a command-buffer allocation: the result and one
      handle per swapchain image it was asked for. */
  datatype Allocation = Allocation(result: VkResult, handles: seq<nat>)

  /** The swapchain these stages build: once the window has a non-zero size
      (and the device is idle), a swapchain on that extent replacing
      `previous`. */
  function BuildSwapchain(previous: Option<nat>, env: R.Environment): (r: Outcome<SC.Swapchain>)
    requires env.Usable()
    ensures r.Success? ==> r.value.Valid() && r.value.ImageCount() == |env.driver.images|
    ensures r.Success? ==> r.value.oldSwapchain == previous && r.value.currentFrame == 0
    ensures r.Success? <==> env.driver.objectsCreated && SC.FindDepthFormat(env.device).Success?
  {
    var extent := env.extentPolls[R.WaitForNonZeroExtent(env.extentPolls)];
    SC.CreateSwapchain(env.device, env.capabilities, env.indices, extent, previous, env.driver)
  }

  /** The constructor: builds the first swapchain (with no predecessor),
      then allocates one command buffer per image; a failed allocation throws. */
  function NewApp(env: R.Environment, alloc: Allocation): (r: Outcome<App>)
    requires env.Usable() && |alloc.handles| == |env.driver.images|
    ensures r.Success? ==> r.value.Valid() && !r.value.windowResized
    ensures r.Success? ==> r.value.swapchain.oldSwapchain.None? && r.value.commandBuffers == alloc.handles
    ensures r.Success? <==> BuildSwapchain(None, env).Success? && alloc.result == VkSuccess
    ensures BuildSwapchain(None, env).Success? && alloc.result != VkSuccess ==> r == Failure(CreationFailed)
  {
    var sc :- BuildSwapchain(None, env);
    if alloc.result != VkSuccess then Failure(CreationFailed)
    else Success(App(sc, alloc.handles, false))
  }

  /** `recreateSwapchain` once a swapchain exists: builds its successor and
      frees and reallocates the command buffers only when the image count
      changed. Unlike the renderer, it never compares formats. */
  function Recreate(app: App, env: R.Environment, alloc: Allocation): (r: Outcome<App>)
    requires app.Valid() && env.Usable() && |alloc.handles| == |env.driver.images|
    ensures r.Success? ==> r.value.Valid() && r.value.windowResized == app.windowResized
    ensures r.Success? ==> r.value.swapchain.oldSwapchain == Some(app.swapchain.handle)
    ensures r.Success? && |env.driver.images| == app.swapchain.ImageCount() ==> r.value.commandBuffers == app.commandBuffers
    ensures r.Success? && |env.driver.images| != app.swapchain.ImageCount() ==> r.value.commandBuffers == alloc.handles
    ensures r.Success? <==> BuildSwapchain(Some(app.swapchain.handle), env).Success? &&
                            (|env.driver.images| == app.swapchain.ImageCount() || alloc.result == VkSuccess)
  {
    var sc :- BuildSwapchain(Some(app.swapchain.handle), env);
    if sc.ImageCount() == |app.commandBuffers| then Success(app.(swapchain := sc))
    else if alloc.result != VkSuccess then Failure(CreationFailed)
    else Success(app.(swapchain := sc, commandBuffers := alloc.handles))
  }

  /** Where the renderer throws on a format change, these stages carry on. */
  lemma RecreateAcceptsFormatChange(app: App, env: R.Environment, alloc: Allocation)
    requires app.Valid() && env.Usable() && |alloc.handles| == |env.driver.images|
    requires |env.driver.images| == app.swapchain.ImageCount()
    requires BuildSwapchain(Some(app.swapchain.handle), env).Success?
    requires !SC.CompareSwapChainFormats(app.swapchain, BuildSwapchain(Some(app.swapchain.handle), env).value)
    ensures Recreate(app, env, alloc).Success?
    ensures R.BuildSwapchain(Some(app.swapchain), env) == Failure(FormatChanged)
  {
  }

  // ---------------------------------------------------------------- one frame

  /** The present's answer once the image is submitted: a stale or
      suboptimal swapchain or a resized window clears the flag and recreates;
      another failure throws. */
  function AfterPresent(app: App, result: VkResult, env: R.Environment, alloc: Allocation): (r: Outcome<App>)
    requires app.Valid() && env.Usable() && |alloc.handles| == |env.driver.images|
    ensures r.Success? ==> r.value.Valid() && !r.value.windowResized
    ensures (result in {VkSuboptimal, VkOutOfDate} || app.windowResized) ==>
              r == Recreate(app.(windowResized := false), env, alloc)
    ensures result !in {VkSuccess, VkSuboptimal, VkOutOfDate} && !app.windowResized ==> r == Failure(PresentFailed)
    ensures result == VkSuccess && !app.windowResized ==> r == Success(app)
  {
    if result == VkOutOfDate || result == VkSuboptimal || app.windowResized then
      Recreate(app.(windowResized := false), env, alloc)
    else if result != VkSuccess then Failure(PresentFailed)
    else Success(app)
  }

  /** `drawFrame` of the push-constant stages. A stale swapchain at acquire
      is recreated and nothing is recorded or submitted; another acquire
      failure throws. Otherwise the acquired image's own command buffer is
      re-recorded and submitted, and the present's answer is handled. */
  method DrawFrame(app: App, stage: Stage, acquire: R.AcquireAnswer, submit: R.SubmitAnswer,
                   env: R.Environment, alloc: Allocation)
    returns (res: Outcome<(App, Option<Recording>)>)
    requires app.Valid() && env.Usable() && |alloc.handles| == |env.driver.images|
    requires acquire.result in {VkSuccess, VkSuboptimal} ==> acquire.imageIndex < app.swapchain.ImageCount()
    ensures res.Success? ==> res.value.0.Valid()
    ensures acquire.result == VkOutOfDate ==>
              res.Success? ==> res.value.1.None? && res.value.0.swapchain.oldSwapchain == Some(app.swapchain.handle)
    ensures acquire.result !in {VkSuccess, VkSuboptimal, VkOutOfDate} ==> res == Failure(AcquireFailed)
    ensures acquire.result in {VkSuccess, VkSuboptimal} ==>
              (acquire.beginRecording != VkSuccess || submit.endRecording != VkSuccess ==> res == Failure(RecordFailed)) &&
              (acquire.beginRecording == VkSuccess && submit.endRecording == VkSuccess && submit.submit != VkSuccess ==>
                 res == Failure(SubmitFailed))
    ensures res.Success? && acquire.result != VkOutOfDate ==>
              res.value.1.Some? && !res.value.0.windowResized &&
              |res.value.1.value.commands| >= 4 &&
              res.value.1.value.commandBuffer == app.commandBuffers[acquire.imageIndex] &&
              res.value.1.value.commands[0] == BeginRenderPass(acquire.imageIndex)
    ensures res.Success? && acquire.result != VkOutOfDate && submit.present == VkSuccess && !app.windowResized ==>
              res.value.0.swapchain.handle == app.swapchain.handle &&
              res.value.0.swapchain.imagesInFlight == app.swapchain.imagesInFlight[acquire.imageIndex := Some(app.swapchain.currentFrame)]
    ensures res.Success? && acquire.result != VkOutOfDate && (submit.present in {VkSuboptimal, VkOutOfDate} || app.windowResized) ==>
              res.value.0.swapchain.oldSwapchain == Some(app.swapchain.handle)
    ensures acquire.result in {VkSuccess, VkSuboptimal} && acquire.beginRecording == VkSuccess &&
            submit.endRecording == VkSuccess && submit.submit == VkSuccess &&
            submit.present !in {VkSuccess, VkSuboptimal, VkOutOfDate} && !app.windowResized ==>
              res == Failure(PresentFailed)
  {
    var (sc, result) := SC.AcquireNextImage(app.swapchain, acquire.result);
    var acquired := app.(swapchain := sc);
    if result == VkOutOfDate {
      var next := Recreate(acquired, env, alloc);
      if next.Failure? {
        return Failure(next.error);
      }
      return Success((next.value, None));
    }
    if result != VkSuccess && result != VkSuboptimal {
      return Failure(AcquireFailed);
    }
    if acquire.beginRecording != VkSuccess {
      return Failure(RecordFailed);
    }
    var cmds := RecordCommandBuffer(stage, acquire.imageIndex);
    if submit.endRecording != VkSuccess {
      return Failure(RecordFailed);
    }
    var submitted := SC.SubmitCommandBuffers(sc, acquire.imageIndex, submit.submit, submit.present);
    if submitted.Failure? {
      return Failure(submitted.error);
    }
    var (presented, _, presentResult) := submitted.value;
    var next := AfterPresent(acquired.(swapchain := presented), presentResult, env, alloc);
    if next.Failure? {
      return Failure(next.error);
    }
    return Success((next.value, Some(Recording(app.commandBuffers[acquire.imageIndex], cmds))));
  }

  // ---------------------------------------------------------------- the first stage

  /** The first stage: one command buffer per image, recorded at start-up
      and never again. */
  datatype StrictApp = StrictApp(swapchain: SC.Swapchain, recordings: seq<Recording>)
  {
    /** One recording per image, each the fixed three-vertex pass on its
        own image's framebuffer. */
    predicate Valid() {
      swapchain.Valid() && |recordings| == swapchain.ImageCount() &&
      forall i :: 0 <= i < |recordings| ==> recordings[i].commands == TrianglePass(i)
    }
  }

  /** Render pass on framebuffer i, pipeline bind, a three-vertex draw, end of pass. */
  function TrianglePass(i: nat): (cmds: seq<Command>)
    ensures DrawCount(cmds) == 1
  {
    var setup := [BeginRenderPass(i), BindPipeline];
    NoDrawCount(setup);
    DrawCountSingle(Draw(3));
    DrawCountSingle(EndRenderPass);
    DrawCountAppend(setup, [Draw(3)]);
    DrawCountAppend(setup + [Draw(3)], [EndRenderPass]);
    setup + [Draw(3)] + [EndRenderPass]
  }

  /** `createCommandBuffers` of the first stage: allocates one buffer per
      image and records each; a failed allocation or recording throws.
      `recordResults[i]` is the outcome of recording buffer i. */
  method NewStrictApp(sc: SC.Swapchain, alloc: Allocation, recordResults: seq<VkResult>) returns (res: Outcome<StrictApp>)
    requires sc.Valid() && |alloc.handles| == sc.ImageCount() && |recordResults| == sc.ImageCount()
    ensures res.Success? ==> res.value.Valid() && res.value.swapchain == sc
    ensures res.Success? ==> forall i :: 0 <= i < sc.ImageCount() ==> res.value.recordings[i].commandBuffer == alloc.handles[i]
    ensures res.Success? <==> alloc.result == VkSuccess && forall i :: 0 <= i < |recordResults| ==> recordResults[i] == VkSuccess
  {
    if alloc.result != VkSuccess {
      return Failure(CreationFailed);
    }
    var recordings: seq<Recording> := [];
    for i := 0 to sc.ImageCount()
      invariant |recordings| == i
      invariant forall j :: 0 <= j < i ==> recordResults[j] == VkSuccess
      invariant forall j :: 0 <= j < i ==>
                  recordings[j].commands == TrianglePass(j) && recordings[j].commandBuffer == alloc.handles[j]
    {
      if recordResults[i] != VkSuccess {
        return Failure(RecordFailed);
      }
      recordings := recordings + [Recording(alloc.handles[i], TrianglePass(i))];
    }
    return Success(StrictApp(sc, recordings));
  }

  /** `drawFrame` of the first stage: anything but success or suboptimal at
      acquire throws (there is no out-of-date recovery), the acquired
      image's pre-recorded buffer is submitted, and anything but success
      from the present throws, suboptimal included. */
  function StrictDrawFrame(app: StrictApp, acquire: R.AcquireAnswer, submitResult: VkResult, presentResult: VkResult)
    : (res: Outcome<(StrictApp, Recording)>)
    requires app.Valid()
    requires acquire.result in {VkSuccess, VkSuboptimal} ==> acquire.imageIndex < app.swapchain.ImageCount()
    ensures res.Success? <==> acquire.result in {VkSuccess, VkSuboptimal} && submitResult == VkSuccess && presentResult == VkSuccess
    ensures acquire.result !in {VkSuccess, VkSuboptimal} ==> res == Failure(AcquireFailed)
    ensures acquire.result in {VkSuccess, VkSuboptimal} && submitResult == VkSuccess && presentResult != VkSuccess ==>
              res == Failure(PresentFailed)
    ensures res.Success? ==> res.value.0.Valid() && res.value.0.recordings == app.recordings &&
                             res.value.1 == app.recordings[acquire.imageIndex] &&
                             res.value.1.commands == TrianglePass(acquire.imageIndex)
  {
    var (sc, result) := SC.AcquireNextImage(app.swapchain, acquire.result);
    if result != VkSuccess && result != VkSuboptimal then Failure(AcquireFailed)
    else
      var (submitted, _, present) :- SC.SubmitCommandBuffers(sc, acquire.imageIndex, submitResult, presentResult);
      if present != VkSuccess then Failure(PresentFailed)
      else Success((app.(swapchain := submitted), app.recordings[acquire.imageIndex]))
  }
}

=== FILE: ecs.dfy ===
/** The entity-component system of the lighting stage: component type IDs
    drawn from one global counter, entities that own their components and
    find them again through a per-type slot and a presence bit, and the
    point-light component. Floating-point values are modelled as reals. */
module Ecs {

  /** Capacity of an entity's component bitset and slot array. */
  const MAX_COMPONENTS: nat := 32

  // ---------------------------------------------------------------- component type IDs

  /** The component classes of the program. Every instantiation of the
      FunctionComponent template is a class of its own. */
  datatype ComponentType =
    | ModelComponentType
    | PointlightComponentType
    | FunctionComponentType(paramCount: nat)

  /** The static state behind getComponentTypeID: the shared counter of the
      untyped overload, and the ID each class received on its first call. */
  datatype Registry = Registry(lastId: nat, ids: map<ComponentType, nat>) {
    predicate Valid() {
      (forall t :: t in ids ==> ids[t] < lastId) &&
      (forall s, t :: s in ids && t in ids && s != t ==> ids[s] != ids[t])
    }
  }

  const NEW_REGISTRY: Registry := Registry(0, map[])

  /** The untyped getComponentTypeID: hands out the counter and increments it. */
  function NextTypeId(r: Registry): (res: (Registry, nat))
    ensures res.0.ids == r.ids
  {
    (r.(lastId := r.lastId + 1), r.lastId)
  }

  /** `n` successive untyped calls. */
  function NextTypeIds(r: Registry, n: nat): (res: (Registry, seq<nat>))
    ensures |res.1| == n && res.0.lastId == r.lastId + n && res.0.ids == r.ids
    ensures forall k :: 0 <= k < n ==> res.1[k] == r.lastId + k
    decreases n
  {
    if n == 0 then (r, [])
    else
      var (r1, first) := NextTypeId(r);
      var (r2, rest) := NextTypeIds(r1, n - 1);
      (r2, [first] + rest)
  }

  /** The typed getComponentTypeID<T>: its function-local static is
      initialised from the counter on the first call and returned afterwards. */
  function TypeId(r: Registry, t: ComponentType): (res: (Registry, nat))
    requires r.Valid()
    ensures res.0.Valid()
    ensures t in res.0.ids && res.0.ids[t] == res.1
    ensures t in r.ids ==> res.0 == r
    ensures res.0.ids.Keys == r.ids.Keys + {t}
    ensures forall s :: s in r.ids ==> res.0.ids[s] == r.ids[s]
  {
    if t in r.ids then (r, r.ids[t])
    else
      var (next, id) := NextTypeId(r);
      (next.(ids := next.ids[t := id]), id)
  }

  /** Asking again for the same class gives the same ID and draws nothing. */
  lemma TypeIdIsStable(r: Registry, t: ComponentType)
    requires r.Valid()
    ensures var (r1, id) := TypeId(r, t); TypeId(r1, t) == (r1, id)
  {
  }

  /** Two classes never share an ID, whatever order they are asked in. */
  lemma DistinctTypesGetDistinctIds(r: Registry, s: ComponentType, t: ComponentType)
    requires r.Valid() && s != t
    ensures var (r1, a) := TypeId(r, s); var (r2, b) := TypeId(r1, t); a != b
  {
  }

  /** A class's first request draws the next value of the shared counter,
      so typed and untyped requests never collide either. */
  lemma FirstRequestDrawsCounter(r: Registry, t: ComponentType)
    requires r.Valid() && t !in r.ids
    ensures TypeId(r, t) == (r.(lastId := r.lastId + 1, ids := r.ids[t := r.lastId]), r.lastId)
    ensures forall s :: s in TypeId(r, t).0.ids ==> TypeId(r, t).0.ids[s] < NextTypeId(TypeId(r, t).0).1
  {
  }

  // ---------------------------------------------------------------- point-light component

  datatype Vec3 = Vec3(x: real, y: real, z: real)

  datatype Vec4 = Vec4(x: real, y: real, z: real, w: real)

  /** A point light: colour in xyz and intensity in w, plus a radius. */
  datatype PointlightComponent = PointlightComponent(colorIntensity: Vec4, radius: real)

  const DEFAULT_RADIUS: real := 0.1

  /** The default light: white, intensity 1, the default radius. */
  const DEFAULT_LIGHT: PointlightComponent := PointlightComponent(Vec4(1.0, 1.0, 1.0, 1.0), DEFAULT_RADIUS)

  /** The colour is the xyz part of the packed vector. */
  function GetColor(l: PointlightComponent): (c: Vec3)
    ensures Vec4(c.x, c.y, c.z, l.colorIntensity.w) == l.colorIntensity
  {
    Vec3(l.colorIntensity.x, l.colorIntensity.y, l.colorIntensity.z)
  }

  /** The packed vector and the radius together are the whole light. */
  function GetColorIntensity(l: PointlightComponent): (v: Vec4)
    ensures PointlightComponent(v, l.radius) == l
  {
    l.colorIntensity
  }

  /** The intensity is the w part of the packed vector. */
  function GetIntensity(l: PointlightComponent): (i: real)
    ensures Vec4(l.colorIntensity.x, l.colorIntensity.y, l.colorIntensity.z, i) == l.colorIntensity
  {
    l.colorIntensity.w
  }

  function GetRadius(l: PointlightComponent): (radius: real)
    ensures PointlightComponent(l.colorIntensity, radius) == l
  {
    l.radius
  }

  /** The getters lose nothing: the full constructor given what they read
      back rebuilds the light, and so does the packed setter. */
  lemma GettersRebuildLight(l: PointlightComponent, other: PointlightComponent)
    ensures LightWith(GetColor(l), GetIntensity(l), GetRadius(l)) == l
    ensures SetRadius(SetColorIntensity(other, GetColorIntensity(l)), GetRadius(l)) == l
  {
  }

  /** The packed vector is the colour followed by the intensity. */
  lemma ColorIntensityPacksBoth(l: PointlightComponent)
    ensures GetColorIntensity(l) == Vec4(GetColor(l).x, GetColor(l).y, GetColor(l).z, GetIntensity(l))
  {
  }

  lemma DefaultLightIsWhite()
    ensures GetColor(DEFAULT_LIGHT) == Vec3(1.0, 1.0, 1.0)
    ensures GetIntensity(DEFAULT_LIGHT) == 1.0 && GetRadius(DEFAULT_LIGHT) == 0.1
  {
  }

  /** The colour-only constructor. */
  function LightWithColor(color: Vec3): (l: PointlightComponent)
    ensures GetColor(l) == color && GetIntensity(l) == 1.0 && GetRadius(l) == DEFAULT_RADIUS
  {
    PointlightComponent(Vec4(color.x, color.y, color.z, 1.0), DEFAULT_RADIUS)
  }

  /** The colour, intensity and radius constructor; the radius is optional. */
  function LightWith(color: Vec3, intensity: real, radius: real := DEFAULT_RADIUS): (l: PointlightComponent)
    ensures GetColor(l) == color && GetIntensity(l) == intensity && GetRadius(l) == radius
  {
    PointlightComponent(Vec4(color.x, color.y, color.z, intensity), radius)
  }

  function SetColor(l: PointlightComponent, color: Vec3): (r: PointlightComponent)
    ensures GetColor(r) == color
    ensures GetIntensity(r) == GetIntensity(l) && GetRadius(r) == GetRadius(l)
  {
    l.(colorIntensity := Vec4(color.x, color.y, color.z, l.colorIntensity.w))
  }

  function SetColorIntensity(l: PointlightComponent, colorIntensity: Vec4): (r: PointlightComponent)
    ensures GetColorIntensity(r) == colorIntensity && GetIntensity(r) == colorIntensity.w
    ensures GetRadius(r) == GetRadius(l)
  {
    l.(colorIntensity := colorIntensity)
  }

  function SetIntensity(l: PointlightComponent, intensity: real): (r: PointlightComponent)
    ensures GetIntensity(r) == intensity
    ensures GetColor(r) == GetColor(l) && GetRadius(r) == GetRadius(l)
  {
    l.(colorIntensity := l.colorIntensity.(w := intensity))
  }

  function SetRadius(l: PointlightComponent, radius: real): (r: PointlightComponent)
    ensures GetRadius(r) == radius
    ensures GetColorIntensity(r) == GetColorIntensity(l)
  {
    l.(radius := radius)
  }

  /** Setting the intensity and the colour in either order gives the same light. */
  lemma ColorAndIntensitySettersCommute(l: PointlightComponent, color: Vec3, intensity: real)
    ensures SetIntensity(SetColor(l, color), intensity) == SetColor(SetIntensity(l, intensity), color)
  {
  }

  // ---------------------------------------------------------------- entities

  /** Position, scale and rotation of an entity. */
  datatype Transform = Transform(translation: Vec3, scale: Vec3, rotation: Vec3)

  const DEFAULT_TRANSFORM: Transform := Transform(Vec3(0.0, 0.0, 0.0), Vec3(1.0, 1.0, 1.0), Vec3(0.0, 0.0, 0.0))

  /** What a component holds: a model (named by its file), a light, or the
      constant parameters of a FunctionComponent. */
  datatype ComponentData =
    | ModelData(path: string)
    | LightData(light: PointlightComponent)
    | FunctionData(params: seq<int>)

  function TypeOf(d: ComponentData): ComponentType {
    match d
    case ModelData(_) => ModelComponentType
    case LightData(_) => PointlightComponentType
    case FunctionData(params) => FunctionComponentType(|params|)
  }

  /** A component with the back-pointer to its owning entity. */
  datatype Component = Component(owner: nat, data: ComponentData)

  /** An entity, identified by `id`. It owns `components` in insertion order;
      `slots` maps a type ID to the position of the component the lookup
      array points at, and `bits` is the presence bitset. */
  datatype Entity = Entity(
    id: nat,
    transform: Transform,
    alive: bool,
    components: seq<Component>,
    slots: map<nat, nat>,
    bits: set<nat>)

  /** Every component points back at the entity that owns it. */
  predicate Owned(e: Entity) {
    forall i :: 0 <= i < |e.components| ==> e.components[i].owner == e.id
  }

  /** The entity's representation invariant under the type IDs `r`: the
      bitset marks exactly the filled slots, every owned component's type is
      marked, and a slot holds the most recently added component of its type. */
  predicate WellFormed(e: Entity, r: Registry) {
    Owned(e) && e.slots.Keys == e.bits && TypesMarked(e, r) && SlotsPointRight(e, r) && SlotsLatest(e, r)
  }

  /** Every owned component's type has an ID, and that ID is marked. */
  predicate TypesMarked(e: Entity, r: Registry) {
    forall i :: 0 <= i < |e.components| ==>
      TypeOf(e.components[i].data) in r.ids && r.ids[TypeOf(e.components[i].data)] in e.bits
  }

  /** Every filled slot fits the bitset and holds a component of its type. */
  predicate SlotsPointRight(e: Entity, r: Registry) {
    forall t :: t in e.slots ==>
      t < MAX_COMPONENTS && e.slots[t] < |e.components| &&
      TypeOf(e.components[e.slots[t]].data) in r.ids && r.ids[TypeOf(e.components[e.slots[t]].data)] == t
  }

  /** No component of a slot's type comes after the one the slot holds. */
  predicate SlotsLatest(e: Entity, r: Registry) {
    forall t, j :: t in e.slots && e.slots[t] < j < |e.components| ==>
      TypeOf(e.components[j].data) in r.ids && r.ids[TypeOf(e.components[j].data)] != t
  }

  /** The type has an ID that fits the entity's bitset. */
  predicate Indexable(r: Registry, t: ComponentType) {
    t in r.ids && r.ids[t] < MAX_COMPONENTS
  }

  /** A new entity: alive, default transform, no components. */
  function NewEntity(id: nat): (e: Entity)
    ensures e.id == id && e.alive
    ensures forall r: Registry :: WellFormed(e, r)
  {
    Entity(id, DEFAULT_TRANSFORM, true, [], map[], {})
  }

  function Destroy(e: Entity): (r: Entity)
    ensures !r.alive && r == e.(alive := false)
  {
    e.(alive := false)
  }

  lemma DestroyIsIdempotent(e: Entity)
    ensures Destroy(Destroy(e)) == Destroy(e)
  {
  }

  /** hasComponent reads the bitset; for a well-formed entity the bit is
      set exactly when the lookup array holds a component for the type. */
  function HasComponent(e: Entity, r: Registry, t: ComponentType): (has: bool)
    requires Indexable(r, t)
    ensures WellFormed(e, r) ==> (has <==> r.ids[t] in e.slots)
  {
    r.ids[t] in e.bits
  }

  /** The bit of a type is set exactly when the entity owns a component of it. */
  lemma HasComponentIffOwned(e: Entity, r: Registry, t: ComponentType)
    requires r.Valid() && WellFormed(e, r) && Indexable(r, t)
    ensures HasComponent(e, r, t) <==> exists i :: 0 <= i < |e.components| && TypeOf(e.components[i].data) == t
  {
    if HasComponent(e, r, t) {
      var i := e.slots[r.ids[t]];
      assert TypeOf(e.components[i].data) == t;
    }
  }

  lemma NewEntityHasNoComponent(id: nat, r: Registry, t: ComponentType)
    requires Indexable(r, t)
    ensures !HasComponent(NewEntity(id), r, t)
  {
  }

  /** Appends the component, with its owner set to this entity, and points
      the type's slot and bit at it. */
  function AddComponent(e: Entity, r: Registry, d: ComponentData): (next: Entity)
    requires Indexable(r, TypeOf(d))
    ensures next.components == e.components + [Component(e.id, d)]
    ensures next == e.(components := next.components, slots := next.slots, bits := next.bits)
    ensures next.slots.Keys == e.slots.Keys + {r.ids[TypeOf(d)]} && next.slots[r.ids[TypeOf(d)]] == |e.components|
    ensures forall t :: t in e.slots && t != r.ids[TypeOf(d)] ==> next.slots[t] == e.slots[t]
    ensures next.bits == e.bits + {r.ids[TypeOf(d)]}
    ensures r.Valid() && WellFormed(e, r) ==> WellFormed(next, r)
  {
    var id := r.ids[TypeOf(d)];
    var next := e.(components := e.components + [Component(e.id, d)],
                   slots := e.slots[id := |e.components|],
                   bits := e.bits + {id});
    assert r.Valid() && WellFormed(e, r) ==> WellFormed(next, r) by {
      if r.Valid() && WellFormed(e, r) {
        AddKeepsWellFormed(e, r, d, next);
      }
    }
    next
  }

  lemma AddKeepsWellFormed(e: Entity, r: Registry, d: ComponentData, next: Entity)
    requires r.Valid() && WellFormed(e, r) && Indexable(r, TypeOf(d))
    requires next == e.(components := e.components + [Component(e.id, d)],
                        slots := e.slots[r.ids[TypeOf(d)] := |e.components|],
                        bits := e.bits + {r.ids[TypeOf(d)]})
    ensures WellFormed(next, r)
  {
    AddKeepsOwned(e, Component(e.id, d), next);
    AddKeepsTypesMarked(e, r, d, next);
    AddKeepsSlotsPointRight(e, r, d, next);
    AddKeepsSlotsLatest(e, r, d, next);
  }

  lemma AddKeepsOwned(e: Entity, c: Component, next: Entity)
    requires Owned(e) && c.owner == e.id
    requires next.id == e.id && next.components == e.components + [c]
    ensures Owned(next)
  {
    forall i | 0 <= i < |next.components| ensures next.components[i].owner == next.id {
      if i < |e.components| {
        assert next.components[i] == e.components[i];
      }
    }
  }

  lemma AddKeepsTypesMarked(e: Entity, r: Registry, d: ComponentData, next: Entity)
    requires TypesMarked(e, r) && Indexable(r, TypeOf(d))
    requires next.components == e.components + [Component(e.id, d)] && next.bits == e.bits + {r.ids[TypeOf(d)]}
    ensures TypesMarked(next, r)
  {
    forall i | 0 <= i < |next.components|
      ensures TypeOf(next.components[i].data) in r.ids && r.ids[TypeOf(next.components[i].data)] in next.bits
    {
      if i < |e.components| {
        assert next.components[i] == e.components[i];
      }
    }
  }

  lemma AddKeepsSlotsPointRight(e: Entity, r: Registry, d: ComponentData, next: Entity)
    requires SlotsPointRight(e, r) && Indexable(r, TypeOf(d))
    requires next.components == e.components + [Component(e.id, d)]
    requires next.slots == e.slots[r.ids[TypeOf(d)] := |e.components|]
    ensures SlotsPointRight(next, r)
  {
    forall t | t in next.slots
      ensures t < MAX_COMPONENTS && next.slots[t] < |next.components| &&
              TypeOf(next.components[next.slots[t]].data) in r.ids &&
              r.ids[TypeOf(next.components[next.slots[t]].data)] == t
    {
      if t != r.ids[TypeOf(d)] {
        assert next.slots[t] == e.slots[t] && next.components[e.slots[t]] == e.components[e.slots[t]];
      }
    }
  }

  lemma AddKeepsSlotsLatest(e: Entity, r: Registry, d: ComponentData, next: Entity)
    requires SlotsLatest(e, r) && Indexable(r, TypeOf(d))
    requires next.components == e.components + [Component(e.id, d)]
    requires next.slots == e.slots[r.ids[TypeOf(d)] := |e.components|]
    ensures SlotsLatest(next, r)
  {
    forall t, j | t in next.slots && next.slots[t] < j < |next.components|
      ensures TypeOf(next.components[j].data) in r.ids && r.ids[TypeOf(next.components[j].data)] != t
    {
      assert t != r.ids[TypeOf(d)];
      if j < |e.components| {
        assert next.components[j] == e.components[j];
      }
    }
  }

  /** The added type is present; every other type's presence is unchanged. */
  lemma AddComponentSetsOnlyItsBit(e: Entity, r: Registry, d: ComponentData, t: ComponentType)
    requires r.Valid() && Indexable(r, TypeOf(d)) && Indexable(r, t)
    ensures HasComponent(AddComponent(e, r, d), r, TypeOf(d))
    ensures t != TypeOf(d) ==> HasComponent(AddComponent(e, r, d), r, t) == HasComponent(e, r, t)
  {
  }

  /** The component the lookup array holds for the type. */
  function GetComponent(e: Entity, r: Registry, t: ComponentType): (c: Component)
    requires r.Valid() && WellFormed(e, r) && Indexable(r, t) && HasComponent(e, r, t)
    ensures TypeOf(c.data) == t && c.owner == e.id
    ensures exists i :: 0 <= i < |e.components| && e.components[i] == c &&
                        forall j :: i < j < |e.components| ==> TypeOf(e.components[j].data) != t
  {
    var i := e.slots[r.ids[t]];
    assert forall j :: i < j < |e.components| ==> r.ids[TypeOf(e.components[j].data)] != r.ids[t];
    e.components[i]
  }

  /** Getting right after adding returns the added component. */
  lemma GetReturnsAdded(e: Entity, r: Registry, d: ComponentData)
    requires r.Valid() && WellFormed(e, r) && Indexable(r, TypeOf(d))
    ensures GetComponent(AddComponent(e, r, d), r, TypeOf(d)) == Component(e.id, d)
  {
  }

  /** Adding a second component of a type keeps both, and lookups see the second. */
  lemma SecondAddReplacesLookup(e: Entity, r: Registry, d1: ComponentData, d2: ComponentData)
    requires r.Valid() && WellFormed(e, r) && Indexable(r, TypeOf(d1)) && TypeOf(d2) == TypeOf(d1)
    ensures var twice := AddComponent(AddComponent(e, r, d1), r, d2);
            twice.components == e.components + [Component(e.id, d1), Component(e.id, d2)] &&
            GetComponent(twice, r, TypeOf(d1)) == Component(e.id, d2)
  {
    GetReturnsAdded(AddComponent(e, r, d1), r, d2);
  }

  // ---------------------------------------------------------------- entity update

  /** What a FunctionComponent's stored function does: given the entity and
      the component's constant parameters, it yields the new transform. */
  type Behaviour = (Entity, seq<int>) -> Transform

  /** One virtual update call: the component's position and the entity passed. */
  datatype UpdateCall = UpdateCall(component: nat, entity: nat)

  /** The entity after the first `k` components have run their update: a
      FunctionComponent applies its behaviour, the others do nothing. */
  function UpdatedThrough(e: Entity, behaviour: Behaviour, k: nat): (r: Entity)
    requires k <= |e.components|
    ensures r == e.(transform := r.transform)
  {
    if k == 0 then e
    else
      var before := UpdatedThrough(e, behaviour, k - 1);
      match e.components[k - 1].data
      case FunctionData(params) => before.(transform := behaviour(before, params))
      case _ => before
  }

  predicate HasFunctionComponent(e: Entity) {
    exists i :: 0 <= i < |e.components| && e.components[i].data.FunctionData?
  }

  /** Only FunctionComponents do anything on update. */
  lemma {:induction false} PassiveComponentsChangeNothing(e: Entity, behaviour: Behaviour, k: nat)
    requires k <= |e.components|
    requires forall i :: 0 <= i < k ==> !e.components[i].data.FunctionData?
    ensures UpdatedThrough(e, behaviour, k) == e
  {
    if k > 0 {
      PassiveComponentsChangeNothing(e, behaviour, k - 1);
    }
  }

  /** Calls update on each owned component once, in insertion order, passing
      the entity the component's back-pointer names. */
  method UpdateEntity(e: Entity, behaviour: Behaviour) returns (next: Entity, calls: seq<UpdateCall>)
    requires Owned(e)
    ensures |calls| == |e.components|
    ensures forall k :: 0 <= k < |calls| ==> calls[k] == UpdateCall(k, e.id)
    ensures next == UpdatedThrough(e, behaviour, |e.components|)
    ensures next == e.(transform := next.transform)
    ensures !HasFunctionComponent(e) ==> next == e
  {
    next := e;
    calls := [];
    for i := 0 to |e.components|
      invariant |calls| == i
      invariant forall k :: 0 <= k < i ==> calls[k] == UpdateCall(k, e.id)
      invariant next == UpdatedThrough(e, behaviour, i)
    {
      var c := e.components[i];
      calls := calls + [UpdateCall(i, c.owner)];
      match c.data {
        case FunctionData(params) =>
          next := next.(transform := behaviour(next, params));
        case _ =>
      }
    }
    if !HasFunctionComponent(e) {
      PassiveComponentsChangeNothing(e, behaviour, |e.components|);
    }
  }

  // ---------------------------------------------------------------- selection

  /** The elements of `s` that satisfy `keep`, in their original order. */
  function Select<T>(s: seq<T>, keep: T -> bool): (r: seq<T>)
    ensures |r| <= |s|
    ensures forall i :: 0 <= i < |r| ==> r[i] in s && keep(r[i])
    ensures forall i :: 0 <= i < |s| && keep(s[i]) ==> s[i] in r
  {
    if |s| == 0 then []
    else (if keep(s[0]) then [s[0]] else []) + Select(s[1..], keep)
  }

  /** `r` lists the elements of `s` at the increasing positions `pos`, and
      those positions are exactly the ones whose element passes `keep`. */
  ghost predicate SelectedAt<T>(r: seq<T>, s: seq<T>, keep: T -> bool, pos: seq<nat>) {
    |pos| == |r| &&
    (forall i :: 0 <= i < |pos| ==> pos[i] < |s| && r[i] == s[pos[i]]) &&
    (forall i, j :: 0 <= i < j < |pos| ==> pos[i] < pos[j]) &&
    (forall k :: 0 <= k < |s| ==> (keep(s[k]) <==> k in pos))
  }

  /** `r` is the ordered subsequence of the elements of `s` that pass `keep`:
      each passing element once, in the order of `s`. */
  ghost predicate IsOrderedSelection<T>(r: seq<T>, s: seq<T>, keep: T -> bool) {
    exists pos :: SelectedAt(r, s, keep, pos)
  }

  /** Select returns exactly the passing elements, once each, in order. */
  lemma SelectIsOrderedSelection<T>(s: seq<T>, keep: T -> bool)
    ensures IsOrderedSelection(Select(s, keep), s, keep)
  {
    var pos := SelectPositions(s, keep);
  }

  /** The positions Select takes its elements from. */
  lemma {:induction false} SelectPositions<T>(s: seq<T>, keep: T -> bool) returns (pos: seq<nat>)
    ensures SelectedAt(Select(s, keep), s, keep, pos)
    decreases |s|
  {
    if |s| == 0 {
      pos := [];
    } else {
      var tailPos := SelectPositions(s[1..], keep);
      assert s == [s[0]] + s[1..];
      pos := ConsPositions(s[0], s[1..], keep, Select(s[1..], keep), tailPos);
    }
  }

  /** Putting one element in front shifts every position by one and adds
      position 0 when that element passes. */
  lemma ConsPositions<T>(x: T, tail: seq<T>, keep: T -> bool, rest: seq<T>, tailPos: seq<nat>) returns (pos: seq<nat>)
    requires SelectedAt(rest, tail, keep, tailPos)
    ensures SelectedAt((if keep(x) then [x] else []) + rest, [x] + tail, keep, pos)
  {
    pos := ConsPos(x, keep, tailPos);
    ConsPosPicks(x, tail, keep, rest, tailPos);
    ConsPosIncreasing(x, keep, tailPos);
    ConsPosExact(x, tail, keep, rest, tailPos);
  }

  ghost function ConsPos<T>(x: T, keep: T -> bool, tailPos: seq<nat>): seq<nat> {
    (if keep(x) then [0] else []) + seq(|tailPos|, i requires 0 <= i < |tailPos| => tailPos[i] + 1)
  }

  lemma ConsPosPicks<T>(x: T, tail: seq<T>, keep: T -> bool, rest: seq<T>, tailPos: seq<nat>)
    requires SelectedAt(rest, tail, keep, tailPos)
    ensures var pos, r, s := ConsPos(x, keep, tailPos), (if keep(x) then [x] else []) + rest, [x] + tail;
            |pos| == |r| && forall i :: 0 <= i < |pos| ==> pos[i] < |s| && r[i] == s[pos[i]]
  {
    var pos, r, s := ConsPos(x, keep, tailPos), (if keep(x) then [x] else []) + rest, [x] + tail;
    var d := if keep(x) then 1 else 0;
    forall i | 0 <= i < |pos|
      ensures pos[i] < |s| && r[i] == s[pos[i]]
    {
      if i >= d {
        assert pos[i] == tailPos[i - d] + 1 && r[i] == rest[i - d];
      }
    }
  }

  lemma ConsPosIncreasing<T>(x: T, keep: T -> bool, tailPos: seq<nat>)
    requires forall i, j :: 0 <= i < j < |tailPos| ==> tailPos[i] < tailPos[j]
    ensures var pos := ConsPos(x, keep, tailPos); forall i, j :: 0 <= i < j < |pos| ==> pos[i] < pos[j]
  {
    var pos := ConsPos(x, keep, tailPos);
    var d := if keep(x) then 1 else 0;
    forall i, j | 0 <= i < j < |pos|
      ensures pos[i] < pos[j]
    {
      if i >= d {
        assert pos[i] == tailPos[i - d] + 1 && pos[j] == tailPos[j - d] + 1;
      }
    }
  }

  lemma ConsPosExact<T>(x: T, tail: seq<T>, keep: T -> bool, rest: seq<T>, tailPos: seq<nat>)
    requires SelectedAt(rest, tail, keep, tailPos)
    ensures var pos, s := ConsPos(x, keep, tailPos), [x] + tail;
            forall k :: 0 <= k < |s| ==> (keep(s[k]) <==> k in pos)
  {
    var pos, s := ConsPos(x, keep, tailPos), [x] + tail;
    var d := if keep(x) then 1 else 0;
    forall k | 0 <= k < |s|
      ensures keep(s[k]) <==> k in pos
    {
      if k > 0 {
        assert s[k] == tail[k - 1];
        if k - 1 in tailPos {
          var i :| 0 <= i < |tailPos| && tailPos[i] == k - 1;
          assert pos[i + d] == k;
        }
        if k in pos {
          var i :| 0 <= i < |pos| && pos[i] == k;
          assert i >= d && tailPos[i - d] == k - 1;
        }
      }
    }
  }

  /** Selection distributes over concatenation, so it keeps relative order. */
  lemma {:induction false} SelectAppend<T>(a: seq<T>, b: seq<T>, keep: T -> bool)
    ensures Select(a + b, keep) == Select(a, keep) + Select(b, keep)
    decreases |a|
  {
    if |a| > 0 {
      assert (a + b)[0] == a[0] && (a + b)[1..] == a[1..] + b;
      SelectAppend(a[1..], b, keep);
    } else {
      assert a + b == b;
    }
  }

  /** An element that passes lands, in the selection, after exactly the
      passing elements before it. */
  lemma SelectedPosition<T>(s: seq<T>, keep: T -> bool, k: nat)
    requires k < |s| && keep(s[k])
    ensures |Select(s[..k], keep)| < |Select(s, keep)|
    ensures Select(s, keep)[|Select(s[..k], keep)|] == s[k]
  {
    var rest := s[k..];
    assert s == s[..k] + rest;
    SelectAppend(s[..k], rest, keep);
    assert rest[0] == s[k];
    assert Select(rest, keep) == [s[k]] + Select(rest[1..], keep);
  }

  /** Selecting first by one test never adds elements that pass another. */
  lemma {:induction false} SelectOfSelectIsShorter<T>(s: seq<T>, first: T -> bool, keep: T -> bool)
    ensures |Select(Select(s, first), keep)| <= |Select(s, keep)|
    decreases |s|
  {
    if |s| > 0 {
      SelectOfSelectIsShorter(s[1..], first, keep);
      SelectAppend(if first(s[0]) then [s[0]] else [], Select(s[1..], first), keep);
    }
  }

  /** Selecting twice with the same test changes nothing. */
  lemma {:induction false} SelectIdempotent<T>(s: seq<T>, keep: T -> bool)
    ensures Select(Select(s, keep), keep) == Select(s, keep)
    decreases |s|
  {
    if |s| > 0 {
      SelectIdempotent(s[1..], keep);
      if keep(s[0]) {
        var r := [s[0]] + Select(s[1..], keep);
        assert r[0] == s[0] && r[1..] == Select(s[1..], keep);
      } else {
        assert Select(s, keep) == Select(s[1..], keep);
      }
    }
  }

  /** Selecting everything returns the sequence. */
  lemma {:induction false} SelectAll<T>(s: seq<T>, keep: T -> bool)
    requires forall i :: 0 <= i < |s| ==> keep(s[i])
    ensures Select(s, keep) == s
    decreases |s|
  {
    if |s| > 0 {
      SelectAll(s[1..], keep);
    }
  }

  /** Selecting nothing returns the empty sequence. */
  lemma {:induction false} SelectNone<T>(s: seq<T>, keep: T -> bool)
    requires forall i :: 0 <= i < |s| ==> !keep(s[i])
    ensures Select(s, keep) == []
    decreases |s|
  {
    if |s| > 0 {
      SelectNone(s[1..], keep);
    }
  }

  /** When exactly the first n elements pass, selection returns them. */
  lemma {:induction false} SelectPrefix<T>(s: seq<T>, keep: T -> bool, n: nat)
    requires n <= |s|
    requires forall i :: 0 <= i < |s| ==> (keep(s[i]) <==> i < n)
    ensures Select(s, keep) == s[..n]
    decreases |s|
  {
    if n == 0 {
      SelectNone(s, keep);
    } else {
      var tail := s[1..];
      assert forall i :: 0 <= i < |tail| ==> tail[i] == s[i + 1];
      SelectPrefix(tail, keep, n - 1);
      assert s[..n] == [s[0]] + tail[..n - 1];
    }
  }

  /** When exactly the elements of one contiguous range pass, selection
      returns that range. */
  lemma {:induction false} SelectRange<T>(s: seq<T>, keep: T -> bool, lo: nat, hi: nat)
    requires lo <= hi <= |s|
    requires forall i :: 0 <= i < |s| ==> (keep(s[i]) <==> lo <= i < hi)
    ensures Select(s, keep) == s[lo..hi]
    decreases lo
  {
    if lo == 0 {
      SelectPrefix(s, keep, hi);
    } else {
      var tail := s[1..];
      assert forall i :: 0 <= i < |tail| ==> tail[i] == s[i + 1];
      SelectRange(tail, keep, lo - 1, hi - 1);
      assert !keep(s[0]) && tail[lo - 1..hi - 1] == s[lo..hi];
    }
  }
}

=== FILE: frame_loop.dfy ===
/** The applications' main loop, one iteration per frame: begin a frame; if a
    command buffer is handed out, update the frame's uniform data (when the
    application has any), record the swapchain render pass around the draw
    calls, and end the frame; otherwise skip the frame. The commands an
    iteration issues are recorded as a trace of steps, and a small automaton
    states the order the renderer's contract demands of them. */
module FrameLoop {
  import opened Wrappers
  import opened Vulkan
  import opened Ecs
  import B = Buffer
  import SC = Swapchain
  import R = Renderer
  import U = Uniform
  import Mgr = Manager

  /** A command the loop issues on the renderer or the uniform slots. */
  datatype Step =
    | FrameBegun(commandBuffer: nat)
    | UboWritten(slot: nat, flushed: B.MappedRange)
    | PassBegun(commandBuffer: nat)
    | Rendered(descriptorSet: Option<nat>)
    | PassEnded(commandBuffer: nat)
    | FrameEnded

  // ---------------------------------------------------------------- the order of commands

  /** Where the renderer is within a frame. */
  datatype Phase = Idle | Recording(commandBuffer: nat) | InPass(commandBuffer: nat) | PassClosed(commandBuffer: nat)

  /** The allowed transitions: uniform data is written after the frame begins
      and before the render pass; draws happen inside the render pass; the
      render pass is begun and ended on the frame's own command buffer; the
      frame ends only after the render pass is closed. */
  function Next(p: Phase, s: Step): Option<Phase> {
    match (p, s)
    case (Idle, FrameBegun(cb)) => Some(Recording(cb))
    case (Recording(cb), UboWritten(_, _)) => Some(Recording(cb))
    case (Recording(cb), PassBegun(cb')) => if cb == cb' then Some(InPass(cb)) else None
    case (InPass(cb), Rendered(_)) => Some(InPass(cb))
    case (InPass(cb), PassEnded(cb')) => if cb == cb' then Some(PassClosed(cb)) else None
    case (PassClosed(_), FrameEnded) => Some(Idle)
    case _ => None
  }

  /** The phase reached after a whole trace, or None if some step is out of order. */
  function Run(p: Phase, trace: seq<Step>): Option<Phase>
    decreases |trace|
  {
    if trace == [] then Some(p)
    else match Next(p, trace[0])
      case None => None
      case Some(q) => Run(q, trace[1..])
  }

  /** A trace that starts and ends between frames, every step in order. */
  predicate WellOrdered(trace: seq<Step>) {
    Run(Idle, trace) == Some(Idle)
  }

  /** Running two traces one after the other is running their concatenation. */
  lemma {:induction false} RunAppend(p: Phase, a: seq<Step>, b: seq<Step>)
    ensures Run(p, a + b) == (match Run(p, a) case None => None case Some(q) => Run(q, b))
    decreases |a|
  {
    if a == [] {
      assert a + b == b;
    } else {
      assert (a + b)[0] == a[0];
      assert (a + b)[1..] == a[1..] + b;
      match Next(p, a[0])
      case None =>
      case Some(q) => RunAppend(q, a[1..], b);
    }
  }

  /** Whole frames compose: two well-ordered traces make a well-ordered trace. */
  lemma WellOrderedAppend(a: seq<Step>, b: seq<Step>)
    requires WellOrdered(a) && WellOrdered(b)
    ensures WellOrdered(a + b)
  {
    RunAppend(Idle, a, b);
  }

  /** A well-ordered trace that is not empty opens with a frame begin and
      closes with a frame end. */
  lemma WellOrderedFrames(trace: seq<Step>)
    requires WellOrdered(trace) && trace != []
    ensures trace[0].FrameBegun? && trace[|trace| - 1] == FrameEnded
  {
    var last := |trace| - 1;
    assert trace == trace[..last] + [trace[last]];
    RunAppend(Idle, trace[..last], [trace[last]]);
    var p := Run(Idle, trace[..last]);
    assert p.Some? && Next(p.value, trace[last]) == Some(Idle);
  }

  /** The trace of one recorded frame: begin, the optional uniform write,
      the render pass around the draws, end. */
  function FrameTrace(cb: nat, write: Option<Step>, descriptorSet: Option<nat>): seq<Step> {
    [FrameBegun(cb)] + (if write.Some? then [write.value] else []) +
    [PassBegun(cb), Rendered(descriptorSet), PassEnded(cb), FrameEnded]
  }

  /** Every recorded frame is well ordered, provided the write (if any) is a
      uniform write. */
  lemma FrameTraceIsWellOrdered(cb: nat, write: Option<Step>, descriptorSet: Option<nat>)
    requires write.Some? ==> write.value.UboWritten?
    ensures WellOrdered(FrameTrace(cb, write, descriptorSet))
  {
    var pass := [PassBegun(cb), Rendered(descriptorSet), PassEnded(cb), FrameEnded];
    assert Run(PassClosed(cb), pass[3..]) == Some(Idle) by {
      assert pass[3..][1..] == [];
    }
    assert Run(InPass(cb), pass[2..]) == Some(Idle) by {
      assert pass[2..][1..] == pass[3..];
    }
    assert Run(InPass(cb), pass[1..]) == Some(Idle) by {
      assert pass[1..][1..] == pass[2..];
    }
    assert Next(Recording(cb), pass[0]) == Some(InPass(cb));
    var opening := [FrameBegun(cb)] + (if write.Some? then [write.value] else []);
    if write.Some? {
      assert opening == [FrameBegun(cb), write.value];
      assert Run(Recording(cb), [write.value]) == Some(Recording(cb)) by {
        assert [write.value][1..] == [];
      }
      assert opening[1..] == [write.value];
    } else {
      assert opening[1..] == [];
    }
    RunAppend(Idle, opening, pass);
  }

  // ---------------------------------------------------------------- one iteration

  /** What every iteration promises: the renderer ends valid and between
      frames; a skipped frame (the swapchain was stale) issues nothing and
      keeps the frame index; a recorded frame begins on the frame's own
      command buffer and advances the frame index. */
  predicate IterationDone(r: R.Renderer, next: R.Renderer, trace: seq<Step>) {
    r.Valid() &&
    next.Valid() && !next.isFrameStarted && next.commandBuffers == r.commandBuffers &&
    (trace == [] ==> next.currentFrameIndex == r.currentFrameIndex) &&
    (trace != [] ==> trace[0] == FrameBegun(r.commandBuffers[r.currentFrameIndex]) &&
                     next.currentFrameIndex == SC.NextSlot(r.currentFrameIndex))
  }

  /** What a driver answer at acquire must respect: the index of an acquired
      image names one of the swapchain's images. */
  predicate AcquireFits(r: R.Renderer, acquire: R.AcquireAnswer) {
    acquire.result in {VkSuccess, VkSuboptimal} ==> acquire.imageIndex < r.swapchain.ImageCount()
  }

  /** The first half of every iteration: begin the frame. A stale swapchain
      was recreated and hands out no command buffer; otherwise the frame is
      started on the current slot's command buffer. */
  method StartFrame(r: R.Renderer, acquire: R.AcquireAnswer, env: R.Environment)
    returns (res: Outcome<(R.Renderer, Option<nat>)>)
    requires r.Valid() && !r.isFrameStarted && env.Usable() && AcquireFits(r, acquire)
    ensures res.Success? ==> res.value.0.Valid() && res.value.0.commandBuffers == r.commandBuffers
    ensures res.Success? ==> res.value.0.currentFrameIndex == r.currentFrameIndex
    ensures res.Success? ==> (res.value.1.None? <==> acquire.result == VkOutOfDate)
    ensures res.Success? && res.value.1.None? ==> !res.value.0.isFrameStarted
    ensures res.Success? && res.value.1.Some? ==>
              res.value.0.isFrameStarted && res.value.1.value == r.commandBuffers[r.currentFrameIndex]
    ensures res.Success? ==> res.value.0.swapchain.ImageCount() == r.swapchain.ImageCount() ||
                             res.value.0.swapchain.ImageCount() == |env.driver.images|
    ensures acquire.result !in {VkSuccess, VkSuboptimal, VkOutOfDate} ==> res == Failure(AcquireFailed)
  {
    res := R.BeginFrame(r, acquire, env);
  }

  /** The renderer's end of a frame, as the loop relies on it: the frame is
      over, its slot advances and the command buffers stay. */
  method EndFrameStep(begun: R.Renderer, submit: R.SubmitAnswer, env: R.Environment)
    returns (res: Outcome<R.Renderer>)
    requires begun.Valid() && begun.isFrameStarted && env.Usable()
    ensures res.Success? ==> res.value.Valid() && !res.value.isFrameStarted
    ensures res.Success? ==> res.value.commandBuffers == begun.commandBuffers
    ensures res.Success? ==> res.value.currentFrameIndex == SC.NextSlot(begun.currentFrameIndex)
    ensures res.Success? ==> res.value.swapchain.ImageCount() == begun.swapchain.ImageCount() ||
                             res.value.swapchain.ImageCount() == |env.driver.images|
    ensures res == R.EndFrame(begun, submit, env)
  {
    res := R.EndFrame(begun, submit, env);
  }

  /** The second half of a recorded frame: the render pass on the frame's
      command buffer around the draws, then the end of the frame. */
  method FinishFrame(begun: R.Renderer, cb: nat, write: Option<Step>, descriptorSet: Option<nat>,
                     submit: R.SubmitAnswer, env: R.Environment)
    returns (res: Outcome<(R.Renderer, seq<Step>)>)
    requires begun.Valid() && begun.isFrameStarted && env.Usable()
    requires cb == begun.GetCurrentCommandBuffer()
    requires write.Some? ==> write.value.UboWritten?
    ensures res.Success? ==> res.value.1 == FrameTrace(cb, write, descriptorSet)
    ensures res.Success? ==> res.value.0.Valid() && !res.value.0.isFrameStarted
    ensures res.Success? ==> res.value.0.commandBuffers == begun.commandBuffers
    ensures res.Success? ==> res.value.0.currentFrameIndex == SC.NextSlot(begun.currentFrameIndex)
    ensures res.Success? ==> res.value.0.swapchain.ImageCount() == begun.swapchain.ImageCount() ||
                             res.value.0.swapchain.ImageCount() == |env.driver.images|
    ensures res.Failure? <==> R.EndFrame(begun, submit, env).Failure?
  {
    var _ := R.BeginSwapChainRenderPass(begun, cb);
    var ended := R.EndSwapChainRenderPass(begun, cb);
    var finished := EndFrameStep(begun, submit, env);
    if finished.Failure? {
      return Failure(finished.error);
    }
    res := Success((finished.value, FrameTrace(cb, write, descriptorSet)));
  }

  /** An iteration of the applications without uniform data: begin, record
      the pass around the draws, end. */
  method PlainIteration(r: R.Renderer, acquire: R.AcquireAnswer, submit: R.SubmitAnswer, env: R.Environment)
    returns (res: Outcome<(R.Renderer, seq<Step>)>)
    requires r.Valid() && !r.isFrameStarted && env.Usable() && AcquireFits(r, acquire)
    ensures res.Success? ==> IterationDone(r, res.value.0, res.value.1)
    ensures res.Success? ==> (res.value.1 == [] <==> acquire.result == VkOutOfDate)
    ensures res.Success? && res.value.1 != [] ==>
              res.value.1 == FrameTrace(r.commandBuffers[r.currentFrameIndex], None, None)
    ensures res.Success? ==> res.value.0.swapchain.ImageCount() == r.swapchain.ImageCount() ||
                             res.value.0.swapchain.ImageCount() == |env.driver.images|
    ensures acquire.result !in {VkSuccess, VkSuboptimal, VkOutOfDate} ==> res == Failure(AcquireFailed)
  {
    var begun := StartFrame(r, acquire, env);
    if begun.Failure? {
      return Failure(begun.error);
    }
    var (started, cb) := begun.value;
    if cb.None? {
      return Success((started, []));
    }
    res := FinishFrame(started, cb.value, None, None, submit, env);
  }

  /** Both slots' buffers are mapped from their start, as the applications map them. */
  predicate SlotsMapped(s: U.Slots) {
    |s.buffers| == SC.MAX_FRAMES_IN_FLIGHT &&
    forall i :: 0 <= i < SC.MAX_FRAMES_IN_FLIGHT ==> s.buffers[i].mappedAt == Some(0)
  }

  /** Writing the UBO into one slot keeps both slots mapped. */
  lemma WriteKeepsSlotsMapped(s: U.Slots, frameIndex: nat, ubo: seq<B.Byte>, flushResult: VkResult)
    requires U.SlotsFit(s, |ubo|) && SlotsMapped(s) && frameIndex < SC.MAX_FRAMES_IN_FLIGHT
    ensures SlotsMapped(U.WriteFrameUbo(s, frameIndex, ubo, flushResult).0)
  {
    var written := U.WriteFrameUbo(s, frameIndex, ubo, flushResult).0;
    forall i | 0 <= i < SC.MAX_FRAMES_IN_FLIGHT
      ensures written.buffers[i].mappedAt == Some(0)
    {
      if i == frameIndex {
        assert written.buffers[i] == s.buffers[i].(memory := written.buffers[i].memory);
      }
    }
  }

  /** An iteration of the applications with a global uniform buffer: after
      the frame begins, the frame's UBO is written into the slot of the
      current frame index and flushed; the draws use that slot's set. */
  method UniformIteration(r: R.Renderer, slots: U.Slots, ubo: seq<B.Byte>, flushResult: VkResult,
                          acquire: R.AcquireAnswer, submit: R.SubmitAnswer, env: R.Environment)
    returns (res: Outcome<(R.Renderer, seq<Step>)>, written: U.Slots)
    requires r.Valid() && !r.isFrameStarted && env.Usable() && AcquireFits(r, acquire)
    requires U.SlotsFit(slots, |ubo|) && SlotsMapped(slots)
    ensures res.Success? ==> IterationDone(r, res.value.0, res.value.1)
    ensures U.SlotsFit(written, |ubo|) && SlotsMapped(written) && written.sets == slots.sets
    ensures res.Success? ==> (res.value.1 == [] <==> acquire.result == VkOutOfDate)
    ensures res.Success? && res.value.1 == [] ==> written == slots
    ensures res.Success? && res.value.1 != [] ==>
              res.value.1 == FrameTrace(r.commandBuffers[r.currentFrameIndex],
                                        Some(UboWritten(r.currentFrameIndex, B.MappedRange(0, B.WholeSize))),
                                        slots.sets[r.currentFrameIndex])
    ensures res.Success? && res.value.1 != [] ==> written.buffers[r.currentFrameIndex].memory[..|ubo|] == ubo
    ensures forall i :: 0 <= i < SC.MAX_FRAMES_IN_FLIGHT && i != r.currentFrameIndex ==>
              written.buffers[i] == slots.buffers[i]
    ensures acquire.result !in {VkSuccess, VkSuboptimal, VkOutOfDate} ==> res == Failure(AcquireFailed)
  {
    written := slots;
    var begun := StartFrame(r, acquire, env);
    if begun.Failure? {
      return Failure(begun.error), written;
    }
    var (started, cb) := begun.value;
    if cb.None? {
      return Success((started, [])), written;
    }
    var slot := started.GetFrameIndex();
    WriteKeepsSlotsMapped(slots, slot, ubo, flushResult);
    var out := U.WriteFrameUbo(slots, slot, ubo, flushResult);
    var flushed := out.1;
    written := out.0;
    res := FinishFrame(started, cb.value, Some(UboWritten(slot, flushed)), written.sets[slot], submit, env);
  }

  /** The draw calls name exactly the entities that carry a model. */
  predicate DrawsExactly(drawn: seq<Entity>, entities: seq<Entity>, reg: Registry) {
    (forall i :: 0 <= i < |drawn| ==> drawn[i] in entities && Mgr.HasModel(reg, drawn[i])) &&
    (forall i :: 0 <= i < |entities| && Mgr.HasModel(reg, entities[i]) ==> entities[i] in drawn)
  }

  /** What the manager application keeps between iterations: a valid
      manager with both slots mapped, a camera and a viewer, and no more
      lights than the UBO has room for. */
  predicate ManagerReady(m: Mgr.Manager, reg: Registry) {
    Mgr.Valid(m, reg) && SlotsMapped(m.slots) && m.camera.Some? && m.viewer.Some? && m.viewer.value < |m.entities| &&
    |Mgr.LightEntities(m.entities, reg)| <= Mgr.MAX_LIGHTS
  }

  /** A refresh that keeps the viewer alive leaves the manager ready for the
      next frame: the viewer still names its entity and no lights are added. */
  lemma RefreshKeepsReady(m: Mgr.Manager, reg: Registry)
    requires ManagerReady(m, reg) && m.entities[m.viewer.value].alive
    ensures ManagerReady(Mgr.Refresh(m, reg), reg)
    ensures Mgr.Refresh(m, reg).entities[Mgr.Refresh(m, reg).viewer.value] == m.entities[m.viewer.value]
  {
    SelectOfSelectIsShorter(m.entities, Mgr.IsAlive(), Mgr.IsLight(reg));
  }

  /** The entities after one update: the same entities, the viewer first
      moved by the keyboard controller to `pose`, then each moved by its own
      function components. */
  predicate UpdatedEntities(before: seq<Entity>, after: seq<Entity>, viewer: nat, pose: Mgr.ViewerPose,
                            behaviour: Behaviour)
    requires viewer < |before|
  {
    var moved := Mgr.MovedScene(before, viewer, pose);
    |after| == |before| &&
    forall i :: 0 <= i < |before| ==> after[i] == UpdatedThrough(moved[i], behaviour, |moved[i].components|)
  }

  /** The manager's share of a recorded frame: the update (which writes the
      UBO of slot `slot`) and the draw calls of the render pass. */
  method UpdateAndRender(m: Mgr.Manager, reg: Registry, slot: nat, pose: Mgr.ViewerPose, behaviour: Behaviour,
                         frameCamera: Mgr.Camera, encode: Mgr.UboEncoding, flushResult: VkResult)
    returns (next: Mgr.Manager, flushed: B.MappedRange, call: Mgr.RenderCall)
    requires ManagerReady(m, reg) && slot < SC.MAX_FRAMES_IN_FLIGHT && Mgr.EncodesUbo(encode)
    ensures ManagerReady(next, reg) && next.viewer == m.viewer
    ensures flushed == B.MappedRange(0, B.WholeSize) && call.descriptorSet == m.slots.sets[slot]
    ensures UpdatedEntities(m.entities, next.entities, m.viewer.value, pose, behaviour)
    ensures DrawsExactly(call.drawn, next.entities, reg)
  {
    var ubo;
    next, ubo, flushed := Mgr.Update(m, reg, slot, pose, behaviour, frameCamera, encode, flushResult);
    call := Mgr.Render(next, reg, slot);
  }

  /** A recorded frame of the entity-manager application, once the frame has
      begun on command buffer `cb`. */
  method ManagerFrame(begun: R.Renderer, cb: nat, m: Mgr.Manager, reg: Registry, pose: Mgr.ViewerPose,
                      behaviour: Behaviour,
                      frameCamera: Mgr.Camera, encode: Mgr.UboEncoding, flushResult: VkResult,
                      submit: R.SubmitAnswer, env: R.Environment)
    returns (res: Outcome<(R.Renderer, seq<Step>)>, next: Mgr.Manager, drawn: seq<Entity>)
    requires begun.Valid() && begun.isFrameStarted && env.Usable() && cb == begun.GetCurrentCommandBuffer()
    requires ManagerReady(m, reg) && Mgr.EncodesUbo(encode)
    ensures ManagerReady(next, reg) && next.viewer == m.viewer
    ensures UpdatedEntities(m.entities, next.entities, m.viewer.value, pose, behaviour)
    ensures DrawsExactly(drawn, next.entities, reg)
    ensures res.Success? ==>
              res.value.1 == FrameTrace(cb, Some(UboWritten(begun.currentFrameIndex, B.MappedRange(0, B.WholeSize))),
                                        m.slots.sets[begun.currentFrameIndex])
    ensures res.Success? ==> res.value.0.Valid() && !res.value.0.isFrameStarted
    ensures res.Success? ==> res.value.0.commandBuffers == begun.commandBuffers
    ensures res.Success? ==> res.value.0.currentFrameIndex == SC.NextSlot(begun.currentFrameIndex)
  {
    var slot := begun.GetFrameIndex();
    var flushed, call;
    next, flushed, call := UpdateAndRender(m, reg, slot, pose, behaviour, frameCamera, encode, flushResult);
    drawn := call.drawn;
    res := FinishFrame(begun, cb, Some(UboWritten(slot, flushed)), call.descriptorSet, submit, env);
  }

  /** An iteration of the entity-manager application: after the frame
      begins, the manager updates every entity and writes the frame's UBO;
      the render pass then draws the entities with a model. */
  method ManagerIteration(r: R.Renderer, m: Mgr.Manager, reg: Registry, pose: Mgr.ViewerPose, behaviour: Behaviour,
                          frameCamera: Mgr.Camera, encode: Mgr.UboEncoding, flushResult: VkResult,
                          acquire: R.AcquireAnswer, submit: R.SubmitAnswer, env: R.Environment)
    returns (res: Outcome<(R.Renderer, seq<Step>)>, next: Mgr.Manager, drawn: seq<Entity>)
    requires r.Valid() && !r.isFrameStarted && env.Usable() && AcquireFits(r, acquire)
    requires ManagerReady(m, reg) && Mgr.EncodesUbo(encode)
    ensures res.Success? ==> IterationDone(r, res.value.0, res.value.1)
    ensures res.Success? ==> (res.value.1 == [] <==> acquire.result == VkOutOfDate)
    ensures ManagerReady(next, reg) && next.viewer == m.viewer
    ensures res.Success? && res.value.1 == [] ==> next == m && drawn == []
    ensures res.Success? && res.value.1 != [] ==>
              res.value.1 == FrameTrace(r.commandBuffers[r.currentFrameIndex],
                                        Some(UboWritten(r.currentFrameIndex, B.MappedRange(0, B.WholeSize))),
                                        m.slots.sets[r.currentFrameIndex])
    ensures res.Success? && res.value.1 != [] ==> UpdatedEntities(m.entities, next.entities, m.viewer.value, pose, behaviour)
    ensures res.Success? && res.value.1 != [] ==> DrawsExactly(drawn, next.entities, reg)
    ensures acquire.result !in {VkSuccess, VkSuboptimal, VkOutOfDate} ==> res == Failure(AcquireFailed)
  {
    next, drawn := m, [];
    var begun := StartFrame(r, acquire, env);
    if begun.Failure? {
      return Failure(begun.error), next, drawn;
    }
    var (started, cb) := begun.value;
    if cb.None? {
      return Success((started, [])), next, drawn;
    }
    res, next, drawn := ManagerFrame(started, cb.value, m, reg, pose, behaviour, frameCamera, encode, flushResult, submit, env);
  }

  // ---------------------------------------------------------------- the loop

  /** The driver's answers for one iteration. */
  datatype FrameAnswers = FrameAnswers(acquire: R.AcquireAnswer, submit: R.SubmitAnswer)

  /** Runs the plain loop over a sequence of frames, each answered by the
      driver as given, and stops at the first throw. Every image index the
      driver hands out names an image of the first swapchain and of every
      recreated one. */
  method RunPlainLoop(r: R.Renderer, frames: seq<FrameAnswers>, env: R.Environment)
    returns (res: Outcome<(R.Renderer, seq<Step>)>, completed: nat)
    requires r.Valid() && !r.isFrameStarted && env.Usable()
    requires forall i :: 0 <= i < |frames| ==>
               frames[i].acquire.imageIndex < r.swapchain.ImageCount() &&
               frames[i].acquire.imageIndex < |env.driver.images|
    ensures completed <= |frames|
    ensures res.Success? ==> completed == |frames|
    ensures res.Success? ==> res.value.0.Valid() && !res.value.0.isFrameStarted &&
                             res.value.0.commandBuffers == r.commandBuffers
    ensures res.Success? ==> WellOrdered(res.value.1)
    ensures res.Failure? ==> completed < |frames|
  {
    var current := r;
    var trace: seq<Step> := [];
    completed := 0;
    while completed < |frames|
      invariant completed <= |frames|
      invariant current.Valid() && !current.isFrameStarted && current.commandBuffers == r.commandBuffers
      invariant current.swapchain.ImageCount() == r.swapchain.ImageCount() ||
                current.swapchain.ImageCount() == |env.driver.images|
      invariant WellOrdered(trace)
    {
      var answers := frames[completed];
      var step := PlainIteration(current, answers.acquire, answers.submit, env);
      if step.Failure? {
        return Failure(step.error), completed;
      }
      if step.value.1 != [] {
        FrameTraceIsWellOrdered(current.commandBuffers[current.currentFrameIndex], None, None);
      }
      WellOrderedAppend(trace, step.value.1);
      trace := trace + step.value.1;
      current := step.value.0;
      completed := completed + 1;
    }
    res := Success((current, trace));
  }
}

=== FILE: manager.dfy ===
/** The entity manager of the lighting stage. It owns the entities, runs
    their updates, packs their point lights into the global uniform buffer
    object (UBO) once per frame, chooses what the render pass draws, and
    removes destroyed entities. */
module Manager {
  import opened Wrappers
  import opened Vulkan
  import opened Ecs
  import B = Buffer
  import D = Descriptor
  import SC = Swapchain
  import U = Uniform

  /** Capacity of the UBO's light array. */
  const MAX_LIGHTS: nat := 20

  /** A 4x4 matrix; `Identity` is the value the UBO's matrices start from. */
  datatype Mat4 = Identity | Matrix(entries: seq<real>)

  /** A light as the shaders read it: the position with the radius in w,
      the colour with the intensity in w. */
  datatype PointLight = PointLight(position: Vec4, color: Vec4)

  datatype GlobalUbo = GlobalUbo(
    projection: Mat4,
    view: Mat4,
    inverseView: Mat4,
    ambientLightColor: Vec4,
    pointLights: seq<PointLight>,
    activeLights: nat)

  /** A light slot nothing has written; shaders read only the first `activeLights`. */
  const UNSET_LIGHT: PointLight := PointLight(Vec4(0.0, 0.0, 0.0, 0.0), Vec4(0.0, 0.0, 0.0, 0.0))

  /** The ambient light the UBO starts with: white at 2% intensity. */
  const AMBIENT_LIGHT: Vec4 := Vec4(1.0, 1.0, 1.0, 0.02)

  /** A value-initialised GlobalUbo. */
  const DEFAULT_UBO: GlobalUbo :=
    GlobalUbo(Identity, Identity, Identity, AMBIENT_LIGHT, seq(MAX_LIGHTS, _ => UNSET_LIGHT), 0)

  /** The matrices and the ambient light are as value-initialised. */
  predicate DefaultFrame(ubo: GlobalUbo) {
    ubo.projection == Identity && ubo.view == Identity && ubo.inverseView == Identity &&
    ubo.ambientLightColor == AMBIENT_LIGHT
  }

  /** sizeof(GlobalUbo) on the host: three 64-byte matrices, a 16-byte
      vector, MAX_LIGHTS lights of two 16-byte vectors and a 4-byte int,
      with 4-byte alignment throughout. */
  const GLOBAL_UBO_SIZE: nat := 3 * 64 + 16 + MAX_LIGHTS * 32 + 4

  /** The host bytes of a UBO; the float encoding itself is not modelled. */
  type UboEncoding = GlobalUbo -> seq<B.Byte>

  ghost predicate EncodesUbo(encode: UboEncoding) {
    forall u :: |encode(u)| == GLOBAL_UBO_SIZE
  }

  /** The camera's matrices as recomputed for the frame. */
  datatype Camera = Camera(projection: Mat4, view: Mat4, inverseView: Mat4)

  // ---------------------------------------------------------------- what the manager looks at

  /** The two component types the manager queries have IDs that fit. */
  predicate Ready(r: Registry) {
    r.Valid() && Indexable(r, ModelComponentType) && Indexable(r, PointlightComponentType)
  }

  predicate HasLight(r: Registry, e: Entity) {
    Indexable(r, PointlightComponentType) && HasComponent(e, r, PointlightComponentType)
  }

  predicate HasModel(r: Registry, e: Entity) {
    Indexable(r, ModelComponentType) && HasComponent(e, r, ModelComponentType)
  }

  function IsLight(r: Registry): Entity -> bool {
    e => HasLight(r, e)
  }

  function IsModel(r: Registry): Entity -> bool {
    e => HasModel(r, e)
  }

  function IsAlive(): Entity -> bool {
    (e: Entity) => e.alive
  }

  /** The entities carrying a point light, in entity order. */
  function LightEntities(es: seq<Entity>, r: Registry): seq<Entity> {
    Select(es, IsLight(r))
  }

  /** The light an entity contributes: its translation with the light's
      radius, and the light's colour and intensity. The component is found
      through the entity's lookup slot, as getComponent does. */
  function LightOf(e: Entity, r: Registry): PointLight {
    if Indexable(r, PointlightComponentType) && r.ids[PointlightComponentType] in e.slots &&
       e.slots[r.ids[PointlightComponentType]] < |e.components|
    then
      match e.components[e.slots[r.ids[PointlightComponentType]]].data
      case LightData(l) =>
        var t := e.transform.translation;
        PointLight(Vec4(t.x, t.y, t.z, GetRadius(l)), GetColorIntensity(l))
      case _ => UNSET_LIGHT
    else UNSET_LIGHT
  }

  /** For a well-formed entity with a light, the packed entry is built from
      the component getComponent returns. */
  lemma LightOfReadsTheComponent(e: Entity, r: Registry)
    requires Ready(r) && WellFormed(e, r) && HasLight(r, e)
    ensures GetComponent(e, r, PointlightComponentType).data.LightData?
    ensures var l := GetComponent(e, r, PointlightComponentType).data.light;
            var t := e.transform.translation;
            LightOf(e, r) == PointLight(Vec4(t.x, t.y, t.z, GetRadius(l)), GetColorIntensity(l))
  {
  }

  /** Whether an entity is a light depends on its components only. */
  lemma {:induction false} LightCountIgnoresTransforms(a: seq<Entity>, b: seq<Entity>, r: Registry)
    requires |a| == |b|
    requires forall i :: 0 <= i < |a| ==> a[i].bits == b[i].bits
    ensures |LightEntities(a, r)| == |LightEntities(b, r)|
    decreases |a|
  {
    if |a| > 0 {
      LightCountIgnoresTransforms(a[1..], b[1..], r);
    }
  }

  // ---------------------------------------------------------------- light packing

  /** Fills the UBO's light array from the entities in order; the k-th light
      entity fills slot k. The check before each write compares the slot about
      to be written with the array's capacity (see LightCheckAsWritten for
      the check the source makes). */
  method PackLights(es: seq<Entity>, r: Registry) returns (ubo: GlobalUbo)
    requires |LightEntities(es, r)| <= MAX_LIGHTS
    ensures DefaultFrame(ubo)
    ensures ubo.activeLights == |LightEntities(es, r)| && |ubo.pointLights| == MAX_LIGHTS
    ensures forall k :: 0 <= k < ubo.activeLights ==> ubo.pointLights[k] == LightOf(LightEntities(es, r)[k], r)
    ensures forall k :: ubo.activeLights <= k < MAX_LIGHTS ==> ubo.pointLights[k] == UNSET_LIGHT
  {
    ubo := DEFAULT_UBO;
    for i := 0 to |es|
      invariant i <= |es| && Packed(es[..i], r, ubo)
    {
      PackStep(es, r, i, ubo);
      if HasLight(r, es[i]) {
        assert LightCheck(ubo.activeLights);
        ubo := ubo.(pointLights := ubo.pointLights[ubo.activeLights := LightOf(es[i], r)],
                    activeLights := ubo.activeLights + 1);
      }
    }
    assert es[..|es|] == es;
  }

  /** `ubo` holds exactly the lights of `es`, in order, and is otherwise default. */
  predicate Packed(es: seq<Entity>, r: Registry, ubo: GlobalUbo) {
    DefaultFrame(ubo) &&
    |ubo.pointLights| == MAX_LIGHTS &&
    ubo.activeLights == |LightEntities(es, r)| <= MAX_LIGHTS &&
    (forall k :: 0 <= k < ubo.activeLights ==> ubo.pointLights[k] == LightOf(LightEntities(es, r)[k], r)) &&
    (forall k :: ubo.activeLights <= k < MAX_LIGHTS ==> ubo.pointLights[k] == UNSET_LIGHT)
  }

  /** Extending the entities by one extends their lights by that entity
      if it has a light, and the prefix never has more lights than the whole. */
  lemma LightEntitiesStep(es: seq<Entity>, r: Registry, i: nat)
    requires i < |es|
    ensures LightEntities(es[..i + 1], r) == LightEntities(es[..i], r) + (if HasLight(r, es[i]) then [es[i]] else [])
    ensures |LightEntities(es[..i + 1], r)| <= |LightEntities(es, r)|
  {
    assert es[..i + 1] == es[..i] + [es[i]];
    SelectAppend(es[..i], [es[i]], IsLight(r));
    SelectOne(es[i], IsLight(r));
    LightPrefixBound(es, r, i + 1);
  }

  lemma SelectOne<T>(x: T, keep: T -> bool)
    ensures Select([x], keep) == if keep(x) then [x] else []
  {
    assert [x][1..] == [];
  }

  /** A prefix has no more lights than the whole sequence. */
  lemma LightPrefixBound(es: seq<Entity>, r: Registry, n: nat)
    requires n <= |es|
    ensures |LightEntities(es[..n], r)| <= |LightEntities(es, r)|
  {
    assert es == es[..n] + es[n..];
    SelectAppend(es[..n], es[n..], IsLight(r));
  }

  /** One step of PackLights keeps Packed, and the slot written is in range. */
  lemma PackStep(es: seq<Entity>, r: Registry, i: nat, ubo: GlobalUbo)
    requires i < |es| && Packed(es[..i], r, ubo) && |LightEntities(es, r)| <= MAX_LIGHTS
    ensures HasLight(r, es[i]) ==> ubo.activeLights < MAX_LIGHTS
    ensures HasLight(r, es[i]) ==>
              Packed(es[..i + 1], r, ubo.(pointLights := ubo.pointLights[ubo.activeLights := LightOf(es[i], r)],
                                          activeLights := ubo.activeLights + 1))
    ensures !HasLight(r, es[i]) ==> Packed(es[..i + 1], r, ubo)
  {
    LightEntitiesStep(es, r, i);
    var before := LightEntities(es[..i], r);
    var after := LightEntities(es[..i + 1], r);
    if HasLight(r, es[i]) {
      var next := ubo.(pointLights := ubo.pointLights[ubo.activeLights := LightOf(es[i], r)],
                       activeLights := ubo.activeLights + 1);
      assert after == before + [es[i]];
      forall k | 0 <= k < next.activeLights
        ensures next.pointLights[k] == LightOf(after[k], r)
      {
        if k < ubo.activeLights {
          assert after[k] == before[k];
        }
      }
    } else {
      assert after == before;
    }
  }

  /** The check that keeps a light write inside the array: the slot exists. */
  predicate LightCheck(slot: nat) {
    slot < MAX_LIGHTS
  }

  /** The running check passes for every light of an update exactly when the
      lights fit. */
  lemma RunningLightCheckIsExact(lightCount: nat)
    ensures (forall slot :: 0 <= slot < lightCount ==> LightCheck(slot)) <==> lightCount <= MAX_LIGHTS
  {
    if lightCount > MAX_LIGHTS {
      assert !LightCheck(MAX_LIGHTS);
    }
  }

  /** The check the source makes before each light write: it compares the
      count the PREVIOUS update stored, not the slot about to be written. */
  predicate LightCheckAsWritten(previousActive: nat, slot: nat) {
    previousActive != MAX_LIGHTS
  }

  predicate AsWrittenChecksPass(previousActive: nat, lightCount: nat) {
    forall slot :: 0 <= slot < lightCount ==> LightCheckAsWritten(previousActive, slot)
  }

  /** The as-written check misjudges in both directions: 21 lights after a
      frame without lights pass every check while the 21st write lands on
      slot 20, past the array; exactly 20 lights, which fit, fail the first
      check of the frame after they were packed. */
  lemma AsWrittenLightCheckMisjudges()
    ensures AsWrittenChecksPass(0, MAX_LIGHTS + 1) && !LightCheck(MAX_LIGHTS)
    ensures !AsWrittenChecksPass(MAX_LIGHTS, MAX_LIGHTS) &&
            forall slot :: 0 <= slot < MAX_LIGHTS ==> LightCheck(slot)
  {
    assert !LightCheckAsWritten(MAX_LIGHTS, 0);
  }

  // ---------------------------------------------------------------- the manager

  datatype Manager = Manager(
    entities: seq<Entity>,
    nextEntityId: nat,              // identity of the next entity allocated
    activeLights: nat,              // light count of the last update
    camera: Option<Camera>,         // unset until setCamera
    viewer: Option<nat>,            // unset until setViewerEntity
    layout: D.SetLayout,
    slots: U.Slots)

  /** Every entity is well formed under the type IDs and has its own
      identity; the per-slot buffers hold GlobalUbo instances. */
  predicate Valid(m: Manager, r: Registry) {
    Ready(r) &&
    (forall i :: 0 <= i < |m.entities| ==> WellFormed(m.entities[i], r) && m.entities[i].id < m.nextEntityId) &&
    DistinctIds(m.entities) &&
    U.SlotsFit(m.slots, GLOBAL_UBO_SIZE)
  }

  /** No two entities share an identity. */
  predicate DistinctIds(es: seq<Entity>) {
    forall i, j :: 0 <= i < j < |es| ==> es[i].id != es[j].id
  }

  /** The driver's answers while the manager is constructed. */
  datatype ManagerDriver = ManagerDriver(layoutResult: VkResult, layoutHandle: nat, slots: U.SlotDriver)

  /** Builds the global set layout (binding 0, a uniform buffer seen by the
      vertex and fragment stages), then the per-slot buffers and sets. The
      camera and the viewer stay unset. */
  method NewManager(r: Registry, pool: D.Pool, alignmentLog2: nat, driver: ManagerDriver)
    returns (res: Outcome<(Manager, seq<Option<seq<D.Write>>>)>)
    requires Ready(r) && alignmentLog2 <= U.MAX_ALIGNMENT_LOG2 && driver.slots.Complete()
    ensures res.Failure? <==> driver.layoutResult != VkSuccess
    ensures res.Success? ==>
              var (m, updates) := res.value;
              Valid(m, r) && m.entities == [] && m.activeLights == 0 && m.camera.None? && m.viewer.None? &&
              m.layout.bindings == map[0 := D.LayoutBinding(0, D.UniformBuffer, 1, {D.VERTEX_STAGE, D.FRAGMENT_STAGE})] &&
              |updates| == SC.MAX_FRAMES_IN_FLIGHT &&
              forall i :: 0 <= i < SC.MAX_FRAMES_IN_FLIGHT ==>
                m.slots.buffers[i].handle == driver.slots.bufferHandles[i] &&
                (m.slots.buffers[i].mappedAt.Some? <==> driver.slots.mapResults[i] == VkSuccess) &&
                (updates[i].Some? ==> U.BindsBuffer(updates[i].value, driver.slots.setHandles[i], m.slots.buffers[i]))
  {
    var builder := D.AddBinding(D.NewLayoutBuilder(), 0, D.UniformBuffer, {D.VERTEX_STAGE, D.FRAGMENT_STAGE},
                                D.DEFAULT_DESCRIPTOR_COUNT);
    var layout :- D.BuildLayout(builder, driver.layoutHandle, driver.layoutResult);
    assert layout.bindings == map[0 := D.LayoutBinding(0, D.UniformBuffer, 1, {D.VERTEX_STAGE, D.FRAGMENT_STAGE})];
    var slots, updates := U.CreateSlots(GLOBAL_UBO_SIZE, alignmentLog2, layout, pool, driver.slots);
    return Success((Manager([], 0, 0, None, None, layout, slots), updates));
  }

  /** Allocates a new live entity without components and appends it; the
      returned index is where the caller finds it. */
  function AddEntity(m: Manager, r: Registry): (res: (Manager, nat))
    ensures res.0.entities == m.entities + [NewEntity(m.nextEntityId)] && res.1 == |m.entities|
    ensures res.0 == m.(entities := res.0.entities, nextEntityId := res.0.nextEntityId)
    ensures Valid(m, r) ==> Valid(res.0, r)
  {
    (m.(entities := m.entities + [NewEntity(m.nextEntityId)], nextEntityId := m.nextEntityId + 1), |m.entities|)
  }

  /** A change made through the reference addEntity returned. */
  function SetEntity(m: Manager, r: Registry, i: nat, e: Entity): (next: Manager)
    requires i < |m.entities| && e.id == m.entities[i].id
    ensures next.entities == m.entities[i := e] && next == m.(entities := next.entities)
    ensures Valid(m, r) && WellFormed(e, r) ==> Valid(next, r)
  {
    m.(entities := m.entities[i := e])
  }

  function SetCamera(m: Manager, camera: Option<Camera>): (next: Manager)
    requires camera.Some?
    ensures next.camera == camera && next == m.(camera := camera)
  {
    m.(camera := camera)
  }

  function SetViewerEntity(m: Manager, viewer: Option<nat>): (next: Manager)
    requires viewer.Some?
    ensures next.viewer == viewer && next == m.(viewer := viewer)
  {
    m.(viewer := viewer)
  }

  /** Runs every entity's update, in entity order. */
  method UpdateAll(es: seq<Entity>, behaviour: Behaviour) returns (updated: seq<Entity>)
    requires forall i :: 0 <= i < |es| ==> Owned(es[i])
    ensures |updated| == |es|
    ensures forall i :: 0 <= i < |es| ==> updated[i] == UpdatedThrough(es[i], behaviour, |es[i].components|)
    ensures forall i :: 0 <= i < |es| ==> updated[i] == es[i].(transform := updated[i].transform)
  {
    updated := [];
    for i := 0 to |es|
      invariant |updated| == i
      invariant forall k :: 0 <= k < i ==>
                  updated[k] == UpdatedThrough(es[k], behaviour, |es[k].components|) &&
                  updated[k] == es[k].(transform := updated[k].transform)
    {
      var next, _ := UpdateEntity(es[i], behaviour);
      updated := updated + [next];
    }
  }

  /** What the keyboard controller leaves on the viewer: its new
      translation and rotation. The controller never touches the scale. */
  datatype ViewerPose = ViewerPose(translation: Vec3, rotation: Vec3)

  /** The viewer entity after the controller has moved it. */
  function MoveViewer(e: Entity, pose: ViewerPose): (moved: Entity)
    ensures moved.transform.translation == pose.translation && moved.transform.rotation == pose.rotation
    ensures moved.transform.scale == e.transform.scale
    ensures moved == e.(transform := moved.transform)
  {
    e.(transform := e.transform.(translation := pose.translation, rotation := pose.rotation))
  }

  /** The entities with the viewer, entity `viewer`, moved to `pose`. */
  function MovedScene(es: seq<Entity>, viewer: nat, pose: ViewerPose): (moved: seq<Entity>)
    requires viewer < |es|
    ensures |moved| == |es| && moved[viewer] == MoveViewer(es[viewer], pose)
    ensures forall i :: 0 <= i < |es| && i != viewer ==> moved[i] == es[i]
  {
    es[viewer := MoveViewer(es[viewer], pose)]
  }

  /** The per-frame update: the keyboard controller first moves the viewer
      (its result, `pose`, is an input, since the controller reads keys,
      time and floating point), and the camera is set from the moved viewer
      (the frame's matrices are an input); then every entity's update runs,
      in entity order; then the lights are packed from the UPDATED
      entities, the camera's matrices are copied in, and the UBO is written
      to the current slot's buffer and flushed. */
  method Update(m: Manager, r: Registry, frameIndex: nat, pose: ViewerPose, behaviour: Behaviour,
                frameCamera: Camera, encode: UboEncoding, flushResult: VkResult)
    returns (next: Manager, ubo: GlobalUbo, flushed: B.MappedRange)
    requires Valid(m, r) && frameIndex < SC.MAX_FRAMES_IN_FLIGHT
    requires m.camera.Some? && m.viewer.Some? && m.viewer.value < |m.entities|
    requires m.slots.buffers[frameIndex].mappedAt == Some(0)
    requires |LightEntities(m.entities, r)| <= MAX_LIGHTS
    requires EncodesUbo(encode)
    ensures Valid(next, r)
    ensures |next.entities| == |m.entities|
    ensures forall i :: 0 <= i < |m.entities| && i != m.viewer.value ==>
              next.entities[i] == UpdatedThrough(m.entities[i], behaviour, |m.entities[i].components|)
    ensures var v := m.viewer.value;
            next.entities[v] == UpdatedThrough(MoveViewer(m.entities[v], pose), behaviour, |m.entities[v].components|)
    ensures var v := m.viewer.value;
            m.entities[v].components == [] ==>
              next.entities[v].transform == Transform(pose.translation, m.entities[v].transform.scale, pose.rotation)
    ensures ubo.activeLights == |LightEntities(m.entities, r)| == |LightEntities(next.entities, r)|
    ensures next.activeLights == ubo.activeLights && |ubo.pointLights| == MAX_LIGHTS
    ensures forall k :: 0 <= k < ubo.activeLights ==>
              ubo.pointLights[k] == LightOf(LightEntities(next.entities, r)[k], r)
    ensures ubo.projection == frameCamera.projection && ubo.view == frameCamera.view &&
            ubo.inverseView == frameCamera.inverseView && ubo.ambientLightColor == AMBIENT_LIGHT
    ensures next.slots.buffers[frameIndex].memory[..GLOBAL_UBO_SIZE] == encode(ubo)
    ensures next.slots.buffers[frameIndex] == m.slots.buffers[frameIndex].(memory := next.slots.buffers[frameIndex].memory)
    ensures next.slots.sets == m.slots.sets
    ensures forall i :: 0 <= i < SC.MAX_FRAMES_IN_FLIGHT && i != frameIndex ==>
              next.slots.buffers[i] == m.slots.buffers[i]
    ensures flushed == B.MappedRange(0, B.WholeSize)
    ensures next == m.(entities := next.entities, activeLights := next.activeLights,
                       camera := Some(frameCamera), slots := next.slots)
  {
    var moved := MovedScene(m.entities, m.viewer.value, pose);
    var entities := UpdateAll(moved, behaviour);
    TransformsKeepValid(m, r, entities);
    LightCountIgnoresTransforms(m.entities, entities, r);
    ubo := FrameUbo(entities, r, frameCamera);
    var written := U.WriteFrameUbo(m.slots, frameIndex, encode(ubo), flushResult);
    flushed := written.1;
    next := m.(entities := entities, activeLights := ubo.activeLights, camera := Some(frameCamera), slots := written.0);
  }

  /** Moving entities keeps the manager valid: validity never reads a transform. */
  lemma TransformsKeepValid(m: Manager, r: Registry, entities: seq<Entity>)
    requires Valid(m, r) && |entities| == |m.entities|
    requires forall i :: 0 <= i < |m.entities| ==> entities[i] == m.entities[i].(transform := entities[i].transform)
    ensures Valid(m.(entities := entities), r)
    ensures forall i :: 0 <= i < |entities| ==> Owned(entities[i])
  {
    forall i | 0 <= i < |entities|
      ensures WellFormed(entities[i], r) && entities[i].id < m.nextEntityId
    {
      assert entities[i].components == m.entities[i].components;
    }
    forall i, j | 0 <= i < j < |entities| ensures entities[i].id != entities[j].id {
      assert entities[i].id == m.entities[i].id && entities[j].id == m.entities[j].id;
    }
  }

  /** The frame's UBO: the camera's matrices, the ambient light, and the
      lights of `es` packed in entity order. */
  method FrameUbo(es: seq<Entity>, r: Registry, frameCamera: Camera) returns (ubo: GlobalUbo)
    requires |LightEntities(es, r)| <= MAX_LIGHTS
    ensures ubo.activeLights == |LightEntities(es, r)| && |ubo.pointLights| == MAX_LIGHTS
    ensures forall k :: 0 <= k < ubo.activeLights ==> ubo.pointLights[k] == LightOf(LightEntities(es, r)[k], r)
    ensures ubo.projection == frameCamera.projection && ubo.view == frameCamera.view &&
            ubo.inverseView == frameCamera.inverseView && ubo.ambientLightColor == AMBIENT_LIGHT
  {
    ubo := PackLights(es, r);
    ubo := ubo.(projection := frameCamera.projection, view := frameCamera.view, inverseView := frameCamera.inverseView);
  }

  datatype RenderCall = RenderCall(drawn: seq<Entity>, descriptorSet: Option<nat>, activeLights: nat)

  /** What the render pass receives: the entities with a model, in entity
      order, the current slot's descriptor set and the last light count. */
  function Render(m: Manager, r: Registry, frameIndex: nat): (call: RenderCall)
    requires Valid(m, r) && frameIndex < SC.MAX_FRAMES_IN_FLIGHT
    ensures call.descriptorSet == m.slots.sets[frameIndex] && call.activeLights == m.activeLights
    ensures forall i :: 0 <= i < |call.drawn| ==> call.drawn[i] in m.entities && HasModel(r, call.drawn[i])
    ensures forall i :: 0 <= i < |m.entities| && HasModel(r, m.entities[i]) ==> m.entities[i] in call.drawn
    ensures IsOrderedSelection(call.drawn, m.entities, IsModel(r))
  {
    SelectIsOrderedSelection(m.entities, IsModel(r));
    RenderCall(Select(m.entities, IsModel(r)), m.slots.sets[frameIndex], m.activeLights)
  }

  // ---------------------------------------------------------------- refresh

  /** Where the viewer is after the entity list is cut down to the entities
      passing `keep`. entities_ holds unique_ptrs, so erasing other entities
      does not move the viewer's object and viewerEntity_ still names it; in
      the shorter list it sits after the kept entities that came before it.
      A viewer the cut drops is destroyed and nothing names it any more; an
      index that names no entity is left as it is. */
  function KeptViewer(es: seq<Entity>, keep: Entity -> bool, viewer: Option<nat>): (kept: Option<nat>)
    ensures viewer.None? ==> kept.None?
    ensures viewer.Some? && viewer.value >= |es| ==> kept == viewer
    ensures viewer.Some? && viewer.value < |es| ==>
              (kept.Some? <==> keep(es[viewer.value])) &&
              (kept.Some? ==> kept.value < |Select(es, keep)| && Select(es, keep)[kept.value] == es[viewer.value])
  {
    if viewer.Some? && viewer.value < |es| then
      if keep(es[viewer.value]) then
        SelectedPosition(es, keep, viewer.value);
        Some(|Select(es[..viewer.value], keep)|)
      else None
    else viewer
  }

  /** refresh as written: the erase-remove predicate is isAlive(), so the
      live entities are erased and the destroyed ones kept; a live viewer
      goes with them. */
  function RefreshAsWritten(m: Manager): (next: Manager)
    ensures next.entities == Select(m.entities, (e: Entity) => !e.alive)
    ensures next == m.(entities := next.entities, viewer := next.viewer)
    ensures m.viewer.Some? && m.viewer.value < |m.entities| && m.entities[m.viewer.value].alive ==> next.viewer.None?
  {
    var dead := (e: Entity) => !e.alive;
    m.(entities := Select(m.entities, dead), viewer := KeptViewer(m.entities, dead, m.viewer))
  }

  /** As written, refresh erases every live entity: a scene of live entities
      is emptied. */
  lemma RefreshAsWrittenErasesLiveEntities(m: Manager)
    ensures forall i :: 0 <= i < |RefreshAsWritten(m).entities| ==> !RefreshAsWritten(m).entities[i].alive
    ensures (forall i :: 0 <= i < |m.entities| ==> m.entities[i].alive) ==> RefreshAsWritten(m).entities == []
  {
    var kept := RefreshAsWritten(m).entities;
    if |kept| > 0 {
      assert kept[0] in m.entities;
    }
  }

  /** refresh as intended: destroyed entities are removed and the live ones
      kept in order. */
  function Refresh(m: Manager, r: Registry): (next: Manager)
    ensures next.entities == Select(m.entities, IsAlive())
    ensures next == m.(entities := next.entities, viewer := next.viewer)
    ensures forall i :: 0 <= i < |next.entities| ==> next.entities[i].alive && next.entities[i] in m.entities
    ensures forall i :: 0 <= i < |m.entities| && m.entities[i].alive ==> m.entities[i] in next.entities
    ensures m.viewer.Some? && m.viewer.value < |m.entities| && m.entities[m.viewer.value].alive ==>
              next.viewer.Some? && next.viewer.value < |next.entities| &&
              next.entities[next.viewer.value] == m.entities[m.viewer.value]
    ensures m.viewer.Some? && m.viewer.value < |m.entities| && !m.entities[m.viewer.value].alive ==> next.viewer.None?
    ensures m.viewer.None? ==> next.viewer.None?
    ensures Valid(m, r) ==> Valid(next, r)
  {
    var next := m.(entities := Select(m.entities, IsAlive()), viewer := KeptViewer(m.entities, IsAlive(), m.viewer));
    assert Valid(m, r) ==> Valid(next, r) by {
      if Valid(m, r) {
        SelectKeepsDistinctIds(m.entities, IsAlive());
        forall i | 0 <= i < |next.entities|
          ensures WellFormed(next.entities[i], r) && next.entities[i].id < next.nextEntityId
        {
          assert next.entities[i] in m.entities;
        }
      }
    }
    next
  }

  /** Selection keeps entity identities distinct. */
  lemma {:induction false} SelectKeepsDistinctIds(es: seq<Entity>, keep: Entity -> bool)
    requires DistinctIds(es)
    ensures DistinctIds(Select(es, keep))
    decreases |es|
  {
    if |es| > 0 {
      assert DistinctIds(es[1..]) by {
        forall i, j | 0 <= i < j < |es[1..]| ensures es[1..][i].id != es[1..][j].id {
          assert es[1..][i] == es[i + 1] && es[1..][j] == es[j + 1];
        }
      }
      SelectKeepsDistinctIds(es[1..], keep);
      var rest := Select(es[1..], keep);
      forall i | 0 <= i < |rest| ensures rest[i].id != es[0].id {
        var j :| 0 <= j < |es[1..]| && rest[i] == es[1..][j];
        assert rest[i] == es[j + 1];
      }
      if keep(es[0]) {
        ConsKeepsDistinctIds(es[0], rest);
      }
    }
  }

  lemma ConsKeepsDistinctIds(e: Entity, rest: seq<Entity>)
    requires DistinctIds(rest)
    requires forall i :: 0 <= i < |rest| ==> rest[i].id != e.id
    ensures DistinctIds([e] + rest)
  {
    var s := [e] + rest;
    forall i, j | 0 <= i < j < |s| ensures s[i].id != s[j].id {
      assert s[j] == rest[j - 1];
      if i > 0 {
        assert s[i] == rest[i - 1];
      }
    }
  }

  /** Refreshing twice is refreshing once. */
  lemma RefreshIsIdempotent(m: Manager, r: Registry)
    ensures Refresh(Refresh(m, r), r) == Refresh(m, r)
  {
    SelectIdempotent(m.entities, IsAlive());
    var once := Refresh(m, r);
    if once.viewer.Some? && once.viewer.value < |once.entities| {
      var k := once.viewer.value;
      SelectAll(once.entities[..k], IsAlive());
    }
  }

  /** With no destroyed entity, refresh keeps the scene as it is. */
  lemma RefreshKeepsLiveScene(m: Manager, r: Registry)
    requires forall i :: 0 <= i < |m.entities| ==> m.entities[i].alive
    ensures Refresh(m, r) == m
  {
    SelectAll(m.entities, IsAlive());
    if m.viewer.Some? && m.viewer.value < |m.entities| {
      SelectAll(m.entities[..m.viewer.value], IsAlive());
    }
  }
}

=== FILE: mesh_gen.dfy ===
/** The structural mesh generators of the early and showcase stages: the
    recursive Sierpinski subdivision and the index topology of the view
    frustum. Vertex coordinates are floating point in the source; here a
    vertex is abstract and the midpoint construction is a parameter, so the
    properties are about the shape of the output, not its arithmetic. */
module MeshGen {
  import opened Vulkan
  import M = Model

  datatype Triangle<V> = Triangle(v0: V, v1: V, v2: V)
  {
    /** The vertex at index i, as the source's `initialTriangle[i]`. */
    function At(i: nat): V
      requires i < 3
    {
      [v0, v1, v2][i]
    }
  }

  /** 3 to the power n. */
  function Pow3(n: nat): (p: nat)
    ensures p >= 1
  {
    if n == 0 then 1 else 3 * Pow3(n - 1)
  }

  /** The sub-triangle kept at corner k: the corner itself followed by the
      midpoints of its two edges, taken from the corner towards the other
      two vertices in index order. `mid(a, b)` is the point halfway from a
      to b. */
  function Corner<V>(t: Triangle<V>, k: nat, mid: (V, V) -> V): (c: Triangle<V>)
    requires k < 3
    ensures c.v0 == t.At(k)
    ensures c.v1 == mid(t.At(k), t.At(if k == 0 then 1 else 0))
    ensures c.v2 == mid(t.At(k), t.At(if k == 2 then 1 else 2))
  {
    if k == 0 then Triangle(t.v0, mid(t.v0, t.v1), mid(t.v0, t.v2))
    else if k == 1 then Triangle(t.v1, mid(t.v1, t.v0), mid(t.v1, t.v2))
    else Triangle(t.v2, mid(t.v2, t.v0), mid(t.v2, t.v1))
  }

  /** sierpinskiTriangle: depth 0 is the triangle itself; otherwise the
      results for the three corner sub-triangles, concatenated in corner
      order. */
  function Sierpinski<V>(t: Triangle<V>, depth: nat, mid: (V, V) -> V): (r: seq<V>)
    ensures |r| == Pow3(depth + 1)
    ensures r[0] == t.v0
    decreases depth
  {
    if depth == 0 then [t.v0, t.v1, t.v2]
    else
      var first := Sierpinski(Corner(t, 0, mid), depth - 1, mid);
      first + Sierpinski(Corner(t, 1, mid), depth - 1, mid) + Sierpinski(Corner(t, 2, mid), depth - 1, mid)
  }

  /** Depth 0 returns the three input vertices in order; a positive depth
      splits its output into three equal blocks, block k being the
      subdivision of corner k one level shallower. */
  lemma SierpinskiStructure<V>(t: Triangle<V>, depth: nat, mid: (V, V) -> V)
    ensures depth == 0 ==> Sierpinski(t, depth, mid) == [t.v0, t.v1, t.v2]
    ensures depth > 0 ==>
              var n := Pow3(depth);
              var r := Sierpinski(t, depth, mid);
              |r| == 3 * n &&
              r[..n] == Sierpinski(Corner(t, 0, mid), depth - 1, mid) &&
              r[n..2 * n] == Sierpinski(Corner(t, 1, mid), depth - 1, mid) &&
              r[2 * n..] == Sierpinski(Corner(t, 2, mid), depth - 1, mid)
  {
    if depth > 0 {
      var n := Pow3(depth);
      var a := Sierpinski(Corner(t, 0, mid), depth - 1, mid);
      var b := Sierpinski(Corner(t, 1, mid), depth - 1, mid);
      var c := Sierpinski(Corner(t, 2, mid), depth - 1, mid);
      assert Sierpinski(t, depth, mid) == a + b + c;
      assert (a + b + c)[..n] == a;
      assert (a + b + c)[n..2 * n] == b;
      assert (a + b + c)[2 * n..] == c;
    }
  }

  /** Any property of the input vertices that midpoints preserve holds for
      every output vertex. */
  lemma {:induction false} SierpinskiKeeps<V>(t: Triangle<V>, depth: nat, mid: (V, V) -> V, p: V -> bool)
    requires p(t.v0) && p(t.v1) && p(t.v2)
    requires forall a, b :: p(a) && p(b) ==> p(mid(a, b))
    ensures forall i :: 0 <= i < |Sierpinski(t, depth, mid)| ==> p(Sierpinski(t, depth, mid)[i])
    decreases depth
  {
    if depth > 0 {
      SierpinskiKeeps(Corner(t, 0, mid), depth - 1, mid, p);
      SierpinskiKeeps(Corner(t, 1, mid), depth - 1, mid, p);
      SierpinskiKeeps(Corner(t, 2, mid), depth - 1, mid, p);
      var a := Sierpinski(Corner(t, 0, mid), depth - 1, mid);
      var b := Sierpinski(Corner(t, 1, mid), depth - 1, mid);
      var c := Sierpinski(Corner(t, 2, mid), depth - 1, mid);
      var r := Sierpinski(t, depth, mid);
      assert r == a + b + c;
      forall i | 0 <= i < |r| ensures p(r[i]) {
        if i < |a| {
          assert r[i] == a[i];
        } else if i < |a| + |b| {
          assert r[i] == b[i - |a|];
        } else {
          assert r[i] == c[i - |a| - |b|];
        }
      }
    }
  }

  // ---------------------------------------------------------------- the homogeneous variant

  /** A vertex of the homogeneous stage: a position with a z component and a
      colour. Coordinates are reals standing for the source's floats. */
  datatype HVertex = HVertex(x: real, y: real, z: real, r: real, g: real, b: real)

  /** The homogeneous stage's midpoint: x, y and colour halfway, z fixed at 1. */
  function HomogeneousMid(a: HVertex, b: HVertex): (m: HVertex)
    ensures m.z == 1.0
    ensures m.x == (a.x + b.x) / 2.0 && m.y == (a.y + b.y) / 2.0
  {
    HVertex(a.x + (b.x - a.x) * 0.5, a.y + (b.y - a.y) * 0.5, 1.0,
            a.r + (b.r - a.r) * 0.5, a.g + (b.g - a.g) * 0.5, a.b + (b.b - a.b) * 0.5)
  }

  /** With inputs at z = 1, every vertex of the homogeneous subdivision is at z = 1. */
  lemma HomogeneousDepthIsOne(t: Triangle<HVertex>, depth: nat)
    requires t.v0.z == 1.0 && t.v1.z == 1.0 && t.v2.z == 1.0
    ensures forall i :: 0 <= i < |Sierpinski(t, depth, HomogeneousMid)| ==> Sierpinski(t, depth, HomogeneousMid)[i].z == 1.0
  {
    SierpinskiKeeps(t, depth, HomogeneousMid, (v: HVertex) => v.z == 1.0);
  }

  /** The triangle the homogeneous scene subdivides. */
  const SCENE_TRIANGLE: Triangle<HVertex> :=
    Triangle(HVertex(0.0, -0.5, 1.0, 1.0, 0.0, 0.0), HVertex(0.5, 0.5, 1.0, 0.0, 1.0, 0.0),
             HVertex(-0.5, 0.5, 1.0, 0.0, 0.0, 1.0))

  /** The subdivision depth of the scenes of the restructured and homogeneous stages. */
  const SCENE_DEPTH: nat := 6

  /** The scene's single object, subdivided to SCENE_DEPTH, has 2187
      vertices whatever the triangle. */
  lemma SceneVertexCount<V>(t: Triangle<V>, depth: nat, mid: (V, V) -> V)
    requires depth == SCENE_DEPTH
    ensures |Sierpinski(t, depth, mid)| == 2187
  {
    assert Pow3(depth + 1) == 2187;
  }

  // ---------------------------------------------------------------- the view frustum

  /** A frustum corner: on the near or the far plane, on the -x or +x side,
      on the -y or +y side. The coordinates themselves are floating point
      and not modelled. */
  datatype FrustumCorner = FrustumCorner(far: bool, negX: bool, negY: bool)

  datatype Face = NearFace | FarFace | LeftFace | RightFace | TopFace | BottomFace

  const FACES: seq<Face> := [NearFace, FarFace, LeftFace, RightFace, TopFace, BottomFace]

  predicate OnFace(c: FrustumCorner, f: Face) {
    match f
    case NearFace => !c.far
    case FarFace => c.far
    case LeftFace => c.negX
    case RightFace => !c.negX
    case TopFace => !c.negY
    case BottomFace => c.negY
  }

  /** The eight vertices in the order getViewFrustum pushes them: the near
      plane's (+x,+y), (-x,+y), (+x,-y), (-x,-y), then the far plane's in the same order. */
  const FRUSTUM_CORNERS: seq<FrustumCorner> := [
    FrustumCorner(false, false, false), FrustumCorner(false, true, false),
    FrustumCorner(false, false, true), FrustumCorner(false, true, true),
    FrustumCorner(true, false, false), FrustumCorner(true, true, false),
    FrustumCorner(true, false, true), FrustumCorner(true, true, true)]

  /** The index list, two triangles per face, grouped by face in the order
      near, far, left (-x), right (+x), +y, -y. */
  const FACE_TRIANGLES: seq<seq<nat>> := [
    [1, 0, 3, 0, 2, 3],
    [7, 4, 5, 6, 7, 4],
    [1, 3, 7, 1, 5, 7],
    [0, 2, 6, 0, 4, 6],
    [0, 1, 5, 4, 5, 0],
    [2, 3, 7, 6, 7, 2]]

  const FRUSTUM_INDICES: seq<nat> :=
    FACE_TRIANGLES[0] + FACE_TRIANGLES[1] + FACE_TRIANGLES[2] + FACE_TRIANGLES[3] + FACE_TRIANGLES[4] + FACE_TRIANGLES[5]

  /** The frustum has 8 vertices and 36 indices, each naming one of them,
      so 12 triangles. */
  lemma FrustumIndicesInRange()
    ensures |FRUSTUM_CORNERS| == 8 && |FRUSTUM_INDICES| == 36 && |FRUSTUM_INDICES| / 3 == 12
    ensures forall i :: 0 <= i < |FRUSTUM_INDICES| ==> FRUSTUM_INDICES[i] < |FRUSTUM_CORNERS|
  {
  }

  /** The corners that lie on face f. */
  function CornersOn(f: nat): set<nat>
    requires f < 6
  {
    set c | 0 <= c < 8 && OnFace(FRUSTUM_CORNERS[c], FACES[f])
  }

  /** Face f's six indices name corners on face f, and together they name
      every corner of that face. */
  predicate FaceCovered(f: nat)
    requires f < 6
  {
    |FACE_TRIANGLES[f]| == 6 &&
    (forall k :: 0 <= k < 6 ==> FACE_TRIANGLES[f][k] < 8 && OnFace(FRUSTUM_CORNERS[FACE_TRIANGLES[f][k]], FACES[f])) &&
    (set k | 0 <= k < 6 :: FACE_TRIANGLES[f][k]) == CornersOn(f)
  }

  /** Face f is covered once its indices, as a set, are its corners. */
  lemma FaceCoveredBy(f: nat, corners: set<nat>)
    requires f < 6 && |FACE_TRIANGLES[f]| == 6
    requires corners == {FACE_TRIANGLES[f][0], FACE_TRIANGLES[f][1], FACE_TRIANGLES[f][2],
                         FACE_TRIANGLES[f][3], FACE_TRIANGLES[f][4], FACE_TRIANGLES[f][5]}
    requires forall c :: c in corners ==> c < 8 && OnFace(FRUSTUM_CORNERS[c], FACES[f])
    requires forall c :: 0 <= c < 8 && OnFace(FRUSTUM_CORNERS[c], FACES[f]) ==> c in corners
    ensures FaceCovered(f) && CornersOn(f) == corners
  {
    SixIndicesAsSet(FACE_TRIANGLES[f]);
  }

  /** The set of six indices, written out. */
  lemma SixIndicesAsSet(ix: seq<nat>)
    requires |ix| == 6
    ensures (set k | 0 <= k < 6 :: ix[k]) == {ix[0], ix[1], ix[2], ix[3], ix[4], ix[5]}
  {
    var named := set k | 0 <= k < 6 :: ix[k];
    assert ix[0] in named && ix[1] in named && ix[2] in named && ix[3] in named && ix[4] in named && ix[5] in named;
  }

  /** Every face's two triangles lie on that face and touch every one of its corners. */
  lemma FrustumFacesAreCovered()
    ensures forall f :: 0 <= f < 6 ==> FaceCovered(f)
  {
    forall f | 0 <= f < 6 ensures FaceCovered(f) {
      if f == 0 {
        FaceCoveredBy(0, {0, 1, 2, 3});
      } else if f == 1 {
        FaceCoveredBy(1, {4, 5, 6, 7});
      } else if f == 2 {
        FaceCoveredBy(2, {1, 3, 5, 7});
      } else if f == 3 {
        FaceCoveredBy(3, {0, 2, 4, 6});
      } else if f == 4 {
        FaceCoveredBy(4, {0, 1, 4, 5});
      } else {
        FaceCoveredBy(5, {2, 3, 6, 7});
      }
    }
  }

  /** The frustum model has an index buffer and draws all 36 indices. */
  lemma FrustumModelDrawsEveryIndex<F>(b: M.Builder<F>)
    requires |b.vertices| == |FRUSTUM_CORNERS| && b.indices == FRUSTUM_INDICES
    ensures M.DrawModel(M.CreateModel(b)) == M.DrawIndexed(36)
  {
  }
}

=== FILE: model.dfy ===
/** Loading a mesh into a vertex list and an index list: every OBJ index
    triple is assembled into a vertex, equal vertices are stored once, and
    the index list points each triple at its stored vertex. Vertex
    components are opaque values of a type with equality. */
module Model {
  import opened Wrappers
  import opened Vulkan

  // ---------------------------------------------------------------- reference definitions

  predicate Distinct<V(==)>(s: seq<V>) {
    forall i, j :: 0 <= i < j < |s| ==> s[i] != s[j]
  }

  // ---------------------------------------------------------------- deduplication

  /** `vertices` and `indices` encode `input`: one index per input element
      pointing at an equal stored vertex, stored vertices pairwise different
      and all used, and each first occurrence receiving an index above all
      earlier ones (so new indices appear as 0, 1, 2, ...). */
  predicate IsDeduplication<V(==)>(input: seq<V>, vertices: seq<V>, indices: seq<nat>) {
    |indices| == |input| &&
    Distinct(vertices) &&
    (forall k :: 0 <= k < |indices| ==> indices[k] < |vertices| && vertices[indices[k]] == input[k]) &&
    (forall j :: 0 <= j < |vertices| ==> vertices[j] in input) &&
    (forall j, k :: 0 <= j < k < |input| && FirstAt(input, k) ==> indices[j] < indices[k])
  }

  /** Position `k` holds the first occurrence of its element. */
  predicate FirstAt<V(==)>(s: seq<V>, k: nat)
    requires k < |s|
  {
    forall m :: 0 <= m < k ==> s[m] != s[k]
  }

  /** Looking every index up again gives back the input: nothing is lost. */
  lemma DeduplicationRoundTrip<V>(input: seq<V>, vertices: seq<V>, indices: seq<nat>)
    requires IsDeduplication(input, vertices, indices)
    ensures seq(|indices|, k requires 0 <= k < |indices| && indices[k] < |vertices| => vertices[indices[k]]) == input
  {
  }

  /** The deduplication loop: a vertex is appended when it is first seen, and
      every input position receives the index of its stored vertex. The
      result stores each distinct input vertex once, uses every stored vertex,
      and hands out new indices in increasing order. */
  method Deduplicate<V(==)>(input: seq<V>) returns (vertices: seq<V>, indices: seq<nat>)
    ensures IsDeduplication(input, vertices, indices)
  {
    vertices := [];
    indices := [];
    var unique: map<V, nat> := map[];
    for i := 0 to |input|
      invariant DedupInvariant(input, i, vertices, indices, unique)
    {
      var vertex := input[i];
      ghost var before, indicesBefore, uniqueBefore := vertices, indices, unique;
      if vertex !in unique {
        unique := unique[vertex := |vertices|];
        vertices := vertices + [vertex];
      }
      indices := indices + [unique[vertex]];
      DedupStep(input, i, before, indicesBefore, uniqueBefore, vertices, indices, unique);
    }
    DedupDone(input, vertices, indices, unique);
  }

  /** What holds after the first `i` input vertices: the map mirrors the
      stored vertices, and the lists encode the prefix. */
  predicate DedupInvariant<V(==)>(input: seq<V>, i: nat, vertices: seq<V>, indices: seq<nat>, unique: map<V, nat>) {
    i <= |input| &&
    |indices| == i &&
    (forall j :: 0 <= j < |vertices| ==> vertices[j] in unique && unique[vertices[j]] == j) &&
    (forall x :: x in unique ==> unique[x] < |vertices| && vertices[unique[x]] == x) &&
    (forall k :: 0 <= k < i ==> indices[k] < |vertices| && vertices[indices[k]] == input[k]) &&
    (forall j :: 0 <= j < |vertices| ==> exists k :: 0 <= k < i && input[k] == vertices[j]) &&
    (forall j, k :: 0 <= j < k < i && FirstAt(input, k) ==> indices[j] < indices[k])
  }

  lemma DedupStep<V>(input: seq<V>, i: nat, vertices: seq<V>, indices: seq<nat>, unique: map<V, nat>,
                     vertices': seq<V>, indices': seq<nat>, unique': map<V, nat>)
    requires i < |input| && DedupInvariant(input, i, vertices, indices, unique)
    requires input[i] in unique ==> vertices' == vertices && unique' == unique
    requires input[i] !in unique ==> vertices' == vertices + [input[i]] && unique' == unique[input[i] := |vertices|]
    requires input[i] in unique' && indices' == indices + [unique'[input[i]]]
    ensures DedupInvariant(input, i + 1, vertices', indices', unique')
  {
    if input[i] in unique {
      DedupSeen(input, i, vertices, indices, unique);
    } else {
      DedupNew(input, i, vertices, indices, unique);
    }
  }

  /** A vertex seen before: only its index is appended, and position `i`
      is not a first occurrence. */
  lemma DedupSeen<V>(input: seq<V>, i: nat, vertices: seq<V>, indices: seq<nat>, unique: map<V, nat>)
    requires i < |input| && DedupInvariant(input, i, vertices, indices, unique) && input[i] in unique
    ensures DedupInvariant(input, i + 1, vertices, indices + [unique[input[i]]], unique)
  {
    var vertex := input[i];
    var indices' := indices + [unique[vertex]];
    assert vertices[unique[vertex]] == vertex;
    assert !FirstAt(input, i) by {
      var v := vertices[unique[vertex]];
      assert exists k :: 0 <= k < i && input[k] == v;
      var k :| 0 <= k < i && input[k] == v;
    }
    forall k | 0 <= k < i + 1
      ensures indices'[k] < |vertices| && vertices[indices'[k]] == input[k]
    {
      if k < i {
        assert indices'[k] == indices[k];
      }
    }
    forall j | 0 <= j < |vertices|
      ensures exists k :: 0 <= k < i + 1 && input[k] == vertices[j]
    {
      var v := vertices[j];
      assert exists k :: 0 <= k < i && input[k] == v;
      var k :| 0 <= k < i && input[k] == v;
    }
    forall j, k | 0 <= j < k < i + 1 && FirstAt(input, k)
      ensures indices'[j] < indices'[k]
    {
      assert k < i;
      assert indices'[j] == indices[j] && indices'[k] == indices[k];
    }
  }

  /** A vertex not seen before: it is stored at the end, its new index is
      above every index handed out so far. */
  lemma DedupNew<V>(input: seq<V>, i: nat, vertices: seq<V>, indices: seq<nat>, unique: map<V, nat>)
    requires i < |input| && DedupInvariant(input, i, vertices, indices, unique) && input[i] !in unique
    ensures DedupInvariant(input, i + 1, vertices + [input[i]], indices + [|vertices|],
                           unique[input[i] := |vertices|])
  {
    var vertex := input[i];
    var vertices', indices', unique' := vertices + [vertex], indices + [|vertices|], unique[vertex := |vertices|];
    forall j | 0 <= j < |vertices'|
      ensures vertices'[j] in unique' && unique'[vertices'[j]] == j
    {
      if j < |vertices| {
        assert vertices'[j] == vertices[j] && vertices[j] in unique;
      }
    }
    forall x | x in unique'
      ensures unique'[x] < |vertices'| && vertices'[unique'[x]] == x
    {
      if x != vertex {
        assert x in unique && vertices'[unique[x]] == vertices[unique[x]];
      }
    }
    forall k | 0 <= k < i + 1
      ensures indices'[k] < |vertices'| && vertices'[indices'[k]] == input[k]
    {
      if k < i {
        assert indices'[k] == indices[k] && vertices'[indices[k]] == vertices[indices[k]];
      }
    }
    forall j | 0 <= j < |vertices'|
      ensures exists k :: 0 <= k < i + 1 && input[k] == vertices'[j]
    {
      if j < |vertices| {
        var v := vertices[j];
        assert exists k :: 0 <= k < i && input[k] == v;
        var k :| 0 <= k < i && input[k] == v;
        assert input[k] == vertices'[j];
      } else {
        assert input[i] == vertices'[j];
      }
    }
    forall j, k | 0 <= j < k < i + 1 && FirstAt(input, k)
      ensures indices'[j] < indices'[k]
    {
      assert indices'[j] == indices[j];
      if k < i {
        assert indices'[k] == indices[k];
      }
    }
  }

  lemma DedupDone<V>(input: seq<V>, vertices: seq<V>, indices: seq<nat>, unique: map<V, nat>)
    requires DedupInvariant(input, |input|, vertices, indices, unique)
    ensures IsDeduplication(input, vertices, indices)
  {
    forall j | 0 <= j < |vertices| ensures vertices[j] in input {
      var v := vertices[j];
      assert exists k :: 0 <= k < |input| && input[k] == v;
      var k :| 0 <= k < |input| && input[k] == v;
    }
  }

  /** Positions holding equal vertices share one index, and different
      vertices never share one. */
  lemma IndicesIdentifyVertices<V>(input: seq<V>, vertices: seq<V>, indices: seq<nat>, j: nat, k: nat)
    requires |indices| == |input| && j < |input| && k < |input|
    requires forall m :: 0 <= m < |indices| ==> indices[m] < |vertices| && vertices[indices[m]] == input[m]
    requires Distinct(vertices)
    ensures indices[j] == indices[k] <==> input[j] == input[k]
  {
  }

  // ---------------------------------------------------------------- OBJ assembly

  /** An OBJ index triple; a negative component means the attribute is absent. */
  datatype ObjIndex = ObjIndex(vertexIndex: int, normalIndex: int, texcoordIndex: int)

  /** The flat attribute arrays of an OBJ file. */
  datatype Attrib<F> = Attrib(vertices: seq<F>, colors: seq<F>, normals: seq<F>, texcoords: seq<F>)

  datatype Shape = Shape(indices: seq<ObjIndex>)

  /** Two vertices are equal when position, colour, normal and uv all are. */
  datatype Vertex<F> = Vertex(position: seq<F>, color: seq<F>, normal: seq<F>, uv: seq<F>)

  /** What the loader guarantees: every present index addresses a whole
      tuple of its array. */
  predicate IndexInRange<F>(attrib: Attrib<F>, idx: ObjIndex) {
    (idx.vertexIndex >= 0 ==> 3 * idx.vertexIndex + 3 <= |attrib.vertices| && 3 * idx.vertexIndex + 3 <= |attrib.colors|) &&
    (idx.normalIndex >= 0 ==> 3 * idx.normalIndex + 3 <= |attrib.normals|) &&
    (idx.texcoordIndex >= 0 ==> 2 * idx.texcoordIndex + 2 <= |attrib.texcoords|)
  }

  function Flatten(shapes: seq<Shape>): (all: seq<ObjIndex>)
    ensures |shapes| > 0 ==> all == Flatten(shapes[..|shapes| - 1]) + shapes[|shapes| - 1].indices
  {
    if |shapes| == 0 then [] else Flatten(shapes[..|shapes| - 1]) + shapes[|shapes| - 1].indices
  }

  /** Builds one vertex; absent attributes keep the zero-initialised value. */
  function Assemble<F>(attrib: Attrib<F>, idx: ObjIndex, zero: F): (v: Vertex<F>)
    requires IndexInRange(attrib, idx)
    ensures |v.position| == 3 && |v.color| == 3 && |v.normal| == 3 && |v.uv| == 2
    ensures idx.vertexIndex >= 0 ==> v.position == attrib.vertices[3 * idx.vertexIndex..3 * idx.vertexIndex + 3]
    ensures idx.vertexIndex < 0 ==> v.position == [zero, zero, zero] && v.color == [zero, zero, zero]
    ensures idx.normalIndex < 0 ==> v.normal == [zero, zero, zero]
    ensures idx.texcoordIndex < 0 ==> v.uv == [zero, zero]
  {
    var vi, ni, ti := idx.vertexIndex, idx.normalIndex, idx.texcoordIndex;
    Vertex(
      if vi >= 0 then attrib.vertices[3 * vi..3 * vi + 3] else [zero, zero, zero],
      if vi >= 0 then attrib.colors[3 * vi..3 * vi + 3] else [zero, zero, zero],
      if ni >= 0 then attrib.normals[3 * ni..3 * ni + 3] else [zero, zero, zero],
      if ti >= 0 then attrib.texcoords[2 * ti..2 * ti + 2] else [zero, zero])
  }

  /** The vertex for every index of every shape, in shape order. */
  function AssembleAll<F>(attrib: Attrib<F>, all: seq<ObjIndex>, zero: F): (vs: seq<Vertex<F>>)
    requires forall k :: 0 <= k < |all| ==> IndexInRange(attrib, all[k])
    ensures |vs| == |all|
    ensures forall k :: 0 <= k < |all| ==> vs[k] == Assemble(attrib, all[k], zero)
  {
    seq(|all|, k requires 0 <= k < |all| => Assemble(attrib, all[k], zero))
  }

  datatype Builder<F> = Builder(vertices: seq<Vertex<F>>, indices: seq<nat>)

  /** A parsed file: attributes and shapes, or a loader failure. */
  type Parsed<F> = Option<(Attrib<F>, seq<Shape>)>

  predicate WellFormed<F>(parsed: Parsed<F>) {
    parsed.Some? ==>
      var all := Flatten(parsed.value.1);
      forall k :: 0 <= k < |all| ==> IndexInRange(parsed.value.0, all[k])
  }

  /** A loader failure is an error; otherwise the builder's lists are replaced
      by the deduplicated vertices and one index per OBJ index. */
  method LoadModel<F(==)>(parsed: Parsed<F>, zero: F) returns (r: Outcome<Builder<F>>)
    requires WellFormed(parsed)
    ensures parsed.None? <==> r.Failure?
    ensures r.Failure? ==> r.error == ModelLoadFailed
    ensures r.Success? ==>
              var input := AssembleAll(parsed.value.0, Flatten(parsed.value.1), zero);
              |r.value.indices| == |Flatten(parsed.value.1)| &&
              IsDeduplication(input, r.value.vertices, r.value.indices)
  {
    if parsed.None? {
      return Failure(ModelLoadFailed);
    }
    var (attrib, shapes) := parsed.value;
    var input := AssembleAll(attrib, Flatten(shapes), zero);
    var vertices, indices := Deduplicate(input);
    r := Success(Builder(vertices, indices));
  }

  // ---------------------------------------------------------------- GPU model

  datatype GpuModel = GpuModel(vertexCount: nat, indexCount: nat, hasIndexBuffer: bool)

  datatype DrawCommand = DrawIndexed(indexCount: nat) | Draw(vertexCount: nat)

  /** Creating the model needs at least three vertices; an index buffer is
      made exactly when there are indices. */
  function CreateModel<F>(b: Builder<F>): (m: GpuModel)
    requires |b.vertices| >= 3 && IsUint32(|b.vertices|) && IsUint32(|b.indices|)
    ensures m.vertexCount == |b.vertices| && m.indexCount == |b.indices|
    ensures m.hasIndexBuffer <==> |b.indices| > 0
  {
    GpuModel(|b.vertices|, |b.indices|, |b.indices| > 0)
  }

  /** The index buffer is bound exactly when the model has one. */
  function BindsIndexBuffer(m: GpuModel): (bound: bool)
    ensures bound <==> m.hasIndexBuffer
  {
    m.hasIndexBuffer
  }

  function DrawModel(m: GpuModel): (d: DrawCommand)
    ensures m.hasIndexBuffer ==> d == DrawIndexed(m.indexCount)
    ensures !m.hasIndexBuffer ==> d == Draw(m.vertexCount)
  {
    if m.hasIndexBuffer then DrawIndexed(m.indexCount) else Draw(m.vertexCount)
  }

  /** A loaded mesh with at least one index is drawn indexed, one index per
      OBJ index, and the vertex buffer holds each distinct vertex once. */
  lemma LoadedModelDrawsEveryIndex<F>(b: Builder<F>, input: seq<Vertex<F>>)
    requires IsDeduplication(input, b.vertices, b.indices) && |input| > 0
    requires |b.vertices| >= 3 && IsUint32(|b.vertices|) && IsUint32(|b.indices|)
    ensures DrawModel(CreateModel(b)) == DrawIndexed(|input|)
    ensures CreateModel(b).vertexCount == |set k | 0 <= k < |input| :: input[k]|
  {
    DistinctCardinality(b.vertices);
    var stored := set j | 0 <= j < |b.vertices| :: b.vertices[j];
    var seen := set k | 0 <= k < |input| :: input[k];
    forall x | x in stored ensures x in seen {
      var j :| 0 <= j < |b.vertices| && b.vertices[j] == x;
      assert x in input;
    }
    forall x | x in seen ensures x in stored {
      var k :| 0 <= k < |input| && input[k] == x;
      assert b.vertices[b.indices[k]] == x;
    }
    assert stored == seen;
  }

  lemma {:induction false} DistinctCardinality<V>(s: seq<V>)
    requires Distinct(s)
    ensures |set j | 0 <= j < |s| :: s[j]| == |s|
  {
    if |s| > 0 {
      var t := s[..|s| - 1];
      DistinctCardinality(t);
      var last := s[|s| - 1];
      assert (set j | 0 <= j < |s| :: s[j]) == (set j | 0 <= j < |t| :: t[j]) + {last};
      assert last !in (set j | 0 <= j < |t| :: t[j]);
    }
  }
}

=== FILE: renderer.dfy ===
/** The renderer: owns the swapchain and one command buffer per frame slot,
    and drives the begin-frame / end-frame protocol, recreating the
    swapchain when it goes stale or the window is resized.

    GPU progress is modelled per command buffer: `pending[k]` is the frame
    fence its last submission signals (None once the device went idle). A
    command buffer is busy while that fence is unsignalled. */
module Renderer {
  import opened Wrappers
  import opened Vulkan
  import Device
  import SC = Swapchain

  /** What the window system, the device and the driver answer during a
      swapchain recreation. `extentPolls` are the successive framebuffer sizes
      the window reports while the renderer waits out a minimised window. */
  datatype Environment = Environment(
    extentPolls: seq<Extent>,
    device: Device.PhysicalDevice,
    capabilities: SurfaceCapabilities,
    indices: Device.QueueFamilyIndices,
    driver: SC.SwapchainDriver)
  {
    /** The window eventually reports a non-zero size (otherwise the wait
        never ends), and the device passed selection (non-empty surface
        formats, complete queue families). */
    predicate Usable() {
      (exists k :: 0 <= k < |extentPolls| && !extentPolls[k].HasZeroDimension()) &&
      |device.surfaceFormats| > 0 && indices.IsComplete()
    }
  }

  /** The index of the first poll with both dimensions non-zero: the
      renderer keeps polling and waiting for events while a dimension is 0. */
  function WaitForNonZeroExtent(polls: seq<Extent>): (k: nat)
    requires exists k :: 0 <= k < |polls| && !polls[k].HasZeroDimension()
    ensures k < |polls| && !polls[k].HasZeroDimension()
    ensures forall j :: 0 <= j < k ==> polls[j].HasZeroDimension()
  {
    if !polls[0].HasZeroDimension() then 0
    else
      assert exists k :: 0 <= k < |polls[1..]| && !polls[1..][k].HasZeroDimension() by {
        var k :| 0 <= k < |polls| && !polls[k].HasZeroDimension();
        assert k > 0 && polls[1..][k - 1] == polls[k];
      }
      var k := WaitForNonZeroExtent(polls[1..]);
      assert forall j :: 1 <= j < k + 1 ==> polls[j] == polls[1..][j - 1];
      k + 1
  }

  /** Builds the next swapchain: waits for a non-zero window size, waits for
      the device to go idle, builds a fresh swapchain (or one replacing
      `old`) and, when replacing, throws if the colour or depth format
      changed. */
  function BuildSwapchain(current: Option<SC.Swapchain>, env: Environment): (r: Outcome<SC.Swapchain>)
    requires env.Usable()
    ensures r.Success? ==> r.value.Valid() && r.value.currentFrame == 0
    ensures r.Success? ==> r.value.ImageCount() == |env.driver.images|
    ensures r.Success? ==> !env.extentPolls[WaitForNonZeroExtent(env.extentPolls)].HasZeroDimension()
    ensures r.Success? ==> r.value.oldSwapchain == (if current.Some? then Some(current.value.handle) else None)
    ensures r.Success? && current.Some? ==> SC.CompareSwapChainFormats(current.value, r.value)
    ensures current.Some? && r.Failure? && SC.CreateSwapchain(env.device, env.capabilities, env.indices,
              env.extentPolls[WaitForNonZeroExtent(env.extentPolls)], Some(current.value.handle), env.driver).Success? ==>
              r.error == FormatChanged
  {
    var extent := env.extentPolls[WaitForNonZeroExtent(env.extentPolls)];
    match current
    case None =>
      SC.CreateSwapchain(env.device, env.capabilities, env.indices, extent, None, env.driver)
    case Some(previous) =>
      var next :- SC.CreateSwapchain(env.device, env.capabilities, env.indices, extent, Some(previous.handle), env.driver);
      if !SC.CompareSwapChainFormats(previous, next) then Failure(FormatChanged) else Success(next)
  }

  datatype Renderer = Renderer(
    swapchain: SC.Swapchain,
    commandBuffers: seq<nat>,
    pending: seq<Option<nat>>,
    windowResized: bool,
    currentImageIndex: nat,
    currentFrameIndex: nat,
    isFrameStarted: bool)
  {
    /** The frame fence that guards command buffer `k`: slots and command
        buffers advance together, so the pairing is fixed between two
        recreations of the swapchain. */
    function FenceFor(k: nat): nat
      requires currentFrameIndex < SC.MAX_FRAMES_IN_FLIGHT
    {
      (k + swapchain.currentFrame + SC.MAX_FRAMES_IN_FLIGHT - currentFrameIndex) % SC.MAX_FRAMES_IN_FLIGHT
    }

    predicate Valid() {
      swapchain.Valid() &&
      |commandBuffers| == SC.MAX_FRAMES_IN_FLIGHT &&
      |pending| == SC.MAX_FRAMES_IN_FLIGHT &&
      currentFrameIndex < SC.MAX_FRAMES_IN_FLIGHT &&
      (isFrameStarted ==> currentImageIndex < swapchain.ImageCount()) &&
      forall k :: 0 <= k < SC.MAX_FRAMES_IN_FLIGHT && pending[k].Some? ==> pending[k].value == FenceFor(k)
    }

    /** Command buffer `k` may still be executing on the GPU. */
    predicate Busy(k: nat)
      requires Valid() && k < SC.MAX_FRAMES_IN_FLIGHT
    {
      pending[k].Some? && !swapchain.fenceSignalled[pending[k].value]
    }

    function GetCurrentCommandBuffer(): (cb: nat)
      requires Valid() && isFrameStarted
      ensures cb == commandBuffers[currentFrameIndex]
    {
      commandBuffers[currentFrameIndex]
    }

    function GetFrameIndex(): (i: nat)
      requires Valid() && isFrameStarted
      ensures i < SC.MAX_FRAMES_IN_FLIGHT && i == currentFrameIndex
    {
      currentFrameIndex
    }
  }

  /** Builds the first swapchain, then allocates one primary command buffer
      per frame slot; a failed allocation throws. */
  function NewRenderer(env: Environment, allocation: VkResult, handles: seq<nat>): (r: Outcome<Renderer>)
    requires env.Usable()
    requires |handles| == SC.MAX_FRAMES_IN_FLIGHT
    ensures r.Success? ==> r.value.Valid() && !r.value.isFrameStarted
    ensures r.Success? ==> r.value.currentFrameIndex == 0 && r.value.currentImageIndex == 0
    ensures r.Success? ==> r.value.commandBuffers == handles && r.value.swapchain.oldSwapchain.None?
    ensures r.Success? ==> forall k :: 0 <= k < SC.MAX_FRAMES_IN_FLIGHT ==> !r.value.Busy(k)
    ensures allocation != VkSuccess ==> r.Failure?
  {
    var sc :- BuildSwapchain(None, env);
    if allocation != VkSuccess then Failure(CreationFailed)
    else Success(Renderer(sc, handles, [None, None], false, 0, 0, false))
  }

  /** Waits for the device to go idle (no command buffer is pending any more)
      and replaces the swapchain. */
  function RecreateSwapchain(r: Renderer, env: Environment): (res: Outcome<Renderer>)
    requires r.Valid() && !r.isFrameStarted && env.Usable()
    ensures res.Success? ==> res.value.Valid()
    ensures res.Success? ==> res.value == r.(swapchain := res.value.swapchain, pending := [None, None])
    ensures res.Success? ==> res.value.swapchain.ImageCount() == |env.driver.images|
    ensures res.Success? ==> res.value.swapchain.oldSwapchain == Some(r.swapchain.handle)
    ensures res.Success? ==> SC.CompareSwapChainFormats(r.swapchain, res.value.swapchain)
  {
    var sc :- BuildSwapchain(Some(r.swapchain), env);
    Success(r.(swapchain := sc, pending := [None, None]))
  }

  /** The driver's answers during one begin-frame. */
  datatype AcquireAnswer = AcquireAnswer(result: VkResult, imageIndex: nat, beginRecording: VkResult)

  /** Acquires the next image. A stale swapchain is recreated and no command
      buffer is handed out; another failure throws; otherwise the frame is
      started and the current slot's command buffer is returned for recording.
      The command buffer handed out is never still executing on the GPU. */
  function BeginFrame(r: Renderer, answer: AcquireAnswer, env: Environment): (res: Outcome<(Renderer, Option<nat>)>)
    requires r.Valid() && !r.isFrameStarted && env.Usable()
    requires answer.result in {VkSuccess, VkSuboptimal} ==> answer.imageIndex < r.swapchain.ImageCount()
    ensures res.Success? ==> res.value.0.Valid()
    ensures res.Success? ==> res.value.0.currentFrameIndex == r.currentFrameIndex
    ensures res.Success? ==> res.value.0.commandBuffers == r.commandBuffers
    ensures res.Success? ==> res.value.0.swapchain.ImageCount() == r.swapchain.ImageCount() ||
                             res.value.0.swapchain.ImageCount() == |env.driver.images|
    ensures answer.result == VkOutOfDate ==>
              res.Success? ==> res.value.1.None? && !res.value.0.isFrameStarted
    ensures answer.result !in {VkSuccess, VkSuboptimal, VkOutOfDate} ==> res == Failure(AcquireFailed)
    ensures answer.result != VkOutOfDate && res.Success? ==> res.value.1.Some?
    ensures answer.result in {VkSuccess, VkSuboptimal} ==>
              (res.Success? <==> answer.beginRecording == VkSuccess) &&
              (res.Failure? ==> res.error == RecordFailed)
    ensures res.Success? && res.value.1.Some? ==>
              var (next, cb) := res.value;
              next.isFrameStarted && cb.value == next.GetCurrentCommandBuffer() &&
              next.currentImageIndex == answer.imageIndex &&
              next.swapchain.currentFrame == r.swapchain.currentFrame &&
              !next.Busy(next.currentFrameIndex)
  {
    var (sc, result) := SC.AcquireNextImage(r.swapchain, answer.result);
    var acquired := r.(swapchain := sc);
    if result == VkOutOfDate then
      SkipFrame(acquired, env)
    else if result != VkSuccess && result != VkSuboptimal then
      Failure(AcquireFailed)
    else
      var next := acquired.(isFrameStarted := true, currentImageIndex := answer.imageIndex);
      if answer.beginRecording != VkSuccess then Failure(RecordFailed)
      else Success((next, Some(next.GetCurrentCommandBuffer())))
  }

  /** A stale swapchain at acquire: it is recreated and no frame starts. */
  function SkipFrame(r: Renderer, env: Environment): (res: Outcome<(Renderer, Option<nat>)>)
    requires r.Valid() && !r.isFrameStarted && env.Usable()
    ensures res.Success? ==> res.value.0.Valid() && !res.value.0.isFrameStarted && res.value.1.None?
    ensures res.Success? ==> res.value.0.currentFrameIndex == r.currentFrameIndex
    ensures res.Success? ==> res.value.0.commandBuffers == r.commandBuffers
    ensures res.Success? ==> res.value.0.swapchain.ImageCount() == |env.driver.images|
  {
    var next :- RecreateSwapchain(r, env);
    Success((next, None))
  }

  /** The driver's answers during one end-frame. */
  datatype SubmitAnswer = SubmitAnswer(endRecording: VkResult, submit: VkResult, present: VkResult)

  /** Ends recording, submits the current command buffer for the acquired
      image and presents it. A stale or suboptimal swapchain, or a resized
      window, triggers a recreation (and clears the resize flag); another
      present failure throws. The frame slot then advances. */
  function EndFrame(r: Renderer, answer: SubmitAnswer, env: Environment): (res: Outcome<Renderer>)
    requires r.Valid() && r.isFrameStarted && env.Usable()
    ensures res.Success? ==> res.value.Valid()
    ensures res.Success? ==> !res.value.isFrameStarted
    ensures res.Success? ==> res.value.currentFrameIndex == SC.NextSlot(r.currentFrameIndex)
    ensures res.Success? ==> !res.value.windowResized
    ensures res.Success? ==> res.value.commandBuffers == r.commandBuffers
    ensures res.Success? ==> res.value.swapchain.ImageCount() == r.swapchain.ImageCount() ||
                             res.value.swapchain.ImageCount() == |env.driver.images|
    ensures answer.endRecording != VkSuccess ==> res == Failure(RecordFailed)
    ensures answer.endRecording == VkSuccess && answer.submit != VkSuccess ==> res == Failure(SubmitFailed)
    ensures answer.endRecording == VkSuccess && answer.submit == VkSuccess &&
            answer.present !in {VkSuccess, VkSuboptimal, VkOutOfDate} && !r.windowResized ==>
              res == Failure(PresentFailed)
    ensures res.Success? && answer.present == VkSuccess && !r.windowResized ==>
              res.value.swapchain.handle == r.swapchain.handle &&
              res.value.swapchain.imagesInFlight == r.swapchain.imagesInFlight[r.currentImageIndex := Some(r.swapchain.currentFrame)] &&
              res.value.pending[r.currentFrameIndex] == Some(r.swapchain.currentFrame)
    ensures res.Success? && (answer.present in {VkSuboptimal, VkOutOfDate} || r.windowResized) ==>
              res.value.swapchain.oldSwapchain == Some(r.swapchain.handle) &&
              forall k :: 0 <= k < SC.MAX_FRAMES_IN_FLIGHT ==> res.value.pending[k].None?
  {
    if answer.endRecording != VkSuccess then Failure(RecordFailed)
    else
      var (sc, submission, result) :- SC.SubmitCommandBuffers(r.swapchain, r.currentImageIndex, answer.submit, answer.present);
      // The frame index advances after a possible recreation in the source;
      // recreation does not read it, so advancing first is the same.
      var advanced := AdvanceFrame(r, sc, submission.fence);
      PresentFrame(advanced, result, env)
  }

  /** The present's answer, once the frame is submitted: a stale or
      suboptimal swapchain, or a resized window, triggers a recreation (and
      clears the resize flag); another failure throws. */
  function PresentFrame(advanced: Renderer, result: VkResult, env: Environment): (res: Outcome<Renderer>)
    requires advanced.Valid() && !advanced.isFrameStarted && env.Usable()
    ensures res.Success? ==> res.value.Valid() && !res.value.isFrameStarted && !res.value.windowResized
    ensures res.Success? ==> res.value.commandBuffers == advanced.commandBuffers
    ensures res.Success? ==> res.value.currentFrameIndex == advanced.currentFrameIndex
    ensures res.Success? ==> res.value.swapchain.ImageCount() == advanced.swapchain.ImageCount() ||
                             res.value.swapchain.ImageCount() == |env.driver.images|
    ensures result !in {VkSuccess, VkSuboptimal, VkOutOfDate} && !advanced.windowResized ==> res == Failure(PresentFailed)
    ensures result == VkSuccess && !advanced.windowResized ==> res == Success(advanced)
    ensures res.Success? && (result in {VkSuboptimal, VkOutOfDate} || advanced.windowResized) ==>
              res.value.swapchain.oldSwapchain == Some(advanced.swapchain.handle) &&
              forall k :: 0 <= k < SC.MAX_FRAMES_IN_FLIGHT ==> res.value.pending[k].None?
  {
    if result == VkOutOfDate || result == VkSuboptimal || advanced.windowResized then
      RecreateSwapchain(advanced.(windowResized := false), env)
    else if result != VkSuccess then Failure(PresentFailed)
    else Success(advanced)
  }

  /** The renderer once the current frame is submitted on `sc`: the frame's
      command buffer is pending on `fence`, and the frame slot advances. */
  function AdvanceFrame(r: Renderer, sc: SC.Swapchain, fence: nat): (advanced: Renderer)
    requires r.Valid() && sc.Valid() && fence == r.swapchain.currentFrame
    requires sc.currentFrame == SC.NextSlot(r.swapchain.currentFrame)
    ensures advanced.Valid()
    ensures advanced == r.(swapchain := sc, pending := r.pending[r.currentFrameIndex := Some(fence)],
                           isFrameStarted := false, currentFrameIndex := SC.NextSlot(r.currentFrameIndex))
  {
    var advanced := r.(swapchain := sc,
                       pending := r.pending[r.currentFrameIndex := Some(fence)],
                       isFrameStarted := false,
                       currentFrameIndex := SC.NextSlot(r.currentFrameIndex));
    assert advanced.Valid() by {
      forall k | 0 <= k < SC.MAX_FRAMES_IN_FLIGHT && advanced.pending[k].Some?
        ensures advanced.pending[k].value == advanced.FenceFor(k)
      {
        FenceForAdvances(r, advanced, k);
      }
    }
    advanced
  }

  /** Advancing the swapchain slot and the renderer's frame index together
      keeps every command buffer paired with the same fence; the command
      buffer of the current frame is paired with the current slot's fence. */
  lemma FenceForAdvances(r: Renderer, next: Renderer, k: nat)
    requires r.currentFrameIndex < SC.MAX_FRAMES_IN_FLIGHT && r.swapchain.currentFrame < SC.MAX_FRAMES_IN_FLIGHT
    requires next.swapchain.currentFrame == (r.swapchain.currentFrame + 1) % SC.MAX_FRAMES_IN_FLIGHT
    requires next.currentFrameIndex == (r.currentFrameIndex + 1) % SC.MAX_FRAMES_IN_FLIGHT
    ensures next.FenceFor(k) == r.FenceFor(k)
    ensures r.FenceFor(r.currentFrameIndex) == r.swapchain.currentFrame
  {
  }

  /** The window system's resize callback. */
  function FramebufferResized(r: Renderer): (next: Renderer)
    requires r.Valid()
    ensures next.Valid() && next.windowResized
    ensures next == r.(windowResized := true)
  {
    r.(windowResized := true)
  }

  /** The GPU finishing the work guarded by a frame fence. */
  function GpuCompletes(r: Renderer, fence: nat): (next: Renderer)
    requires r.Valid() && fence < SC.MAX_FRAMES_IN_FLIGHT
    ensures next.Valid()
    ensures forall k :: 0 <= k < SC.MAX_FRAMES_IN_FLIGHT && r.pending[k] == Some(fence) ==> !next.Busy(k)
    ensures forall k :: 0 <= k < SC.MAX_FRAMES_IN_FLIGHT && !r.Busy(k) ==> !next.Busy(k)
  {
    r.(swapchain := SC.GpuSignals(r.swapchain, fence))
  }

  /** What the swapchain render pass begins: the framebuffer of the image
      acquired this frame, a render area, viewport and scissor covering the
      swapchain extent, and two clear values (colour and depth). */
  datatype RenderPassBegin = RenderPassBegin(framebuffer: SC.Framebuffer, renderArea: Extent, viewport: Extent,
                                             scissor: Extent, clearValueCount: nat)

  /** May only be called during a frame with that frame's command buffer.
      The render pass draws into the acquired image, and its area covers the
      whole framebuffer. */
  function BeginSwapChainRenderPass(r: Renderer, commandBuffer: nat): (rp: RenderPassBegin)
    requires r.Valid() && r.isFrameStarted
    requires commandBuffer == r.GetCurrentCommandBuffer()
    ensures rp.framebuffer.colorView == r.currentImageIndex && rp.framebuffer.depthView == r.currentImageIndex
    ensures rp.renderArea == Extent(rp.framebuffer.width, rp.framebuffer.height)
    ensures rp.viewport == rp.renderArea && rp.scissor == rp.renderArea
    ensures rp.renderArea == r.swapchain.extent && rp.clearValueCount == 2
  {
    var extent := r.swapchain.extent;
    RenderPassBegin(r.swapchain.GetFrameBuffer(r.currentImageIndex), extent, extent, extent, 2)
  }

  /** May only be called during a frame with that frame's command buffer;
      it records nothing but the end of the render pass. */
  function EndSwapChainRenderPass(r: Renderer, commandBuffer: nat): (ended: nat)
    requires r.Valid() && r.isFrameStarted
    requires commandBuffer == r.GetCurrentCommandBuffer()
    ensures ended == r.commandBuffers[r.currentFrameIndex]
  {
    commandBuffer
  }
}

=== FILE: scene.dfy ===
/** The scene of the specular-lighting stage: three model entities (two
    vases and a floor quad) and four point-light entities, each light with a
    FunctionComponent whose one constant parameter is its offset around the
    circle the lights are placed on; then, at the start of the run loop, a
    viewer entity without components that the camera follows. */
module Scene {
  import opened Wrappers
  import opened Ecs
  import Mgr = Manager
  import SC = Swapchain

  /** What loadObjects gives one entity: its components, in the order they
      are added, and the transform set afterwards. */
  datatype Blueprint = Blueprint(components: seq<ComponentData>, transform: Transform)

  function ModelBlueprint(path: string, translation: Vec3, scale: Vec3): Blueprint {
    Blueprint([ModelData(path)], Transform(translation, scale, Vec3(0.0, 0.0, 0.0)))
  }

  /** A light: the point-light component, then the rotating FunctionComponent
      with one parameter, its offset. */
  function LightBlueprint(color: Vec3, intensity: real, radius: real, translation: Vec3, offset: int): Blueprint {
    Blueprint([LightData(LightWith(color, intensity, radius)), FunctionData([offset])],
              Transform(translation, Vec3(1.0, 1.0, 1.0), Vec3(0.0, 0.0, 0.0)))
  }

  const MODEL_COUNT: nat := 3
  const LIGHT_COUNT: nat := 4

  /** The entities loadObjects creates, in creation order. */
  const SCENE: seq<Blueprint> := [
    ModelBlueprint("models/smooth_vase.obj", Vec3(-0.8, 0.0, 0.0), Vec3(3.0, 3.0, 3.0)),
    ModelBlueprint("models/flat_vase.obj", Vec3(0.8, 0.0, 0.0), Vec3(3.0, 3.0, 3.0)),
    ModelBlueprint("models/quad.obj", Vec3(0.0, 0.0, 0.0), Vec3(3.0, 1.0, 3.0)),
    LightBlueprint(Vec3(1.0, 0.0, 0.0), 0.7, 0.01, Vec3(1.3, -1.0, 1.3), 0),
    LightBlueprint(Vec3(0.0, 0.0, 1.0), 0.4, 0.1, Vec3(-1.3, -1.0, -1.3), 1),
    LightBlueprint(Vec3(0.0, 1.0, 0.0), 0.1, 0.05, Vec3(-1.3, -1.0, -1.3), 2),
    LightBlueprint(Vec3(1.0, 1.0, 1.0), 0.34, 0.05, Vec3(-1.3, -1.0, -1.3), 3)]

  /** The component classes the scene uses have IDs that fit the bitset. */
  predicate SceneTypesIndexable(r: Registry) {
    Mgr.Ready(r) && Indexable(r, FunctionComponentType(1))
  }

  /** Where run() puts the viewer before the first frame: 2.3 back along z
      and 0.5 up (y points down). */
  const VIEWER_START: Transform := DEFAULT_TRANSFORM.(translation := Vec3(0.0, -0.5, -2.3))

  /** The classes draw their IDs in the order loadObjects first uses them. */
  function SceneRegistry(): (r: Registry)
    ensures SceneTypesIndexable(r)
    ensures r.ids[ModelComponentType] == 0 && r.ids[PointlightComponentType] == 1 &&
            r.ids[FunctionComponentType(1)] == 2
  {
    var (r1, _) := TypeId(NEW_REGISTRY, ModelComponentType);
    var (r2, _) := TypeId(r1, PointlightComponentType);
    TypeId(r2, FunctionComponentType(1)).0
  }

  /** The presence bits of a list of components. */
  function TypeBits(ds: seq<ComponentData>, r: Registry): set<nat>
    requires forall k :: 0 <= k < |ds| ==> Indexable(r, TypeOf(ds[k]))
  {
    if ds == [] then {}
    else
      assert Indexable(r, TypeOf(ds[0]));
      {r.ids[TypeOf(ds[0])]} + TypeBits(ds[1..], r)
  }

  /** Adds the blueprint's components to an entity, in order. */
  function AddAll(e: Entity, r: Registry, ds: seq<ComponentData>): (next: Entity)
    requires r.Valid() && forall k :: 0 <= k < |ds| ==> Indexable(r, TypeOf(ds[k]))
    ensures next.id == e.id && next.alive == e.alive && next.transform == e.transform
    ensures WellFormed(e, r) ==> WellFormed(next, r)
    ensures next.components == e.components + seq(|ds|, k requires 0 <= k < |ds| => Component(e.id, ds[k]))
    ensures next.bits == e.bits + TypeBits(ds, r)
    decreases |ds|
  {
    if ds == [] then e
    else
      var added := AddComponent(e, r, ds[0]);
      var rest := AddAll(added, r, ds[1..]);
      assert e.components + seq(|ds|, k requires 0 <= k < |ds| => Component(e.id, ds[k])) ==
             added.components + seq(|ds[1..]|, k requires 0 <= k < |ds[1..]| => Component(e.id, ds[1..][k]));
      rest
  }

  /** The entity a blueprint describes, with identity `id`: a new entity
      with the blueprint's components added in order and its transform set
      (adding components leaves the transform alone, so setting it first is
      the same). */
  function Realize(b: Blueprint, id: nat, r: Registry): (e: Entity)
    requires r.Valid() && Placeable(b, r)
    ensures Placed(e, b, id, r) && WellFormed(e, r)
  {
    var placed := NewEntity(id).(transform := b.transform);
    assert WellFormed(placed, r) by {
      assert WellFormed(NewEntity(id), r);
    }
    AddAll(placed, r, b.components)
  }

  /** Every component class of the blueprint has an ID that fits the bitset. */
  predicate Placeable(b: Blueprint, r: Registry) {
    forall k :: 0 <= k < |b.components| ==> Indexable(r, TypeOf(b.components[k]))
  }

  predicate AllPlaceable(scene: seq<Blueprint>, r: Registry) {
    forall j :: 0 <= j < |scene| ==> Placeable(scene[j], r)
  }

  /** The first MODEL_COUNT blueprints carry one model component; the rest
      carry a light and a one-parameter FunctionComponent whose parameter
      counts the lights. */
  predicate ModelShaped(b: Blueprint) {
    |b.components| == 1 && b.components[0].ModelData?
  }

  predicate LightShaped(b: Blueprint, offset: int) {
    |b.components| == 2 && b.components[0].LightData? && b.components[1] == FunctionData([offset])
  }

  lemma SceneShape()
    ensures |SCENE| == MODEL_COUNT + LIGHT_COUNT
    ensures forall j :: 0 <= j < MODEL_COUNT ==> ModelShaped(SCENE[j])
    ensures forall j :: MODEL_COUNT <= j < |SCENE| ==> LightShaped(SCENE[j], j - MODEL_COUNT)
  {
  }

  lemma ScenePlaceable(r: Registry)
    requires SceneTypesIndexable(r)
    ensures AllPlaceable(SCENE, r)
  {
    SceneShape();
  }

  /** The entity `e` is what the blueprint describes with identity `id`:
      alive, with the blueprint's transform, its components in order with
      the owner set, and exactly their classes' bits. */
  predicate Placed(e: Entity, b: Blueprint, id: nat, r: Registry)
    requires Placeable(b, r)
  {
    e.id == id && e.alive && e.transform == b.transform && e.bits == TypeBits(b.components, r) &&
    |e.components| == |b.components| &&
    forall k :: 0 <= k < |b.components| ==> e.components[k] == Component(id, b.components[k])
  }

  /** A model blueprint's entity is drawn and is not a light. */
  lemma ModelEntityIsDrawnOnly(e: Entity, b: Blueprint, id: nat, r: Registry)
    requires SceneTypesIndexable(r) && ModelShaped(b) && Placeable(b, r) && Placed(e, b, id, r)
    ensures Mgr.HasModel(r, e) && !Mgr.HasLight(r, e)
  {
    assert TypeBits(b.components, r) == {r.ids[ModelComponentType]} by {
      assert b.components[1..] == [];
    }
  }

  /** A light blueprint's entity is a light, is not drawn, and carries the
      blueprint's offset. */
  lemma LightEntityIsLitOnly(e: Entity, b: Blueprint, offset: int, id: nat, r: Registry)
    requires SceneTypesIndexable(r) && LightShaped(b, offset) && Placeable(b, r) && Placed(e, b, id, r)
    ensures Mgr.HasLight(r, e) && !Mgr.HasModel(r, e)
    ensures LightOffset(e) == Some(offset)
  {
    var ds := b.components;
    assert TypeOf(ds[1]) == FunctionComponentType(1);
    assert TypeBits(ds[1..], r) == {r.ids[FunctionComponentType(1)]} by {
      assert ds[1..][0] == ds[1] && ds[1..][1..] == [];
    }
    assert TypeBits(ds, r) == {r.ids[PointlightComponentType]} + TypeBits(ds[1..], r);
    assert e.components[1] == Component(id, ds[1]);
  }

  /** The one parameter of an entity's second component when that is a
      one-parameter FunctionComponent: the light's offset around the circle. */
  function LightOffset(e: Entity): Option<int> {
    if |e.components| == 2 && e.components[1].data.FunctionData? && |e.components[1].data.params| == 1
    then Some(e.components[1].data.params[0])
    else None
  }

  /** One blueprint: addEntity, then its components and its transform set
      through the returned reference; `e` is the entity that ends up in the
      list. */
  method LoadOne(m: Mgr.Manager, r: Registry, b: Blueprint) returns (next: Mgr.Manager, e: Entity)
    requires r.Valid() && Placeable(b, r)
    ensures next == m.(entities := m.entities + [e], nextEntityId := m.nextEntityId + 1)
    ensures Placed(e, b, m.nextEntityId, r) && WellFormed(e, r)
  {
    e := Realize(b, m.nextEntityId, r);
    var added := Mgr.AddEntity(m, r).0;
    next := Mgr.SetEntity(added, r, |m.entities|, e);
    assert next.entities == m.entities + [e];
  }

  /** loadObjects: the blueprints in order, each appended as a new entity
      with the next identity; nothing else in the manager changes. */
  method LoadObjects(m: Mgr.Manager, r: Registry, scene: seq<Blueprint>) returns (next: Mgr.Manager)
    requires Mgr.Valid(m, r) && AllPlaceable(scene, r)
    ensures Mgr.Valid(next, r)
    ensures next == m.(entities := next.entities, nextEntityId := m.nextEntityId + |scene|)
    ensures |next.entities| == |m.entities| + |scene| && next.entities[..|m.entities|] == m.entities
    ensures forall j :: 0 <= j < |scene| ==> Placed(next.entities[|m.entities| + j], scene[j], m.nextEntityId + j, r)
  {
    next := m;
    var placed: seq<Entity> := [];
    for k := 0 to |scene|
      invariant next == m.(entities := m.entities + placed, nextEntityId := m.nextEntityId + k)
      invariant |placed| == k
      invariant forall j :: 0 <= j < k ==> Placed(placed[j], scene[j], m.nextEntityId + j, r) && WellFormed(placed[j], r)
    {
      assert Placeable(scene[k], r);
      var e;
      next, e := LoadOne(next, r, scene[k]);
      placed := placed + [e];
    }
    AppendKeepsValid(m, r, placed);
    assert next.entities[..|m.entities|] == m.entities;
    assert forall j :: 0 <= j < |scene| ==> next.entities[|m.entities| + j] == placed[j];
  }

  /** Appending well-formed entities whose identities continue the counter
      keeps the manager valid. */
  lemma AppendKeepsValid(m: Mgr.Manager, r: Registry, placed: seq<Entity>)
    requires Mgr.Valid(m, r)
    requires forall j :: 0 <= j < |placed| ==> WellFormed(placed[j], r) && placed[j].id == m.nextEntityId + j
    ensures Mgr.Valid(m.(entities := m.entities + placed, nextEntityId := m.nextEntityId + |placed|), r)
  {
    var es := m.entities + placed;
    assert forall i :: |m.entities| <= i < |es| ==> es[i] == placed[i - |m.entities|];
    assert forall i :: 0 <= i < |m.entities| ==> es[i] == m.entities[i];
  }

  /** The constructor's loadObjects into the new manager, then the start of
      run: the viewer entity, the camera and the viewer handed to the
      manager. Exactly the two vases and the floor are drawn, exactly the
      four lights are packed (within the UBO's capacity), the lights'
      offsets are 0, 1, 2, 3, and the viewer has no component at all. */
  method SetUpScene(m: Mgr.Manager, r: Registry, camera: Mgr.Camera) returns (next: Mgr.Manager)
    requires Mgr.Valid(m, r) && m.entities == [] && SceneTypesIndexable(r)
    ensures Mgr.Valid(next, r)
    ensures |next.entities| == |SCENE| + 1
    ensures next.camera == Some(camera) && next.viewer == Some(|SCENE|)
    ensures next.entities[|SCENE|] == NewEntity(m.nextEntityId + |SCENE|).(transform := VIEWER_START)
    ensures forall i :: 0 <= i < |next.entities| ==> (Mgr.HasModel(r, next.entities[i]) <==> i < MODEL_COUNT)
    ensures forall i :: 0 <= i < |next.entities| ==>
              (Mgr.HasLight(r, next.entities[i]) <==> MODEL_COUNT <= i < MODEL_COUNT + LIGHT_COUNT)
    ensures forall i :: MODEL_COUNT <= i < |SCENE| ==> LightOffset(next.entities[i]) == Some(i - MODEL_COUNT)
    ensures Mgr.LightEntities(next.entities, r) == next.entities[MODEL_COUNT..MODEL_COUNT + LIGHT_COUNT]
    ensures |Mgr.LightEntities(next.entities, r)| == LIGHT_COUNT <= Mgr.MAX_LIGHTS
    ensures forall f :: 0 <= f < SC.MAX_FRAMES_IN_FLIGHT ==> Mgr.Render(next, r, f).drawn == next.entities[..MODEL_COUNT]
  {
    ScenePlaceable(r);
    var loaded := LoadObjects(m, r, SCENE);
    var withViewer := Mgr.AddEntity(loaded, r).0;
    var handed := Mgr.SetViewerEntity(Mgr.SetCamera(withViewer, Some(camera)), Some(|SCENE|));
    var viewer := NewEntity(m.nextEntityId + |SCENE|).(transform := VIEWER_START);
    assert WellFormed(viewer, r);
    assert handed.entities[|SCENE|] == NewEntity(m.nextEntityId + |SCENE|);
    next := Mgr.SetEntity(handed, r, |SCENE|, viewer);
    assert forall j :: 0 <= j < |SCENE| ==> next.entities[j] == loaded.entities[j];
    ClassifyScene(next.entities, m.nextEntityId, r);
  }

  /** The classification of the loaded scene followed by the viewer. */
  lemma ClassifyScene(es: seq<Entity>, first: nat, r: Registry)
    requires SceneTypesIndexable(r) && AllPlaceable(SCENE, r)
    requires |es| == |SCENE| + 1 && es[|SCENE|] == NewEntity(first + |SCENE|).(transform := es[|SCENE|].transform)
    requires forall j :: 0 <= j < |SCENE| ==> Placed(es[j], SCENE[j], first + j, r)
    ensures forall i :: 0 <= i < |es| ==> (Mgr.HasModel(r, es[i]) <==> i < MODEL_COUNT)
    ensures forall i :: 0 <= i < |es| ==> (Mgr.HasLight(r, es[i]) <==> MODEL_COUNT <= i < MODEL_COUNT + LIGHT_COUNT)
    ensures forall i :: MODEL_COUNT <= i < |SCENE| ==> LightOffset(es[i]) == Some(i - MODEL_COUNT)
    ensures Mgr.LightEntities(es, r) == es[MODEL_COUNT..MODEL_COUNT + LIGHT_COUNT]
    ensures Select(es, Mgr.IsModel(r)) == es[..MODEL_COUNT]
  {
    SceneShape();
    forall i | 0 <= i < |es|
      ensures Mgr.HasModel(r, es[i]) <==> i < MODEL_COUNT
      ensures Mgr.HasLight(r, es[i]) <==> MODEL_COUNT <= i < MODEL_COUNT + LIGHT_COUNT
      ensures MODEL_COUNT <= i < |SCENE| ==> LightOffset(es[i]) == Some(i - MODEL_COUNT)
    {
      if i < MODEL_COUNT {
        ModelEntityIsDrawnOnly(es[i], SCENE[i], first + i, r);
      } else if i < |SCENE| {
        LightEntityIsLitOnly(es[i], SCENE[i], i - MODEL_COUNT, first + i, r);
      } else {
        NewEntityHasNoComponent(first + |SCENE|, r, ModelComponentType);
        NewEntityHasNoComponent(first + |SCENE|, r, PointlightComponentType);
      }
    }
    SelectRange(es, Mgr.IsLight(r), MODEL_COUNT, MODEL_COUNT + LIGHT_COUNT);
    SelectRange(es, Mgr.IsModel(r), 0, MODEL_COUNT);
  }
}

=== FILE: showcase.dfy ===
/** The projection showcase's run loop: two cameras (the main camera and a
    projection viewer looking at it from behind), two keys that switch the
    active camera and the two-projection view, a global UBO with a second
    projection/view pair, and the main camera's frustum drawn while the
    projection viewer is active.

    Matrices and times are floating point: a matrix is named by where it
    comes from, and time is counted in abstract ticks. */
module Showcase {
  import opened Wrappers
  import opened Vulkan
  import B = Buffer
  import SC = Swapchain
  import R = Renderer
  import U = Uniform
  import FL = FrameLoop
  import UA = UniformApps

  datatype CameraId = MainCamera | ProjectionViewer

  /** Where a UBO matrix comes from. `Lerped(m, t)` is the interpolation from
      the identity towards m after t ticks of the interpolation clock. */
  datatype Matrix = Identity | ProjectionOf(camera: CameraId) | ViewOf(camera: CameraId) | Lerped(target: Matrix, ticks: nat)

  /** The loop's view state: the two flags, the interpolation clock, and the
      two non-owning pointers to the camera and the object it follows. */
  datatype View = View(usingProjectionViewerCamera: bool, useBothProjections: bool, currLerp: nat,
                       currentCamera: CameraId, currentCameraObject: CameraId)

  /** Before the loop: both flags off, the clock at 0, the main camera active. */
  const INITIAL_VIEW: View := View(false, false, 0, MainCamera, MainCamera)

  function ActiveCamera(v: View): CameraId {
    if v.usingProjectionViewerCamera then ProjectionViewer else MainCamera
  }

  /** Both pointers name the pair the flag selects. */
  predicate PointsAtActive(v: View) {
    v.currentCamera == ActiveCamera(v) && v.currentCameraObject == ActiveCamera(v)
  }

  /** The keyboard input of one iteration. */
  datatype Input = Input(elapsed: nat, changeCamera: bool, changeProjectionView: bool)

  /** One iteration's input handling: the clock advances; a camera press
      flips the flag and re-points both pointers; a projection press flips
      the other flag and restarts the clock when that flag turns on. */
  function HandleInput(v: View, input: Input): (w: View)
    ensures w.usingProjectionViewerCamera == (v.usingProjectionViewerCamera != input.changeCamera)
    ensures w.useBothProjections == (v.useBothProjections != input.changeProjectionView)
    ensures input.changeCamera ==> PointsAtActive(w)
    ensures !input.changeCamera ==> w.currentCamera == v.currentCamera && w.currentCameraObject == v.currentCameraObject
    ensures input.changeProjectionView && w.useBothProjections ==> w.currLerp == 0
    ensures !(input.changeProjectionView && w.useBothProjections) ==> w.currLerp == v.currLerp + input.elapsed
  {
    var ticked := v.(currLerp := v.currLerp + input.elapsed);
    var switched :=
      if !input.changeCamera then ticked
      else
        var flag := !ticked.usingProjectionViewerCamera;
        var target := if flag then ProjectionViewer else MainCamera;
        ticked.(usingProjectionViewerCamera := flag, currentCamera := target, currentCameraObject := target);
    if !input.changeProjectionView then switched
    else
      var both := !switched.useBothProjections;
      switched.(useBothProjections := both, currLerp := if both then 0 else switched.currLerp)
  }

  /** The pointers always follow the flag: true before the loop and kept by
      every iteration. */
  lemma {:induction false} InputKeepsPointersOnActive(v: View, inputs: seq<Input>)
    requires PointsAtActive(v)
    ensures PointsAtActive(HandleInputs(v, inputs))
    decreases |inputs|
  {
    if inputs != [] {
      var w := HandleInput(v, inputs[0]);
      assert PointsAtActive(w);
      InputKeepsPointersOnActive(w, inputs[1..]);
    }
  }

  /** The view after a sequence of iterations' input. */
  function HandleInputs(v: View, inputs: seq<Input>): View
    decreases |inputs|
  {
    if inputs == [] then v else HandleInputs(HandleInput(v, inputs[0]), inputs[1..])
  }

  lemma InitialViewPointsAtActive()
    ensures PointsAtActive(INITIAL_VIEW) && ActiveCamera(INITIAL_VIEW) == MainCamera
  {
  }

  /** Two camera presses in a row restore the active camera. */
  lemma CameraToggleIsInvolution(v: View, first: Input, second: Input)
    requires PointsAtActive(v) && first.changeCamera && second.changeCamera
    ensures var w := HandleInput(HandleInput(v, first), second);
            w.currentCamera == v.currentCamera && w.currentCameraObject == v.currentCameraObject &&
            w.usingProjectionViewerCamera == v.usingProjectionViewerCamera
  {
  }

  // ---------------------------------------------------------------- the frame

  /** The matrices of the showcase's GlobalUbo; the ambient colour, light
      position and light colour are floating point and left out. */
  datatype ShowcaseUbo = ShowcaseUbo(projection: Matrix, view: Matrix, projection2: Matrix, view2: Matrix)

  /** The frame's UBO: the active camera's projection and view; the second
      pair interpolates towards the main camera's only while both
      projections are shown from the projection viewer, and keeps its
      identity default otherwise. */
  function FrameUbo(v: View): (ubo: ShowcaseUbo)
    ensures ubo.projection == ProjectionOf(v.currentCamera) && ubo.view == ViewOf(v.currentCamera)
    ensures ubo.projection2 == Identity && ubo.view2 == Identity <==>
            !(v.useBothProjections && v.usingProjectionViewerCamera)
    ensures v.useBothProjections && v.usingProjectionViewerCamera ==>
              ubo.projection2 == Lerped(ProjectionOf(MainCamera), v.currLerp) &&
              ubo.view2 == Lerped(ViewOf(MainCamera), v.currLerp)
  {
    var ubo := ShowcaseUbo(ProjectionOf(v.currentCamera), ViewOf(v.currentCamera), Identity, Identity);
    if v.useBothProjections && v.usingProjectionViewerCamera then
      ubo.(projection2 := Lerped(ProjectionOf(MainCamera), v.currLerp), view2 := Lerped(ViewOf(MainCamera), v.currLerp))
    else ubo
  }

  /** The render systems one frame runs, in order. */
  datatype RenderCall = RenderObjects | RenderPointLights | RenderFrustum

  /** Objects, then point lights, then the main camera's frustum only while
      the projection viewer is active. */
  function RenderCalls(v: View): (calls: seq<RenderCall>)
    ensures |calls| >= 2 && calls[0] == RenderObjects && calls[1] == RenderPointLights
    ensures RenderFrustum in calls <==> v.usingProjectionViewerCamera
    ensures forall i :: 0 <= i < |calls| - 1 ==> calls[i] != RenderFrustum
  {
    [RenderObjects, RenderPointLights] + (if v.usingProjectionViewerCamera then [RenderFrustum] else [])
  }

  /** The host bytes of a UBO; the float encoding itself is not modelled. */
  type UboEncoding = ShowcaseUbo -> seq<B.Byte>

  ghost predicate EncodesUbo(encode: UboEncoding) {
    forall u :: |encode(u)| == UA.UboSize(UA.ProjectionShowcase)
  }

  /** One iteration of the loop: input is handled whether or not a frame
      starts; when one does, the UBO built from the new view is written to
      the current slot's buffer and flushed before the pass, and the render
      systems run inside it. */
  method Iteration(r: R.Renderer, slots: U.Slots, v: View, input: Input, encode: UboEncoding, flushResult: VkResult,
                   acquire: R.AcquireAnswer, submit: R.SubmitAnswer, env: R.Environment)
    returns (res: Outcome<(R.Renderer, seq<FL.Step>)>, written: U.Slots, next: View, calls: seq<RenderCall>)
    requires r.Valid() && !r.isFrameStarted && env.Usable() && FL.AcquireFits(r, acquire)
    requires EncodesUbo(encode)
    requires U.SlotsFit(slots, UA.UboSize(UA.ProjectionShowcase)) && FL.SlotsMapped(slots)
    ensures next == HandleInput(v, input)
    ensures U.SlotsFit(written, UA.UboSize(UA.ProjectionShowcase)) && FL.SlotsMapped(written)
    ensures res.Success? ==> FL.IterationDone(r, res.value.0, res.value.1)
    ensures res.Success? ==> (res.value.1 == [] <==> acquire.result == VkOutOfDate)
    ensures res.Success? && res.value.1 == [] ==> written == slots && calls == []
    ensures res.Success? && res.value.1 != [] ==>
              res.value.1 == FL.FrameTrace(r.commandBuffers[r.currentFrameIndex],
                                           Some(FL.UboWritten(r.currentFrameIndex, B.MappedRange(0, B.WholeSize))),
                                           slots.sets[r.currentFrameIndex]) &&
              written.buffers[r.currentFrameIndex].memory[..UA.UboSize(UA.ProjectionShowcase)] == encode(FrameUbo(next)) &&
              calls == RenderCalls(next)
    ensures acquire.result !in {VkSuccess, VkSuboptimal, VkOutOfDate} ==> res == Failure(AcquireFailed)
  {
    next := HandleInput(v, input);
    var ubo := encode(FrameUbo(next));
    res, written := FL.UniformIteration(r, slots, ubo, flushResult, acquire, submit, env);
    calls := if res.Success? && res.value.1 != [] then RenderCalls(next) else [];
  }
}

=== FILE: swapchain.dfy ===
/** The swapchain: how its surface format, present mode, extent and image
    count are chosen, the per-image resources it builds, and the per-frame
    synchronisation that paces acquisition and submission. A fence is the
    index of its frame slot; its state is one "signalled" bit. */
module Swapchain {
  import opened Wrappers
  import opened Vulkan
  import Device

  /** Number of frames the CPU may record ahead of the GPU. */
  const MAX_FRAMES_IN_FLIGHT: nat := 2

  /** The frame slot after slot `i`: slots are used round-robin. */
  function NextSlot(i: nat): (j: nat)
    requires i < MAX_FRAMES_IN_FLIGHT
    ensures j < MAX_FRAMES_IN_FLIGHT && j == (i + 1) % MAX_FRAMES_IN_FLIGHT
  {
    if i + 1 == MAX_FRAMES_IN_FLIGHT then 0 else i + 1
  }

  /** The surface format preferred when the surface offers it. */
  const PREFERRED_FORMAT: SurfaceFormat := SurfaceFormat(B8G8R8A8Srgb, SrgbNonlinear)

  /** Depth formats tried, in order of preference. */
  const DEPTH_CANDIDATES: seq<Format> := [D32Sfloat, D32SfloatS8Uint, D24UnormS8Uint]

  // ---------------------------------------------------------------- configuration choices

  /** The first entry that is the preferred format, if any. */
  function ScanPreferredFormat(available: seq<SurfaceFormat>): (r: Option<SurfaceFormat>)
    ensures r.Some? <==> PREFERRED_FORMAT in available
    ensures r.Some? ==> r.value == PREFERRED_FORMAT
  {
    if |available| == 0 then None
    else if available[0].format == B8G8R8A8Srgb && available[0].colorSpace == SrgbNonlinear then Some(available[0])
    else
      assert forall f :: f in available ==> f == available[0] || f in available[1..];
      ScanPreferredFormat(available[1..])
  }

  /** The sRGB BGRA8 / sRGB-nonlinear pair when offered, otherwise the
      first format the surface lists. The surface must list at least one
      (the source reads the first entry unchecked). */
  function ChooseSwapSurfaceFormat(available: seq<SurfaceFormat>): (f: SurfaceFormat)
    requires |available| > 0
    ensures f in available
    ensures PREFERRED_FORMAT in available ==> f == PREFERRED_FORMAT
    ensures PREFERRED_FORMAT !in available ==> f == available[0]
  {
    match ScanPreferredFormat(available)
    case Some(preferred) => preferred
    case None => available[0]
  }

  /** Mailbox when the surface lists it, otherwise FIFO, which every
      surface supports whether or not it is listed. */
  function ChooseSwapPresentMode(available: seq<PresentMode>): (m: PresentMode)
    ensures m == Mailbox <==> Mailbox in available
    ensures m != Mailbox ==> m == Fifo
  {
    if |available| == 0 then Fifo
    else if available[0] == Mailbox then Mailbox
    else
      assert forall p :: p in available ==> p == available[0] || p in available[1..];
      ChooseSwapPresentMode(available[1..])
  }

  function Clamp(lo: nat, hi: nat, x: nat): nat {
    var capped := if hi < x then hi else x;
    if lo < capped then capped else lo
  }

  /** The surface's current extent, unless it carries the "window decides"
      sentinel width, in which case each dimension of the window's extent is
      clamped into the surface's [min, max] range. */
  function ChooseSwapExtent(capabilities: SurfaceCapabilities, windowExtent: Extent): (e: Extent)
    ensures capabilities.currentExtent.width != UINT32_MAX ==> e == capabilities.currentExtent
    ensures capabilities.currentExtent.width == UINT32_MAX ==>
              var lo, hi := capabilities.minImageExtent, capabilities.maxImageExtent;
              (lo.width <= hi.width ==> lo.width <= e.width <= hi.width) &&
              (lo.height <= hi.height ==> lo.height <= e.height <= hi.height) &&
              (lo.width <= windowExtent.width <= hi.width ==> e.width == windowExtent.width) &&
              (lo.height <= windowExtent.height <= hi.height ==> e.height == windowExtent.height)
    ensures capabilities.currentExtent.width == UINT32_MAX ==>
              var lo, hi := capabilities.minImageExtent, capabilities.maxImageExtent;
              (windowExtent.width < lo.width ==> e.width == lo.width) &&
              (lo.width <= hi.width < windowExtent.width ==> e.width == hi.width) &&
              (hi.width < lo.width ==> e.width == lo.width) &&
              (windowExtent.height < lo.height ==> e.height == lo.height) &&
              (lo.height <= hi.height < windowExtent.height ==> e.height == hi.height) &&
              (hi.height < lo.height ==> e.height == lo.height)
  {
    if capabilities.currentExtent.width != UINT32_MAX then capabilities.currentExtent
    else
      Extent(
        Clamp(capabilities.minImageExtent.width, capabilities.maxImageExtent.width, windowExtent.width),
        Clamp(capabilities.minImageExtent.height, capabilities.maxImageExtent.height, windowExtent.height))
  }

  /** One image more than the minimum, lowered to the maximum when the
      surface has one (a maximum of 0 means unbounded). */
  function ChooseImageCount(capabilities: SurfaceCapabilities): (n: nat)
    ensures n == capabilities.minImageCount + 1 || n == capabilities.maxImageCount
    ensures capabilities.maxImageCount > 0 ==> n <= capabilities.maxImageCount
    ensures capabilities.maxImageCount == 0 || capabilities.minImageCount < capabilities.maxImageCount ==>
              n == capabilities.minImageCount + 1
    ensures capabilities.maxImageCount == 0 || capabilities.minImageCount <= capabilities.maxImageCount ==>
              n >= capabilities.minImageCount
  {
    var n := capabilities.minImageCount + 1;
    if capabilities.maxImageCount > 0 && n > capabilities.maxImageCount then capabilities.maxImageCount else n
  }

  datatype SharingMode = Exclusive | Concurrent(families: seq<nat>)

  /** Images are shared concurrently between the two families when graphics
      and presentation use different families, exclusively otherwise. */
  function ChooseSharingMode(indices: Device.QueueFamilyIndices): (m: SharingMode)
    requires indices.IsComplete()
    ensures m.Concurrent? <==> indices.graphicsFamily != indices.presentFamily
    ensures m.Concurrent? ==> m.families == [indices.graphicsFamily.value, indices.presentFamily.value]
  {
    if indices.graphicsFamily != indices.presentFamily then
      Concurrent([indices.graphicsFamily.value, indices.presentFamily.value])
    else Exclusive
  }

  /** Concurrent sharing is chosen exactly when the logical device creates
      two distinct queues. */
  lemma SharingMatchesQueueCount(indices: Device.QueueFamilyIndices)
    requires indices.IsComplete()
    ensures ChooseSharingMode(indices).Concurrent? <==> |Device.UniqueQueueFamilies(indices)| == 2
  {
    var s := Device.UniqueQueueFamilies(indices);
    var g, p := indices.graphicsFamily.value, indices.presentFamily.value;
    if g != p {
      assert s == {g, p};
      assert |{g, p}| == |{g} + {p}| == 2;
    }
  }

  /** The depth format: the first of the three candidates whose optimal-tiling
      features include depth-stencil attachment. */
  function FindDepthFormat(device: Device.PhysicalDevice): (r: Outcome<Format>)
    ensures r.Success? ==> r.value in DEPTH_CANDIDATES &&
                           DEPTH_STENCIL_ATTACHMENT_BIT in Device.PropertiesOf(device, r.value).optimalTilingFeatures
    ensures r.Success? && r.value != D32Sfloat ==>
              DEPTH_STENCIL_ATTACHMENT_BIT !in Device.PropertiesOf(device, D32Sfloat).optimalTilingFeatures
    ensures r == Success(D24UnormS8Uint) ==>
              DEPTH_STENCIL_ATTACHMENT_BIT !in Device.PropertiesOf(device, D32SfloatS8Uint).optimalTilingFeatures
    ensures r.Failure? <==> forall c :: c in DEPTH_CANDIDATES ==>
                              DEPTH_STENCIL_ATTACHMENT_BIT !in Device.PropertiesOf(device, c).optimalTilingFeatures
  {
    var r := Device.FindSupportedFormat(device, DEPTH_CANDIDATES, Optimal, {DEPTH_STENCIL_ATTACHMENT_BIT});
    if r.Success? then
      var k :| 0 <= k < |DEPTH_CANDIDATES| && DEPTH_CANDIDATES[k] == r.value &&
               Device.SupportsFeatures(device, r.value, Optimal, {DEPTH_STENCIL_ATTACHMENT_BIT}) &&
               forall j :: 0 <= j < k ==> !Device.SupportsFeatures(device, DEPTH_CANDIDATES[j], Optimal, {DEPTH_STENCIL_ATTACHMENT_BIT});
      assert r.value != D32Sfloat ==> k > 0;
      assert r.value == D24UnormS8Uint ==> k == 2;
      assert k == 2 ==> !Device.SupportsFeatures(device, DEPTH_CANDIDATES[1], Optimal, {DEPTH_STENCIL_ATTACHMENT_BIT});
      r
    else
      r
  }

  // ---------------------------------------------------------------- the swapchain object

  datatype Aspect = ColorAspect | DepthAspect

  /** What an image view looks at: a swapchain image (by driver handle) or
      the depth image of the same index. */
  datatype ViewTarget = SwapchainImage(handle: nat) | DepthImage(index: nat)

  datatype ImageView = ImageView(target: ViewTarget, format: Format, aspect: Aspect)

  datatype DepthResource = DepthResource(extent: Extent, format: Format)

  datatype Framebuffer = Framebuffer(colorView: nat, depthView: nat, width: nat, height: nat)

  datatype Swapchain = Swapchain(
    handle: nat,
    oldSwapchain: Option<nat>,
    imageFormat: Format,
    colorSpace: ColorSpace,
    depthFormat: Format,
    extent: Extent,
    presentMode: PresentMode,
    sharing: SharingMode,
    requestedImageCount: nat,
    images: seq<nat>,
    imageViews: seq<ImageView>,
    depthImages: seq<DepthResource>,
    depthImageViews: seq<ImageView>,
    framebuffers: seq<Framebuffer>,
    fenceSignalled: seq<bool>,
    imagesInFlight: seq<Option<nat>>,
    currentFrame: nat)
  {
    /** The number of images the driver created, which every per-image
        container of a valid swapchain matches. */
    function ImageCount(): (n: nat)
      ensures Valid() ==> n == |imageViews| == |depthImageViews| == |framebuffers| == |imagesInFlight|
    {
      |images|
    }

    /** Every per-image container is sized to the image count, every per-frame
        container to MAX_FRAMES_IN_FLIGHT, every fence recorded for an image
        is one of the per-frame fences, and framebuffer `i` joins colour view
        `i` and depth view `i` at the swapchain's extent. */
    predicate Valid() {
      |imageViews| == |images| && |depthImages| == |images| &&
      |depthImageViews| == |images| && |framebuffers| == |images| &&
      |imagesInFlight| == |images| &&
      |fenceSignalled| == MAX_FRAMES_IN_FLIGHT && currentFrame < MAX_FRAMES_IN_FLIGHT &&
      (forall i :: 0 <= i < |imagesInFlight| && imagesInFlight[i].Some? ==> imagesInFlight[i].value < MAX_FRAMES_IN_FLIGHT) &&
      forall i :: 0 <= i < |framebuffers| ==> framebuffers[i] == Framebuffer(i, i, extent.width, extent.height)
    }

    function GetFrameBuffer(index: nat): (fb: Framebuffer)
      requires Valid() && index < ImageCount()
      ensures fb == framebuffers[index]
    {
      framebuffers[index]
    }
  }

  /** What the driver answers while a swapchain is being built. */
  datatype SwapchainDriver = SwapchainDriver(
    handle: nat,          // the new VkSwapchainKHR
    images: seq<nat>,     // the images it actually created (at least the requested count)
    objectsCreated: bool) // every view, image, framebuffer, semaphore and fence was created

  /** Builds a swapchain: chooses its configuration, records the predecessor
      it replaces, creates one colour view, one depth image and view and one
      framebuffer per image the driver returned, two per-frame fences created
      signalled, and an all-null image-to-fence table. */
  function CreateSwapchain(device: Device.PhysicalDevice, capabilities: SurfaceCapabilities,
                           indices: Device.QueueFamilyIndices, windowExtent: Extent,
                           previous: Option<nat>, driver: SwapchainDriver): (r: Outcome<Swapchain>)
    requires |device.surfaceFormats| > 0
    requires indices.IsComplete()
    ensures r.Success? ==> r.value.Valid()
    ensures r.Success? ==> r.value.ImageCount() == |driver.images| && r.value.currentFrame == 0
    ensures r.Success? ==> r.value.oldSwapchain == previous
    ensures r.Success? ==> r.value.imageFormat == ChooseSwapSurfaceFormat(device.surfaceFormats).format
    ensures r.Success? ==> r.value.extent == ChooseSwapExtent(capabilities, windowExtent)
    ensures r.Success? ==> r.value.presentMode == ChooseSwapPresentMode(device.presentModes)
    ensures r.Success? ==> r.value.sharing == ChooseSharingMode(indices)
    ensures r.Success? ==> r.value.requestedImageCount == ChooseImageCount(capabilities)
    ensures r.Success? ==> FindDepthFormat(device) == Success(r.value.depthFormat)
    ensures r.Success? ==> (forall f :: 0 <= f < MAX_FRAMES_IN_FLIGHT ==> r.value.fenceSignalled[f])
    ensures r.Success? ==> (forall i :: 0 <= i < r.value.ImageCount() ==> r.value.imagesInFlight[i].None?)
    ensures r.Success? ==> forall i :: 0 <= i < r.value.ImageCount() ==>
              r.value.framebuffers[i] == Framebuffer(i, i, r.value.extent.width, r.value.extent.height) &&
              r.value.imageViews[i] == ImageView(SwapchainImage(driver.images[i]), r.value.imageFormat, ColorAspect) &&
              r.value.depthImageViews[i] == ImageView(DepthImage(i), r.value.depthFormat, DepthAspect)
    ensures r.Failure? <==> !driver.objectsCreated || FindDepthFormat(device).Failure?
  {
    var surfaceFormat := ChooseSwapSurfaceFormat(device.surfaceFormats);
    var extent := ChooseSwapExtent(capabilities, windowExtent);
    if !driver.objectsCreated then Failure(CreationFailed)
    else
      var depthFormat :- FindDepthFormat(device);
      Success(Assemble(driver.handle, previous, surfaceFormat, depthFormat, extent,
                       ChooseSwapPresentMode(device.presentModes), ChooseSharingMode(indices),
                       ChooseImageCount(capabilities), driver.images))
  }

  /** The swapchain object over the driver's images: one colour view, one
      depth image and view and one framebuffer per image, both frame fences
      signalled and no image in flight. */
  function Assemble(handle: nat, previous: Option<nat>, surfaceFormat: SurfaceFormat, depthFormat: Format,
                    extent: Extent, presentMode: PresentMode, sharing: SharingMode, requested: nat,
                    images: seq<nat>): (sc: Swapchain)
    ensures sc.Valid() && sc.ImageCount() == |images| && sc.currentFrame == 0
    ensures sc.handle == handle && sc.oldSwapchain == previous && sc.extent == extent
    ensures sc.imageFormat == surfaceFormat.format && sc.colorSpace == surfaceFormat.colorSpace && sc.depthFormat == depthFormat
    ensures sc.presentMode == presentMode && sc.sharing == sharing && sc.requestedImageCount == requested
    ensures forall f :: 0 <= f < MAX_FRAMES_IN_FLIGHT ==> sc.fenceSignalled[f]
    ensures forall i :: 0 <= i < |images| ==> sc.imagesInFlight[i].None?
    ensures forall i :: 0 <= i < |images| ==>
              sc.framebuffers[i] == Framebuffer(i, i, extent.width, extent.height) &&
              sc.imageViews[i] == ImageView(SwapchainImage(images[i]), surfaceFormat.format, ColorAspect) &&
              sc.depthImageViews[i] == ImageView(DepthImage(i), depthFormat, DepthAspect)
  {
    var n := |images|;
    Swapchain(
      handle := handle,
      oldSwapchain := previous,
      imageFormat := surfaceFormat.format,
      colorSpace := surfaceFormat.colorSpace,
      depthFormat := depthFormat,
      extent := extent,
      presentMode := presentMode,
      sharing := sharing,
      requestedImageCount := requested,
      images := images,
      imageViews := seq(n, i requires 0 <= i < n => ImageView(SwapchainImage(images[i]), surfaceFormat.format, ColorAspect)),
      depthImages := seq(n, i => DepthResource(extent, depthFormat)),
      depthImageViews := seq(n, (i: nat) => ImageView(DepthImage(i), depthFormat, DepthAspect)),
      framebuffers := seq(n, (i: nat) => Framebuffer(i, i, extent.width, extent.height)),
      fenceSignalled := seq(MAX_FRAMES_IN_FLIGHT, f => true),
      imagesInFlight := seq(n, i => None),
      currentFrame := 0)
  }

  /** Two swapchains agree on their colour and their depth format. */
  function CompareSwapChainFormats(a: Swapchain, b: Swapchain): (same: bool)
    ensures same <==> a.imageFormat == b.imageFormat && a.depthFormat == b.depthFormat
  {
    a.depthFormat == b.depthFormat && a.imageFormat == b.imageFormat
  }

  /** The format comparison is an equivalence relation. */
  lemma CompareFormatsIsEquivalence(a: Swapchain, b: Swapchain, c: Swapchain)
    ensures CompareSwapChainFormats(a, a)
    ensures CompareSwapChainFormats(a, b) ==> CompareSwapChainFormats(b, a)
    ensures CompareSwapChainFormats(a, b) && CompareSwapChainFormats(b, c) ==> CompareSwapChainFormats(a, c)
  {
  }

  /** Rebuilding against an unchanged surface and device yields the same
      formats, so the format check after a recreation can only fail when
      the surface's format list or the device's depth support changed. */
  lemma RecreateKeepsFormats(device: Device.PhysicalDevice, capabilities: SurfaceCapabilities,
                             capabilities2: SurfaceCapabilities, indices: Device.QueueFamilyIndices,
                             extent1: Extent, extent2: Extent, previous: Option<nat>,
                             driver1: SwapchainDriver, driver2: SwapchainDriver)
    requires |device.surfaceFormats| > 0 && indices.IsComplete()
    requires CreateSwapchain(device, capabilities, indices, extent1, None, driver1).Success?
    requires CreateSwapchain(device, capabilities2, indices, extent2, previous, driver2).Success?
    ensures CompareSwapChainFormats(
              CreateSwapchain(device, capabilities, indices, extent1, None, driver1).value,
              CreateSwapchain(device, capabilities2, indices, extent2, previous, driver2).value)
  {
  }

  // ---------------------------------------------------------------- frame pacing

  /** Waits on the current frame's fence, then asks the driver for the next
      image with the frame's image-available semaphore. The driver's answer
      (result and index) is an input; the frame slot does not advance. */
  function AcquireNextImage(sc: Swapchain, driverResult: VkResult): (r: (Swapchain, VkResult))
    requires sc.Valid()
    ensures r.0.Valid()
    ensures r.0.fenceSignalled[sc.currentFrame]
    ensures r.0.currentFrame == sc.currentFrame
    ensures r.0 == sc.(fenceSignalled := r.0.fenceSignalled)
    ensures forall f :: 0 <= f < MAX_FRAMES_IN_FLIGHT && f != sc.currentFrame ==> r.0.fenceSignalled[f] == sc.fenceSignalled[f]
    ensures r.1 == driverResult
  {
    (sc.(fenceSignalled := sc.fenceSignalled[sc.currentFrame := true]), driverResult)
  }

  /** The synchronisation objects one submission uses. */
  datatype Submission = Submission(
    image: nat,
    waitSemaphore: nat,     // image-available semaphore of this slot
    signalSemaphore: nat,   // render-finished semaphore of this slot, also waited on by the present
    fence: nat)             // in-flight fence of this slot

  /** Waits on the fence recorded for the image (whenever one is recorded),
      records the current frame's fence for the image, resets that fence,
      submits, presents and advances the frame slot. A rejected submission
      throws. The driver's submit and present results are inputs. */
  function SubmitCommandBuffers(sc: Swapchain, imageIndex: nat, submitResult: VkResult, presentResult: VkResult)
    : (r: Outcome<(Swapchain, Submission, VkResult)>)
    requires sc.Valid() && imageIndex < sc.ImageCount()
    ensures r.Failure? <==> submitResult != VkSuccess
    ensures r.Failure? ==> r.error == SubmitFailed
    ensures r.Success? ==>
              var (next, sub, res) := r.value;
              next.Valid() &&
              res == presentResult &&
              sub == Submission(imageIndex, sc.currentFrame, sc.currentFrame, sc.currentFrame) &&
              next.currentFrame == (sc.currentFrame + 1) % MAX_FRAMES_IN_FLIGHT &&
              next.imagesInFlight == sc.imagesInFlight[imageIndex := Some(sc.currentFrame)] &&
              !next.fenceSignalled[sc.currentFrame] &&
              (sc.imagesInFlight[imageIndex].Some? && sc.imagesInFlight[imageIndex].value != sc.currentFrame ==>
                 next.fenceSignalled[sc.imagesInFlight[imageIndex].value]) &&
              (forall f :: 0 <= f < MAX_FRAMES_IN_FLIGHT && f != sc.currentFrame && Some(f) != sc.imagesInFlight[imageIndex] ==>
                 next.fenceSignalled[f] == sc.fenceSignalled[f]) &&
              next == sc.(fenceSignalled := next.fenceSignalled, imagesInFlight := next.imagesInFlight, currentFrame := next.currentFrame)
  {
    var waited := match sc.imagesInFlight[imageIndex]
      case Some(f) => sc.fenceSignalled[f := true]
      case None => sc.fenceSignalled;
    var recorded := sc.imagesInFlight[imageIndex := Some(sc.currentFrame)];
    var reset := waited[sc.currentFrame := false];
    if submitResult != VkSuccess then Failure(SubmitFailed)
    else
      var next := sc.(fenceSignalled := reset, imagesInFlight := recorded,
                      currentFrame := (sc.currentFrame + 1) % MAX_FRAMES_IN_FLIGHT);
      Success((next, Submission(imageIndex, sc.currentFrame, sc.currentFrame, sc.currentFrame), presentResult))
  }

  /** The GPU finishing the work guarded by a fence: the fence becomes signalled. */
  function GpuSignals(sc: Swapchain, fence: nat): (next: Swapchain)
    requires sc.Valid() && fence < MAX_FRAMES_IN_FLIGHT
    ensures next.Valid() && next.fenceSignalled[fence]
    ensures next == sc.(fenceSignalled := next.fenceSignalled)
    ensures forall f :: 0 <= f < MAX_FRAMES_IN_FLIGHT && f != fence ==> next.fenceSignalled[f] == sc.fenceSignalled[f]
  {
    sc.(fenceSignalled := sc.fenceSignalled[fence := true])
  }

  /** Acquire followed by submit never resets a fence that has not been
      waited on: the slot's fence is signalled when the submission resets it. */
  lemma AcquireThenSubmitWaitsBeforeReset(sc: Swapchain, acquireResult: VkResult, imageIndex: nat,
                                          submitResult: VkResult, presentResult: VkResult)
    requires sc.Valid() && imageIndex < sc.ImageCount()
    ensures var acquired := AcquireNextImage(sc, acquireResult).0;
            acquired.fenceSignalled[acquired.currentFrame] &&
            var r := SubmitCommandBuffers(acquired, imageIndex, submitResult, presentResult);
            r.Success? ==> r.value.1.fence == sc.currentFrame && r.value.0.currentFrame != sc.currentFrame
  {
  }
}

=== FILE: uniform.dfy ===
/** The per-frame-slot uniform resources that the lit applications and the
    entity manager keep: one host-mapped uniform buffer and one descriptor
    set per frame in flight, with set i describing buffer i. Each frame, the
    current slot's buffer receives the frame's uniform data and is flushed
    before the render pass. */
module Uniform {
  import opened Wrappers
  import opened Vulkan
  import opened Bits
  import B = Buffer
  import D = Descriptor
  import SC = Swapchain

  /** minUniformBufferOffsetAlignment is a power of two no larger than 256
      (the Required Limits table of the Vulkan specification). */
  const MAX_ALIGNMENT_LOG2: nat := 8

  /** The driver's answers while the slots are created, one per slot. */
  datatype SlotDriver = SlotDriver(
    bufferHandles: seq<nat>,
    mapResults: seq<VkResult>,
    allocResults: seq<VkResult>,
    setHandles: seq<nat>)
  {
    predicate Complete() {
      |bufferHandles| == SC.MAX_FRAMES_IN_FLIGHT && |mapResults| == SC.MAX_FRAMES_IN_FLIGHT &&
      |allocResults| == SC.MAX_FRAMES_IN_FLIGHT && |setHandles| == SC.MAX_FRAMES_IN_FLIGHT
    }
  }

  /** The slot resources; a set is None when its allocation failed, which the
      source ignores and leaves as a null handle. */
  datatype Slots = Slots(buffers: seq<B.Buffer>, sets: seq<Option<nat>>)

  /** One buffer and one set per slot; each buffer holds instances of
      `instanceSize` bytes with room for MAX_FRAMES_IN_FLIGHT of them. */
  predicate SlotsFit(s: Slots, instanceSize: nat) {
    |s.buffers| == SC.MAX_FRAMES_IN_FLIGHT && |s.sets| == SC.MAX_FRAMES_IN_FLIGHT &&
    forall i :: 0 <= i < |s.buffers| ==>
      s.buffers[i].Valid() && s.buffers[i].instanceSize == instanceSize &&
      instanceSize * SC.MAX_FRAMES_IN_FLIGHT <= s.buffers[i].bufferSize
  }

  /** The descriptor update that makes `target` describe all of `buffer` at binding 0. */
  predicate BindsBuffer(update: seq<D.Write>, target: nat, buffer: B.Buffer) {
    |update| == 1 && update[0].dstSet == Some(target) && update[0].dstBinding == 0 &&
    update[0].info == D.BufferInfo(B.DescriptorBufferInfo(buffer.handle, 0, B.WholeSize))
  }

  /** The aligned instance size is at least the instance size and less than
      256 bytes more. */
  lemma AlignedInstanceFits(instanceSize: nat, k: nat)
    requires instanceSize <= UINT32_MAX && k <= MAX_ALIGNMENT_LOG2
    ensures Pow2(k) <= 256 && instanceSize + Pow2(k) - 1 < WORD
    ensures var a := B.GetAlignment(instanceSize, Pow2(k));
            a % Pow2(k) == 0 && instanceSize <= a < instanceSize + Pow2(k)
  {
    Pow2Monotone(k, 8);
    assert Pow2(8) == 256;
    B.AlignmentIsLeastMultiple(instanceSize, k);
  }

  /** Creates a mapped uniform buffer per slot, then a descriptor set per slot
      whose only write points at the whole of that slot's buffer. A failed
      map or allocation is not checked, as in the source. */
  method CreateSlots(instanceSize: nat, alignmentLog2: nat, layout: D.SetLayout, pool: D.Pool, driver: SlotDriver)
    returns (slots: Slots, updates: seq<Option<seq<D.Write>>>)
    requires 0 < instanceSize <= UINT32_MAX && alignmentLog2 <= MAX_ALIGNMENT_LOG2 && driver.Complete()
    requires 0 in layout.bindings && layout.bindings[0].descriptorCount == 1
    ensures SlotsFit(slots, instanceSize) && |updates| == SC.MAX_FRAMES_IN_FLIGHT
    ensures forall i :: 0 <= i < SC.MAX_FRAMES_IN_FLIGHT ==>
              slots.buffers[i].handle == driver.bufferHandles[i] &&
              slots.buffers[i].instanceCount == SC.MAX_FRAMES_IN_FLIGHT &&
              slots.buffers[i].alignmentSize % Pow2(alignmentLog2) == 0 &&
              instanceSize <= slots.buffers[i].alignmentSize < instanceSize + Pow2(alignmentLog2) &&
              slots.buffers[i].bufferSize == slots.buffers[i].alignmentSize * SC.MAX_FRAMES_IN_FLIGHT &&
              slots.buffers[i].usage == {UNIFORM_BUFFER_USAGE_BIT} &&
              slots.buffers[i].memoryProperties == {HOST_VISIBLE_BIT} &&
              slots.buffers[i].mappedAt == (if driver.mapResults[i] == VkSuccess then Some(0) else None)
    ensures forall i :: 0 <= i < SC.MAX_FRAMES_IN_FLIGHT ==>
              (slots.sets[i].Some? <==> driver.allocResults[i] == VkSuccess) &&
              (updates[i].Some? <==> driver.allocResults[i] == VkSuccess) &&
              (updates[i].Some? ==> slots.sets[i] == Some(driver.setHandles[i]) &&
                                    BindsBuffer(updates[i].value, driver.setHandles[i], slots.buffers[i]))
  {
    var alignment := Pow2(alignmentLog2);
    AlignedInstanceFits(instanceSize, alignmentLog2);
    var aligned := B.GetAlignment(instanceSize, alignment);
    var buffers: seq<B.Buffer> := [];
    for i := 0 to SC.MAX_FRAMES_IN_FLIGHT
      invariant |buffers| == i
      invariant forall j :: 0 <= j < i ==>
                  buffers[j].Valid() && buffers[j].instanceSize == instanceSize &&
                  buffers[j].handle == driver.bufferHandles[j] &&
                  buffers[j].instanceCount == SC.MAX_FRAMES_IN_FLIGHT &&
                  buffers[j].alignmentSize == aligned &&
                  buffers[j].bufferSize == aligned * SC.MAX_FRAMES_IN_FLIGHT &&
                  buffers[j].usage == {UNIFORM_BUFFER_USAGE_BIT} &&
                  buffers[j].memoryProperties == {HOST_VISIBLE_BIT} &&
                  buffers[j].mappedAt == (if driver.mapResults[j] == VkSuccess then Some(0) else None)
    {
      var created := B.NewBuffer(driver.bufferHandles[i], instanceSize, SC.MAX_FRAMES_IN_FLIGHT,
                                 {UNIFORM_BUFFER_USAGE_BIT}, {HOST_VISIBLE_BIT}, alignment);
      var (mapped, _) := B.Map(created, B.WholeSize, 0, driver.mapResults[i]);
      buffers := buffers + [mapped];
    }
    var sets: seq<Option<nat>> := [];
    updates := [];
    for i := 0 to SC.MAX_FRAMES_IN_FLIGHT
      invariant |sets| == i && |updates| == i
      invariant forall j :: 0 <= j < i ==>
                  (sets[j].Some? <==> driver.allocResults[j] == VkSuccess) &&
                  (updates[j].Some? <==> driver.allocResults[j] == VkSuccess) &&
                  (updates[j].Some? ==> sets[j] == Some(driver.setHandles[j]) &&
                                        BindsBuffer(updates[j].value, driver.setHandles[j], buffers[j]))
    {
      var info := B.DescriptorInfo(buffers[i], B.WholeSize, 0);
      var writer := D.WriteBuffer(D.NewWriter(layout, pool), 0, info);
      var built := D.Build(writer, driver.allocResults[i], driver.setHandles[i]);
      sets := sets + [built.dstSet];
      updates := updates + [built.update];
    }
    slots := Slots(buffers, sets);
  }

  // ---------------------------------------------------------------- the per-frame write

  /** How many bytes the applications' `writeToBuffer(&ubo)` copies: the
      size argument defaults to VK_WHOLE_SIZE, so it is the whole buffer. */
  function UboCopyLengthAsWritten(b: B.Buffer): (n: nat)
    requires b.mappedAt.Some?
    ensures n == b.bufferSize
  {
    B.WriteRange(b, B.WholeSize, 0).1
  }

  /** As written, the copy reads at least twice the UBO's size from a single
      UBO, so it reads past the UBO: the copy is never in bounds. */
  lemma AsWrittenUboCopyOverreads(s: Slots, frameIndex: nat, ubo: seq<B.Byte>)
    requires SlotsFit(s, |ubo|) && 0 < |ubo| && frameIndex < SC.MAX_FRAMES_IN_FLIGHT
    requires s.buffers[frameIndex].mappedAt.Some?
    ensures UboCopyLengthAsWritten(s.buffers[frameIndex]) >= 2 * |ubo| > |ubo|
    ensures !B.WriteIsInBounds(s.buffers[frameIndex], ubo, B.WholeSize, 0)
  {
  }

  /** The intended write: the UBO's own bytes at the start of the buffer. */
  function WriteUbo(b: B.Buffer, ubo: seq<B.Byte>): (r: B.Buffer)
    requires b.Valid() && b.mappedAt == Some(0) && |ubo| <= b.bufferSize
    ensures B.WriteIsInBounds(b, ubo, B.Bytes(|ubo|), 0)
    ensures r.Valid() && r == b.(memory := r.memory)
    ensures r.memory[..|ubo|] == ubo
    ensures r.memory[|ubo|..] == b.memory[|ubo|..]
  {
    var r := B.WriteToBuffer(b, ubo, B.Bytes(|ubo|), 0);
    assert r.memory[0..|ubo|] == ubo[..|ubo|];
    assert r.memory[|ubo|..] == b.memory[|ubo|..] by {
      forall j | |ubo| <= j < b.bufferSize
        ensures r.memory[j] == b.memory[j]
      {
      }
    }
    r
  }

  /** Writes the UBO into the buffer of slot `frameIndex` and flushes that
      buffer (whole size, offset 0); the other slots are untouched. The
      applications discard the driver's answer to the flush. */
  function WriteFrameUbo(s: Slots, frameIndex: nat, ubo: seq<B.Byte>, flushResult: VkResult): (r: (Slots, B.MappedRange))
    requires SlotsFit(s, |ubo|) && frameIndex < SC.MAX_FRAMES_IN_FLIGHT
    requires s.buffers[frameIndex].mappedAt == Some(0)
    ensures SlotsFit(r.0, |ubo|) && r.0.sets == s.sets
    ensures r.0.buffers[frameIndex].memory[..|ubo|] == ubo
    ensures r.0.buffers[frameIndex] == s.buffers[frameIndex].(memory := r.0.buffers[frameIndex].memory)
    ensures forall i :: 0 <= i < SC.MAX_FRAMES_IN_FLIGHT && i != frameIndex ==> r.0.buffers[i] == s.buffers[i]
    ensures r.1 == B.MappedRange(0, B.WholeSize)
  {
    var written := WriteUbo(s.buffers[frameIndex], ubo);
    (s.(buffers := s.buffers[frameIndex := written]), B.Flush(written, B.WholeSize, 0, flushResult).0)
  }
}

=== FILE: uniform_apps.dfy ===
/** The global descriptor resources of the applications with a uniform
    buffer (3D_6 uniform, 3D_7 point light, 3D_8 billboards and the
    projection showcase). Each builds a pool sized for one uniform-buffer
    set per frame slot, a layout with the uniform buffer at binding 0, one
    mapped uniform buffer per slot and one set per slot describing that
    slot's buffer. */
module UniformApps {
  import opened Wrappers
  import opened Vulkan
  import D = Descriptor
  import SC = Swapchain
  import U = Uniform

  datatype Stage = Uniform3D6 | PointLight3D7 | Billboards3D8 | ProjectionShowcase

  /** sizeof(GlobalUbo) with std140-compatible member alignment:
      3D_6: mat4 and vec3 (76 bytes, 4-byte aligned);
      3D_7: mat4, vec4, vec3, then a 16-aligned vec4 (112);
      3D_8: two mat4, vec4, vec3, 16-aligned vec4 (176);
      showcase: four mat4, vec4, vec3, 16-aligned vec4 (304). */
  function UboSize(stage: Stage): nat {
    match stage
    case Uniform3D6 => 64 + 12
    case PointLight3D7 => 64 + 16 + 16 + 16
    case Billboards3D8 => 2 * 64 + 16 + 16 + 16
    case ProjectionShowcase => 4 * 64 + 16 + 16 + 16
  }

  /** The shader stages that see binding 0: the vertex stage only in 3D_6,
      the vertex and fragment stages afterwards. */
  function GlobalStages(stage: Stage): (flags: Flags)
    ensures D.VERTEX_STAGE in flags
    ensures D.FRAGMENT_STAGE in flags <==> stage != Uniform3D6
  {
    if stage == Uniform3D6 then {D.VERTEX_STAGE} else {D.VERTEX_STAGE, D.FRAGMENT_STAGE}
  }

  /** The pool builder chain: at most one set per frame slot and one uniform
      buffer descriptor per frame slot. */
  function GlobalPoolBuilder(): (b: D.PoolBuilder)
    ensures b.maxSets == SC.MAX_FRAMES_IN_FLIGHT && b.poolFlags == {}
    ensures b.poolSizes == [D.PoolSize(D.UniformBuffer, SC.MAX_FRAMES_IN_FLIGHT)]
  {
    D.AddPoolSize(D.SetMaxSets(D.NewPoolBuilder(), SC.MAX_FRAMES_IN_FLIGHT), D.UniformBuffer, SC.MAX_FRAMES_IN_FLIGHT)
  }

  /** The layout builder chain: a single uniform buffer at binding 0 with
      the default count of one. */
  function GlobalLayoutBuilder(stage: Stage): (b: D.LayoutBuilder)
    ensures D.WellKeyed(b.bindings)
    ensures b.bindings == map[0 := D.LayoutBinding(0, D.UniformBuffer, D.DEFAULT_DESCRIPTOR_COUNT, GlobalStages(stage))]
  {
    D.AddBinding(D.NewLayoutBuilder(), 0, D.UniformBuffer, GlobalStages(stage), D.DEFAULT_DESCRIPTOR_COUNT)
  }

  /** The uniform-buffer descriptors the slot sets use in total. */
  function UniformDescriptorsNeeded(sets: nat): nat {
    sets * D.DEFAULT_DESCRIPTOR_COUNT
  }

  /** The pool is exactly big enough for the slot sets: as many sets as
      slots, and as many uniform-buffer descriptors as the sets use. */
  lemma PoolFitsSlotSets()
    ensures GlobalPoolBuilder().maxSets == SC.MAX_FRAMES_IN_FLIGHT
    ensures GlobalPoolBuilder().poolSizes[0].count == UniformDescriptorsNeeded(SC.MAX_FRAMES_IN_FLIGHT)
  {
  }

  /** What the driver answers while the globals are built. */
  datatype GlobalsDriver = GlobalsDriver(
    poolHandle: nat, poolResult: VkResult,
    layoutHandle: nat, layoutResult: VkResult,
    alignmentLog2: nat,
    slots: U.SlotDriver)

  datatype Globals = Globals(pool: D.Pool, layout: D.SetLayout, slots: U.Slots)

  /** Builds the pool (in the constructor), then the per-slot buffers, the
      layout and the per-slot sets (at the start of `run`). A failed pool or
      layout creation throws. */
  method SetUpGlobals(stage: Stage, driver: GlobalsDriver) returns (res: Outcome<Globals>, updates: seq<Option<seq<D.Write>>>)
    requires driver.alignmentLog2 <= U.MAX_ALIGNMENT_LOG2 && driver.slots.Complete()
    ensures res.Success? <==> driver.poolResult == VkSuccess && driver.layoutResult == VkSuccess
    ensures res.Failure? ==> res.error == CreationFailed
    ensures res.Success? ==>
              var g := res.value;
              g.pool.maxSets == SC.MAX_FRAMES_IN_FLIGHT &&
              g.pool.poolSizes == [D.PoolSize(D.UniformBuffer, SC.MAX_FRAMES_IN_FLIGHT)] &&
              g.layout.bindings == map[0 := D.LayoutBinding(0, D.UniformBuffer, 1, GlobalStages(stage))] &&
              U.SlotsFit(g.slots, UboSize(stage)) && |updates| == SC.MAX_FRAMES_IN_FLIGHT
    ensures res.Success? ==> forall i :: 0 <= i < SC.MAX_FRAMES_IN_FLIGHT ==>
              res.value.slots.buffers[i].handle == driver.slots.bufferHandles[i] &&
              (updates[i].Some? <==> driver.slots.allocResults[i] == VkSuccess) &&
              (updates[i].Some? ==> res.value.slots.sets[i] == Some(driver.slots.setHandles[i]) &&
                                    U.BindsBuffer(updates[i].value, driver.slots.setHandles[i], res.value.slots.buffers[i]))
  {
    updates := [];
    var pool := D.BuildPool(GlobalPoolBuilder(), driver.poolHandle, driver.poolResult);
    if pool.Failure? {
      return Failure(pool.error), updates;
    }
    var layout := D.BuildLayout(GlobalLayoutBuilder(stage), driver.layoutHandle, driver.layoutResult);
    if layout.Failure? {
      return Failure(layout.error), updates;
    }
    var slots;
    slots, updates := U.CreateSlots(UboSize(stage), driver.alignmentLog2, layout.value, pool.value, driver.slots);
    return Success(Globals(pool.value, layout.value, slots)), updates;
  }
}

=== FILE: vulkan.dfy ===
/** The slice of the Vulkan API vocabulary the engine relies on. Every value
    the driver, the window system or the GPU hands back is an input to the
    model; these types only name the cases the engine distinguishes. */
module Vulkan {
  import opened Wrappers

  /** Result codes the engine tells apart; every other code is `VkError`. */
  datatype VkResult = VkSuccess | VkSuboptimal | VkOutOfDate | VkError

  /** The runtime errors the engine throws. Each one ends the program. */
  datatype Error =
    | AcquireFailed            // the next swapchain image could not be acquired
    | SubmitFailed             // the graphics queue rejected a submission
    | PresentFailed            // presentation failed for another reason than a stale swapchain
    | RecordFailed             // begin or end of command buffer recording failed
    | FormatChanged            // a recreated swapchain changed its colour or depth format
    | CreationFailed           // a Vulkan object (swapchain, fence, command buffer, ...) could not be created
    | NoSupportedFormat        // no candidate format has the requested features
    | NoSuitableMemoryType     // no memory type matches the filter and properties
    | NoVulkanGpu              // the instance reports no physical device at all
    | NoSuitableGpu            // every physical device scores zero
    | MissingInstanceExtension // a required instance extension is not offered
    | ModelLoadFailed          // the OBJ loader reported an error

  type Outcome<T> = Result<T, Error>

  const UINT32_MAX: nat := 0xFFFF_FFFF

  predicate IsUint32(x: int) {
    0 <= x <= UINT32_MAX
  }

  datatype Extent = Extent(width: nat, height: nat) {
    predicate HasZeroDimension() {
      width == 0 || height == 0
    }
  }

  datatype Format =
    | Undefined
    | B8G8R8A8Srgb
    | B8G8R8A8Unorm
    | D32Sfloat
    | D32SfloatS8Uint
    | D24UnormS8Uint
    | OtherFormat(code: nat)

  datatype ColorSpace = SrgbNonlinear | OtherColorSpace(code: nat)

  datatype SurfaceFormat = SurfaceFormat(format: Format, colorSpace: ColorSpace)

  datatype PresentMode = Immediate | Mailbox | Fifo | FifoRelaxed

  datatype ImageTiling = Linear | Optimal

  /** A flag word is the set of its set bit positions; `(a & f) == f` is `f <= a`. */
  type Flags = set<nat>

  /** Bit position of VK_FORMAT_FEATURE_DEPTH_STENCIL_ATTACHMENT_BIT (0x200). */
  const DEPTH_STENCIL_ATTACHMENT_BIT: nat := 9

  /** Bit position of VK_BUFFER_USAGE_UNIFORM_BUFFER_BIT (0x10). */
  const UNIFORM_BUFFER_USAGE_BIT: nat := 4

  /** Bit position of VK_MEMORY_PROPERTY_HOST_VISIBLE_BIT (0x1). */
  const HOST_VISIBLE_BIT: nat := 0

  datatype SurfaceCapabilities = SurfaceCapabilities(
    minImageCount: nat,
    maxImageCount: nat,          // 0 means "no upper limit"
    currentExtent: Extent,
    minImageExtent: Extent,
    maxImageExtent: Extent)
}

=== FILE: wrappers.dfy ===
/** Failure-compatible wrappers used throughout the model: `Option` for values
    that may be absent (a null handle, an unset optional) and `Result` for
    operations that either succeed or throw a runtime error. */
module Wrappers {

  datatype Option<+T> = None | Some(value: T) {

    predicate IsFailure() {
      None?
    }

    function PropagateFailure<U>(): Option<U>
      requires None?
    {
      None
    }

    function Extract(): T
      requires Some?
    {
      value
    }
  }

  datatype Result<+T, +E> = Success(value: T) | Failure(error: E) {

    predicate IsFailure() {
      Failure?
    }

    function PropagateFailure<U>(): Result<U, E>
      requires Failure?
    {
      Failure(error)
    }

    function Extract(): T
      requires Success?
    {
      value
    }
  }
}
